=== FILE: README.md ===
# rsnap in Dafny

rsnap takes rsync snapshots into rotating slots. A *storage profile*
names a directory under the storage root (`root/<NAME>`). Inside it, the
profile picks the slot the next copy goes into (its *current storage*).
It also picks an earlier slot that rsync hard-links unchanged files
against (its *previous storage*, passed as `--link-dest`).

There are two kinds of profile:

- Cyclic profiles reuse a fixed set of slot names. Their `backcounter`
  generates the names most recent first, from a reference time:
  - monthly: months `11`, `10`, …;
  - weekly: ISO week numbers;
  - weekday: ISO weekdays;
  - monthday: days of the month;
  - subdaily and hourly: `HH.MM.SS` clock readings.
- The snapshot profile writes a fresh timestamped directory each time.

`RSnap` turns an option map into rsync arguments and assembles the rsync
command. Its `run` accepts exit codes 0 and 23, then points a `latest`
symlink at the new slot.

The code exists in two near-identical copies: `rsnap.py` and
`pyrsnap/rsnap.py` (pyrsnap). The model covers both side by side where
they differ:

- the Monthday direction;
- the default profile;
- how options are initialised;
- the form of `build`'s result;
- the error raised on a failing exit code.

Modules:

- `Wrappers`: `Option`, `Result`, and the Python exceptions the code raises.
- `DivMod`: a few arithmetic facts about Euclidean division.
- `Calendar`: proleptic Gregorian dates and their day numbers, with
  Python's `date` ordinal (0001-01-01 is day 1). Also the day before and
  after a date, the previous month, and the ISO weekday.
- `IsoWeeks`: the ISO 8601 week date, following CPython's
  `isocalendar`: the Monday of week 1 and the year/week of a day.
- `Digits`: the `%d`, `%02d` and `%02d.%02d.%02d` formats, with their
  parsers.
- `Paths`: joining with `/`, stripping trailing slashes, `basename`,
  `dirname`, and a `realpath` that only normalises trailing slashes.
- `Slots`: the `backcounter` of every cyclic profile, as total functions
  of the reference time with length, first-element, step and wrap-around
  lemmas.
- `Options`: `ArgumentSet` as a sequence of unique-key pairs:
  - lookup, update and override-wins merge;
  - rendering to rsync tokens;
  - the prefix stripping and value coercion of a configuration section.
- `Profiles`:
  - the class registry and `get_subclass` for each copy;
  - constructing a profile for a storage root;
  - the current-slot and previous-slot queries over an abstract
    file system.
- `Command`:
  - the default option sets;
  - `RSnap.__init__` of both copies;
  - `build`: an invocation plus option map in `rsnap.py`, a flat
    argument vector in pyrsnap;
  - the exit-code decision of `run`;
  - the `latest` link.
- `ExpectedValues`: the slot names pyrsnap's unit tests expect at
  2017-11-20 18:49:12, derived from the general lemmas.

The clock and the disk are parameters:

- The reference time is a date plus a second of the day. Local time is
  taken to be UTC.
- The snapshot profile's `strftime` name is an opaque `stamp` string.
- The file system is a set of existing paths, a set of readable files,
  and a listing per directory.
- rsync's outcome is an exit code and an output string.

Two details of the code a reader might not expect:

- The exclude file is read from `storage + '/exclude.lst'`, the
  storage root, and not from the profile directory
  (`rsnap.py:295`, `pyrsnap/rsnap.py:265`).
- pyrsnap's `main` calls `build`, not `run`
  (`pyrsnap/rsnap.py:392`), so it never executes rsync. The model
  gives pyrsnap's `run` separately (`Command.RunPy`), as written:
  a failing exit code ends in TypeError (see Findings).

In `rsnap.py` no class is named 'default', the default of the
`profile` argument, so `RSnap(source, storage)` without a profile fails
with TypeError (`rsnap.py:264`, `rsnap.py:41-46`); the model keeps that
behaviour.

pyrsnap's weekday test asks for a `WorkdayProfile`, which does not exist
in either copy. The values it expects are those of `WeekdayProfile`, and
`ExpectedValues.WeekdayExpected` proves them for `WeekdayIds`.

## Model

| member | source | states |
|---|---|---|
| Calendar.DaysInMonth | rsnap.py:179-182 | every month has between 28 and 31 days |
| Calendar.YearStep | rsnap.py:187 | the day number of 1 January advances by the length of the year |
| Calendar.MonthStep | rsnap.py:187 | the day number of the 1st advances by the length of the month |
| Calendar.YearsMonotone | rsnap.py:187 | over b - a years, 1 January moves on by between 365 and 366 days per year |
| Calendar.YearOf | rsnap.py:187 | a day number lies in the year it is assigned to |
| Calendar.YearOfUnique | rsnap.py:187 | that year is the only one whose day range contains the day number |
| Calendar.MonthOf | rsnap.py:187 | a day of the year lies in the month it is assigned to |
| Calendar.MonthsMonotone | rsnap.py:187 | months of one year follow one another without overlap |
| Calendar.MonthOfUnique | rsnap.py:187 | a day of the year lies in exactly one month |
| Calendar.FromOrdinal | rsnap.py:187 | converting a day number gives a valid date with that day number |
| Calendar.OrdinalDate | rsnap.py:187 | a valid date is the only date with its day number |
| Calendar.FromToOrdinal | rsnap.py:187 | date to day number and back is the identity on valid dates |
| Calendar.PrevMonth | rsnap.py:179-182 | the result is a month, and counting months from year 0 it is exactly one month earlier: January steps back to December of the year before, any other month to the one before it |
| Calendar.MonthBoundary | rsnap.py:179-182 | day d of a month comes the previous month's length of days after day d of the previous month |
| Calendar.NextMonth | rsnap.py:179-182 | stepping forward a month is undone by stepping back a month |
| Calendar.NextOfPrevMonth | rsnap.py:179-182 | stepping back a month is undone by stepping forward a month |
| Calendar.DayBefore | rsnap.py:187 | the day before a valid date is a valid date |
| Calendar.DayAfter | pyrsnap/rsnap.py:165 | the day after a valid date is a valid date |
| Calendar.DayBeforeOrdinal | rsnap.py:187 | subtracting one day lowers the day number by one |
| Calendar.DayAfterOrdinal | pyrsnap/rsnap.py:165 | adding one day raises the day number by one |
| Calendar.DayAfterBefore | pyrsnap/rsnap.py:165 | adding a day and subtracting a day undo each other in both orders |
| Calendar.OrdinalBounds | rsnap.py:185 | a date's day number lies within its year and within its month |
| Calendar.EarlierYear | rsnap.py:185 | a date in an earlier year has a smaller day number |
| Calendar.EarlierMonth | rsnap.py:185 | a date in an earlier month of the same year has a smaller day number |
| Calendar.DateLessOrdinal | rsnap.py:185 | comparing dates field by field agrees with comparing day numbers, both directions |
| Calendar.IsoWeekday | rsnap.py:197 | the ISO weekday lies between 1 (Monday) and 7 (Sunday) |
| Calendar.IsoWeekdayBack | rsnap.py:197-198 | the day before a Monday is a Sunday; otherwise the weekday before is one less |
| IsoWeeks.Week1MondayFacts | rsnap.py:153 | week 1 of an ISO year starts on a Monday between 29 December and 4 January |
| IsoWeeks.IsoYearLength | rsnap.py:153 | an ISO year is 364 or 371 days long |
| IsoWeeks.WeeksInIsoYear | rsnap.py:153 | an ISO year has 52 or 53 weeks, and they end at the next year's week 1 |
| IsoWeeks.IsoYearsMonotone | rsnap.py:153 | later ISO years start no earlier than the end of earlier ones |
| IsoWeeks.IsoSelectMeaning | rsnap.py:153 | the year correction of `isocalendar` lands in the ISO year whose weeks contain the day, with week (day - Monday of week 1) / 7 + 1 |
| IsoWeeks.MondaysAround | rsnap.py:153 | the Mondays of week 1 around a calendar year are spaced as the correction needs |
| IsoWeeks.IsoAtCases | rsnap.py:153 | the ISO date of a day is in the previous, the same or the next ISO year, with the matching week |
| IsoWeeks.IsoSelectInYear | rsnap.py:153 | the ISO year computed for a day contains it, and the week is in range |
| IsoWeeks.IsoCalendarMeaning | rsnap.py:153 | the ISO year, week and week count of every day agree with ISO 8601's definition by week-1 Mondays |
| IsoWeeks.IsoYearsDisjoint | rsnap.py:153 | no day belongs to two ISO years |
| IsoWeeks.IsoYearUnique | rsnap.py:153 | the ISO year of a day is the one whose weeks contain it |
| IsoWeeks.IsoWeekIn | rsnap.py:153 | a day inside a given ISO year has the week counted from that year's week-1 Monday |
| IsoWeeks.PrevIsoYear | rsnap.py:153 | the ISO year before ends where the given one starts |
| IsoWeeks.WeekBeforeYear | rsnap.py:153-156 | a week before week 1 is the last week of the previous ISO year |
| IsoWeeks.IsoWeekBackAtWeekOne | rsnap.py:153-156 | one week before week 1 is week 52 or 53 of the year before, whichever it has |
| IsoWeeks.WeekBeforeInYear | rsnap.py:153-156 | a week before any other week stays in the same ISO year, one week lower |
| IsoWeeks.IsoWeekBack | rsnap.py:153-156 | going back a week lowers the week number by one, wrapping from 1 to the previous year's last week |
| Digits.DigitChar | rsnap.py:139 | a digit value becomes a digit character |
| Digits.Show1 | rsnap.py:199 | `'%d'` of a weekday is one digit that reads back as the weekday |
| Digits.Pad2 | rsnap.py:139 | `'%02d'` is two digits |
| Digits.Pad2RoundTrip | rsnap.py:139 | parsing a `'%02d'` name gives back its number |
| Digits.Pad2Injective | rsnap.py:139 | distinct numbers below 100 give distinct names, both directions |
| Digits.Show1Injective | rsnap.py:199 | distinct weekdays give distinct names, both directions |
| Digits.Hms | rsnap.py:123 | a clock reading formats as 8 characters with dots at positions 2 and 5 |
| Digits.HmsChars | rsnap.py:123 | every other character of the clock name is a digit |
| Digits.HmsRoundTrip | rsnap.py:123 | parsing a clock name gives back the second of the day |
| Digits.HmsInjective | rsnap.py:123 | distinct seconds of the day give distinct clock names, both directions |
| Paths.Join | rsnap.py:53 | `a + '/' + b` holds a, then one slash, then b |
| Paths.JoinInjective | rsnap.py:53 | under one base directory, distinct names give distinct paths, both directions |
| Paths.RStripSlash | rsnap.py:306 | `rstrip('/')` keeps a prefix that does not end in a slash and removes only slashes |
| Paths.RStripSlashFixed | rsnap.py:306 | stripping is idempotent and leaves a path without a trailing slash alone |
| Paths.RStripSlashAppended | rsnap.py:306 | stripping removes exactly the slashes appended to a path that had none |
| Paths.LastSlash | rsnap.py:306 | the position found holds the last slash of the path, or there is none |
| Paths.Basename | rsnap.py:306 | `basename` contains no slash |
| Paths.Realpath | rsnap.py:307 | a path of slashes only becomes `/`; a path without a trailing slash is unchanged |
| Paths.SplitJoin | rsnap.py:306-307 | `basename` and `dirname` of `dir/name` give back `name` and `dir` |
| Paths.RealpathOfSlot | rsnap.py:88 | the real path of a slot directory, with or without a trailing slash, is `base/name` |
| Slots.LoopYields | rsnap.py:121-127 | a `while True` loop that yields before adding `step` and stops once the total reaches `span` yields the least n with n * step >= span |
| Slots.LoopYieldsCeil | rsnap.py:121-127 | that count is ceil(span / step) |
| Slots.ClockBack | rsnap.py:122-123 | every slot lies within the day |
| Slots.SubdailySecond | rsnap.py:113-123 | slot k of a subdaily profile is a second of the day |
| Slots.SubdailyLength | rsnap.py:113-127 | subdaily yields ceil(86400 / interval) names: 288 for 300 s, 24 for hourly's 3600 s |
| Slots.FloorInDay | rsnap.py:114-115 | flooring the timestamp to the interval floors the second of the day when the interval divides a day |
| Slots.SubdailyFirst | rsnap.py:114-123 | the first name is the current clock reading floored to the interval |
| Slots.ClockStep | rsnap.py:122-125 | each later slot is one interval earlier, modulo a day |
| Slots.SubdailyStep | rsnap.py:122-125 | each name is the clock reading one interval before the previous one, modulo a day |
| Slots.ClockWrap | rsnap.py:121-127 | after a whole day the slots come round to the first |
| Slots.SubdailyWrap | rsnap.py:121-127 | one interval before the last name is the first name again |
| Slots.ClockDistinct | rsnap.py:121-127 | fewer than a day's worth of slots are pairwise different |
| Slots.SubdailyDistinct | rsnap.py:113-127 | the subdaily names are pairwise distinct |
| Slots.CycleAt | rsnap.py:137-138 | `m % n or n` stays within 1..n |
| Slots.CycleFirst | rsnap.py:137-138 | the countdown starts at the start value |
| Slots.CycleStep | rsnap.py:137-138 | each value is one less than the previous, with 1 followed by n |
| Slots.CycleDistinct | rsnap.py:137-138 | n consecutive values of the countdown are pairwise distinct |
| Slots.CycleCovers | rsnap.py:137-138 | every value 1..n occurs among them |
| Slots.Dial | rsnap.py:137-139 | the countdown names number n |
| Slots.DialShape | rsnap.py:137-139 | the names start at the start value, count down wrapping 1 to n, and are a permutation of 1..n |
| Slots.MonthsBack | rsnap.py:137-138 | stepping back k months gives a month |
| Slots.MonthsBackIsCycle | rsnap.py:137-138 | the month countdown is the calendar: name k is the month k months before now |
| Slots.MonthlyCycle | rsnap.py:136-139 | monthly yields 12 distinct two-digit names, starting at the current month, counting down and wrapping from 1 to 12, covering every month, name k being the month k months back |
| Slots.WeekdayCycleIsCalendar | rsnap.py:196-198 | the weekday countdown is the calendar: value k is the ISO weekday of the day k days back |
| Slots.WeekdayCycle | rsnap.py:196-199 | weekday yields 7 distinct one-digit names, starting at today's ISO weekday, counting down and wrapping from 1 to 7, each the weekday of a day further back, covering the week |
| Slots.IsoWeek | rsnap.py:153 | an ISO week number lies in 1..53 |
| Slots.WeeksAgoStep | rsnap.py:153-156 | the day k + 1 weeks back is one week before the day k weeks back |
| Slots.WeeklyStep | rsnap.py:153-156 | the week number k + 1 weeks back is one less than k weeks back, or the last week of the previous ISO year after week 1 |
| Slots.WeeklyShape | rsnap.py:148-158 | weekly always yields 53 names, name k being the two-digit ISO week of now minus k weeks, and each name follows the previous by the week step |
| Slots.MonthAgo | rsnap.py:179-182 | `replace` to the previous month keeps the day and gives an earlier valid date one month back, when it succeeds |
| Slots.PrevMonthLength | rsnap.py:179-182 | the previous month has 28 to 31 days |
| Slots.CountDown | rsnap.py:184-187 | the days yielded while counting down are days of the month |
| Slots.CountUp | pyrsnap/rsnap.py:164-166 | the days yielded while counting up are days of the month |
| Slots.CountDownSpan | rsnap.py:184-187 | counting down yields one name per day in the interval (prev, counter], none when it is empty |
| Slots.CountUpSpan | pyrsnap/rsnap.py:164-166 | counting up yields one name per day in the interval (prev, now], none when it is empty |
| Slots.DayLabels | rsnap.py:186 | one name per day |
| Slots.BackDayIsCycle | rsnap.py:184-187 | counting down through a month boundary is the 1..len countdown from today's day |
| Slots.ForwardDayIsCycle | pyrsnap/rsnap.py:164-166 | counting up is the same countdown read from its end |
| Slots.CountDownTail | rsnap.py:184-187 | counting down inside the previous month yields j, j - 1, … down to just above the stop day |
| Slots.CountDownHead | rsnap.py:184-187 | counting down from day j of this month yields the countdown of length len from j |
| Slots.CountUpHead | pyrsnap/rsnap.py:164-166 | counting up inside this month yields j + 1, …, today |
| Slots.CountUpMonthEnd | pyrsnap/rsnap.py:164-166 | counting up from the last day of the previous month yields 1, …, today |
| Slots.CountUpStep | pyrsnap/rsnap.py:164-166 | counting up from day j of the previous month yields j + 1 and then the count from j + 1 |
| Slots.ForwardPrepend | pyrsnap/rsnap.py:164-166 | putting j + 1 in front of the count from j + 1 gives the count from j |
| Slots.CountUpTail | pyrsnap/rsnap.py:164-166 | counting up from day j of the previous month yields the ascending count that wraps at the month's length |
| Slots.MonthdayBackShape | rsnap.py:178-187 | backward monthday fails with ValueError exactly when today's day does not exist in the previous month; otherwise it yields the previous month's length of names, starting at today's day and counting down, wrapping at that length |
| Slots.ForwardDays | pyrsnap/rsnap.py:164-166 | counting up from one month ago yields the countdown from today read backwards |
| Slots.MonthdayForwardShape | pyrsnap/rsnap.py:158-166 | forward monthday fails exactly as the backward one does; otherwise it yields the previous month's length of names, ascending and ending at today |
| Slots.MonthdayForwardEnds | pyrsnap/rsnap.py:158-166 | its first name is the day after one month ago, and its last is today's day |
| Slots.MonthdayForwardIsReverse | pyrsnap/rsnap.py:158-166 | pyrsnap's monthday names are `rsnap.py`'s in reverse order, and the two fail on the same dates |
| Options.DistinctKeys | rsnap.py:202 | pairwise distinct keys make a map |
| Options.InKeys | rsnap.py:202 | the key of every pair is a key of the map |
| Options.Lookup | rsnap.py:202 | a key is found exactly when the map has it, with a value the map pairs it with |
| Options.LookupAt | rsnap.py:202 | in a map, looking up a pair's key gives its value |
| Options.Update | rsnap.py:315-322 | setting a key keeps keys unique, adds the key, gives it the new value and leaves every other key unchanged |
| Options.Merge | rsnap.py:206-208 | merging keeps keys unique and has the keys of both sides |
| Options.MergeLookup | rsnap.py:206-208 | after a merge a key has the later set's value if it has one, and the base's otherwise |
| Options.Dashes | rsnap.py:219 | every `_` of a key becomes `-`, and nothing else changes |
| Options.Token | rsnap.py:213-240 | a pair renders to at most one token, and the only error it raises is ValueError |
| Options.Render | rsnap.py:210-242 | no more tokens than pairs, and the only error it raises is ValueError |
| Options.RenderFails | rsnap.py:222-231 | rendering fails, with ValueError, exactly when some one-character key has an argument |
| Options.UpdateRenders | rsnap.py:315-322 | setting a key to a value it accepts keeps a renderable map renderable |
| Options.RenderAppend | rsnap.py:213 | rendering two maps one after the other is rendering their concatenation |
| Options.PermSplit | rsnap.py:213 | the first pair of one arrangement sits somewhere in any other |
| Options.RenderMiddle | rsnap.py:213 | a pair in the middle contributes its tokens wherever it sits |
| Options.RenderPermutation | rsnap.py:213 | iteration order changes neither whether rendering fails nor which tokens it produces |
| Options.RenderMembers | rsnap.py:210-242 | the tokens are exactly those of the pairs |
| Options.LongTokens | rsnap.py:234-240 | a longer key renders as `--k`, `--no-k`, `--k=v`, or nothing for None |
| Options.ShortTokens | rsnap.py:221-231 | a one-character key renders as `-k` for True and nothing for False or None, and an argument raises ValueError |
| Options.ConfigValue | rsnap.py:413-422 | 'True', 'False', 'None' and '' are coerced; any other text stays a string |
| Options.ConfigValueRoundTrip | rsnap.py:413-422 | coercing the written form of a value gives it back, and writing a coerced text gives the text back ('' becomes 'None') |
| Options.ConfigOpts | rsnap.py:408-422 | no more options than items |
| Options.ConfigOptsMembers | rsnap.py:408-422 | the options are exactly the prefixed items, with the prefix removed and the value coerced |
| Options.ConfigKeys | rsnap.py:408-411 | every option key comes from a prefixed item |
| Options.StripPrefixInjective | rsnap.py:409 | two prefixed keys that strip to the same key are the same |
| Options.ConfigOptsUnique | rsnap.py:408-411 | distinct item keys give an option map with unique keys |
| Profiles.Children | rsnap.py:33-38 | subclasses are lower in the class tree |
| Profiles.WalkBelow | rsnap.py:33-38 | the walk under a class holds only classes below it |
| Profiles.WalkEachBelow | rsnap.py:33-38 | the walk under a list of classes holds only classes below them |
| Profiles.LeafWalk | rsnap.py:33-38 | a class without subclasses yields nothing |
| Profiles.LeavesWalk | rsnap.py:33-38 | a list of leaf classes walks to itself |
| Profiles.SubdailyWalk | rsnap.py:33-38 | under `SubdailyProfile` the walk yields `HourlyProfile` |
| Profiles.CyclicFirstChild | rsnap.py:33-38 | the walk under `CyclicProfile` yields the walk under its first subclass before that subclass |
| Profiles.CyclicWalk | rsnap.py:33-38 | under `CyclicProfile`: hourly, subdaily, monthly, weekly, monthday, weekday |
| Profiles.RsnapRegistry | rsnap.py:33-38 | `rsnap.py`'s children-first walk: snapshot, the cyclic profiles, then `CyclicProfile` |
| Profiles.PyRsnapRegistry | pyrsnap/rsnap.py:23-28 | pyrsnap's walk: the cyclic profiles, then `CyclicProfile` |
| Profiles.FirstIndex | rsnap.py:42-44 | the position found is the first one whose name matches |
| Profiles.FirstNamed | rsnap.py:41-46 | the class returned carries the name and is in the walk; TypeError(name) exactly when none carries it |
| Profiles.GetSubclassFound | pyrsnap/rsnap.py:30-36 | `get_subclass` never returns the root class, returns a class carrying the name, and fails with TypeError(name) |
| Profiles.FirstNamedAgree | pyrsnap/rsnap.py:30-36 | appending a class that does not declare the name changes nothing when declared and inherited names agree |
| Profiles.FirstIndexAgree | pyrsnap/rsnap.py:30-36 | the first match is at the same position; a miss runs past the appended class too |
| Profiles.ResolveAgrees | pyrsnap/rsnap.py:30-36 | the intended lookup agrees with the code's except for pyrsnap's 'default' |
| Profiles.Instantiate | rsnap.py:48-85 | a profile's directory is `root/NAME`, and a cyclic class gives a cyclic profile |
| Profiles.DigitsName | rsnap.py:88 | a non-empty name of digits is a slot name |
| Profiles.SlotIdsNames | rsnap.py:84-88 | every generated slot name is a single non-empty path component |
| Profiles.InstantiateWellFormed | rsnap.py:79-85 | a constructed profile has a usable directory and slot names |
| Profiles.NotDefault | pyrsnap/rsnap.py:20 | only the root class declares 'default'; only `CyclicProfile` inherits it |
| Profiles.DefaultLookup | pyrsnap/rsnap.py:20 | `get_subclass('default')` finds `CyclicProfile`; the intended lookup finds the root profile |
| Profiles.DefaultProfile | pyrsnap/rsnap.py:58-80 | pyrsnap's 'default' fails with StopIteration as written, and gives the timestamped profile in `root/default` as intended |
| Profiles.LookupsAgree | pyrsnap/rsnap.py:30-36 | on every other name, and on every name in `rsnap.py`, the two lookups agree |
| Profiles.CurrentStorage | rsnap.py:65-88 | a snapshot writes to `basedir/stamp`; a cyclic profile writes to `basedir/<current slot>` |
| Profiles.ScanSpec | rsnap.py:90-97 | the previous slot is the real path of the first later slot that exists, or None when the current slot repeats first or the slots run out |
| Profiles.Greatest | rsnap.py:73 | the last sorted entry is an entry and is no smaller than any other |
| Profiles.LexLeRefl | rsnap.py:73 | string order is reflexive |
| Profiles.LexLeTotal | rsnap.py:73 | string order is total |
| Profiles.LexLeTrans | rsnap.py:73 | string order is transitive |
| Profiles.LexLeAntisym | rsnap.py:73 | string order is antisymmetric |
| Profiles.GreatestOrderFree | rsnap.py:73 | the greatest entry depends only on which entries there are, not on the listing order |
| Profiles.PreviousStorage | pyrsnap/rsnap.py:51-55 | a snapshot links against `basedir/` plus its greatest entry, and has no link base exactly when the directory is missing or empty |
| Profiles.PreviousNotCurrent | rsnap.py:90-97 | a cyclic profile never links against its own current slot |
| Command.DefaultValues | rsnap.py:247-262 | one value per default key |
| Command.DefaultKeys | rsnap.py:247-262 | the default keys are distinct long options |
| Command.DefaultOpts | pyrsnap/rsnap.py:226-241 | the defaults form a map that renders; `acls` is on only in pyrsnap; `archive` is on; `verbose` is off |
| Command.BinOr | rsnap.py:266 | an empty or missing binary means `/usr/bin/rsync` |
| Command.InitOptsAsWritten | rsnap.py:268-270 | the instance options and the class options left behind are one map: the defaults overridden by the caller's |
| Command.InitOpts | rsnap.py:266-270 | the caller's options override a copy of the defaults |
| Command.OptionsLeak | rsnap.py:268-269 | as written, a job asking for `verbose` makes later jobs verbose; as intended, it does not |
| Command.NewJob | rsnap.py:264-285 | a job keeps its source and storage, its binary is `rsync_bin or RSYNC_BIN`, its options look up as the caller's over a copy of the defaults, its profile is the named one opened, and it fails exactly when the profile name does not open |
| Command.Destination | rsnap.py:324-326 | the destination gets a slash appended exactly when the source ends in one |
| Command.BuildOpts | rsnap.py:311-322 | exclusion exactly when the exclude file reads, the link base or None, every other option as it was |
| Command.Build | rsnap.py:310-328 | `build` passes on the binary and source, and its options stay a map |
| Command.BuildOptions | rsnap.py:294-322 | exclusion exactly when `storage/exclude.lst` reads; a link-dest argument exactly when there is a previous slot; every other option as the job had it |
| Command.SlotOf | rsnap.py:324 | for a profile whose current slot is a slot name, the current storage is `basedir/<slot>` |
| Command.DestinationShape | rsnap.py:324-326 | the destination ends in a slash exactly when the source does, and names the current slot once it is stripped |
| Command.BuildDestination | rsnap.py:324-328 | so does the destination of `build` |
| Command.ArgvLayout | rsnap.py:334-338 | the command exists exactly when the options render (ValueError otherwise); it is the binary, every option's tokens, the source and the destination |
| Command.LinkDestRendering | rsnap.py:320-322 | a link base renders as `--link-dest=<path>`, None as nothing |
| Command.LinkDestRendered | rsnap.py:320-338 | a link base in the options appears in the rendered command |
| Command.LinkDestToken | rsnap.py:320-338 | a previous slot appears as `--link-dest=<path>` in the command; with none the link option renders to nothing |
| Command.LookupIndex | rsnap.py:202 | a key that is present sits at some position with its value |
| Command.ExitStatus | rsnap.py:350-354 | exit codes 0 and 23 go on; any other fails with ExecutionError carrying the code and output |
| Command.ExitStatusPyAsWritten | pyrsnap/rsnap.py:304-308 | as written, any other code fails with TypeError instead |
| Command.ExitStatusLoss | pyrsnap/rsnap.py:15-16 | the two decisions agree on success; on failure only the intended one reports an ExecutionError |
| Command.Latest | rsnap.py:304-308 | the link target is a single path component |
| Command.LatestOfSlot | rsnap.py:304-308 | for a destination `base/name`, with or without a trailing slash, the link is `base/latest` and points at `name` |
| Command.Run | rsnap.py:330-369 | `run` succeeds exactly when the options render and the exit code is 0 or 23; when the options do not render it fails with ValueError before rsync runs; when they do, any other code fails with ExecutionError carrying the code and output |
| Command.RunLinksLatest | rsnap.py:356-369 | after a successful run, `latest` sits in the profile directory and names the new slot |
| Command.NewPyJob | pyrsnap/rsnap.py:243-250 | a given option set replaces the defaults wholesale; with none the defaults apply; a missing binary means `/usr/bin/rsync` |
| Command.ReplacesDefaults | pyrsnap/rsnap.py:243-250 | an explicit option set without `archive` leaves `archive` unset, though the defaults set it |
| Command.BaseOpts | pyrsnap/rsnap.py:252-255 | the rendered set is the instance's set overridden by the caller's, with the later value winning |
| Command.BaseCommandLine | pyrsnap/rsnap.py:252-257 | the base command line is the binary followed by the rendered options, and exists exactly when they render |
| Command.LinkDest | pyrsnap/rsnap.py:277-280 | one `--link-dest=<path>` argument exactly when the previous slot is present and non-empty |
| Command.ExcludeAsWritten | pyrsnap/rsnap.py:265-269 | without an exclude file the options pass unchanged; with one and no option map it fails with AttributeError |
| Command.Exclude | pyrsnap/rsnap.py:265-269 | with an exclude file the options hold `exclude-from` and `delete-excluded`; without one they pass unchanged |
| Command.ExcludeAgrees | pyrsnap/rsnap.py:265-269 | the intended step equals the code's whenever the code does not fail, and the code fails exactly on a missing map with an exclude file |
| Command.ExcludeWithoutOptions | pyrsnap/rsnap.py:265-269 | with an exclude file, `build` without options fails as written and builds a command as intended |
| Command.MonthlyOpens | pyrsnap/rsnap.py:271-274 | the name 'monthly' always opens a profile |
| Command.MonthlyInstantiates | pyrsnap/rsnap.py:110-119 | the monthly profile is always constructed |
| Command.MonthlyFound | pyrsnap/rsnap.py:30-36 | `get_subclass('monthly')` finds `MonthlyProfile` |
| Command.MonthlyInRegistry | pyrsnap/rsnap.py:23-28 | `MonthlyProfile` is third in pyrsnap's walk |
| Command.MonthlyLabel | pyrsnap/rsnap.py:114 | `MonthlyProfile` is named 'monthly' |
| Command.MonthlyNameUnique | pyrsnap/rsnap.py:114 | no other class is named 'monthly' |
| Command.ExcludeRenders | pyrsnap/rsnap.py:265-276 | adding the exclude options keeps a renderable set renderable |
| Command.AssembleLayout | pyrsnap/rsnap.py:276-291 | the argument vector starts with the binary and ends with source and destination; `--link-dest=<prev>` sits just before the source exactly when the previous slot is non-empty; the destination ends in a slash exactly when the source does |
| Command.Concatenation | pyrsnap/rsnap.py:276-291 | where the base command, the link argument, the source and the destination land |
| Command.RunPy | pyrsnap/rsnap.py:293-318 | pyrsnap's `run` as written succeeds exactly when the command builds and the exit code is 0 or 23, keeps the command, passes on a build failure, and fails with TypeError on any other exit code |
| Command.RunPyLinksLatest | pyrsnap/rsnap.py:298-318 | after a successful run of an assembled command, `latest` sits in the profile directory and names the slot just written |
| ExpectedValues.NowValid | pyrsnap/test.py:10 | the test clock is a valid time on day 736653 |
| ExpectedValues.MonthlyIdsAt | pyrsnap/test.py:16-21 | monthly name k at the test clock is month 11 - k, or 12 for the last |
| ExpectedValues.MonthlyIdsMatch | pyrsnap/test.py:16-21 | every monthly name at the test clock is the expected one |
| ExpectedValues.MonthlyLiteral | pyrsnap/test.py:20 | the expected list is that countdown |
| ExpectedValues.MonthlyExpected | pyrsnap/test.py:16-21 | monthly at the test clock is `['11', '10', …, '01', '12']` |
| ExpectedValues.TodayIsMonday | pyrsnap/test.py:10 | 2017-11-20 is a Monday |
| ExpectedValues.WeekdayIdsAt | pyrsnap/test.py:46-55 | weekday name k at the test clock is 1 first, then 8 - k |
| ExpectedValues.WeekdayLiteral | pyrsnap/test.py:55 | the expected list is that countdown |
| ExpectedValues.WeekdayExpected | pyrsnap/test.py:46-55 | weekday at the test clock is `['1', '7', '6', '5', '4', '3', '2']` |
| ExpectedValues.Week1Mondays | pyrsnap/test.py:30-33 | week 1 of ISO 2016, 2017 and 2018 starts on days 735967, 736331 and 736695 |
| ExpectedValues.WeeklyIdsNow | pyrsnap/test.py:23-28 | at the test clock weekly yields 53 names, name k being the week k weeks back |
| ExpectedValues.WeeklyIdAt | pyrsnap/test.py:23-33 | a weekly name at the test clock is the week counted from its ISO year's week-1 Monday |
| ExpectedValues.WeekLabelOf | pyrsnap/test.py:23-33 | a day inside an ISO year is labelled with its week in that year |
| ExpectedValues.Pad2Weeks | pyrsnap/test.py:33 | the expected week names are those numbers |
| ExpectedValues.WeeklyExpected | pyrsnap/test.py:23-33 | weekly at the test clock has 53 names, with ends `47, 46, …, 48, 47` |
| ExpectedValues.SubdailySeconds | pyrsnap/test.py:35-44 | subdaily slots 0, 1, 286 and 287 at the test clock are 18:45, 18:40, 18:55 and 18:50 |
| ExpectedValues.HmsAt | pyrsnap/test.py:44 | a whole-minute clock reading formats as `HH.MM.00` |
| ExpectedValues.Pad2Clock | pyrsnap/test.py:44 | the expected hour and minute fields are those numbers |
| ExpectedValues.HmsExpected | pyrsnap/test.py:44 | the four expected clock names are those readings |
| ExpectedValues.SubdailyExpected | pyrsnap/test.py:35-44 | subdaily at the test clock has 288 names, with ends `18.45.00, 18.40.00, …, 18.55.00, 18.50.00` |
| Slots.SubdailyIds | rsnap.py:113-127 | subdaily's names; their count, first name, step, wrap and distinctness are stated by `Slots.SubdailyLength`, `Slots.SubdailyFirst`, `Slots.SubdailyStep`, `Slots.SubdailyWrap` and `Slots.SubdailyDistinct` |
| Slots.MonthlyIds | rsnap.py:136-139 | monthly's names; `Slots.MonthlyCycle` states them |
| Slots.WeekdayIds | rsnap.py:196-199 | weekday's names; `Slots.WeekdayCycle` states them |
| Slots.WeeklyIds | rsnap.py:148-158 | weekly's names; `Slots.WeeklyShape` states them |
| Slots.MonthdayBackIds | rsnap.py:178-187 | `rsnap.py`'s monthday names; `Slots.MonthdayBackShape` states them and their failure |
| Slots.MonthdayForwardIds | pyrsnap/rsnap.py:158-166 | pyrsnap's monthday names; `Slots.MonthdayForwardShape`, `Slots.MonthdayForwardEnds` and `Slots.MonthdayForwardIsReverse` state them |
| Profiles.GetSubclass | rsnap.py:41-46 | `get_subclass` as written; `Profiles.GetSubclassFound` states its result and its TypeError |
| Profiles.Resolve | pyrsnap/rsnap.py:30-36 | the intended lookup that lets only the root answer to 'default'; `Profiles.ResolveAgrees`, `Profiles.DefaultLookup` and `Profiles.LookupsAgree` relate it to the code's |
| Profiles.OpenAsWritten | pyrsnap/rsnap.py:271-274 | opening a profile by name as written; `Profiles.DefaultProfile` shows its StopIteration on 'default' |
| Profiles.Open | rsnap.py:280-283 | opening a profile by name as intended; `Profiles.DefaultProfile` and `Profiles.LookupsAgree` state where it differs from the code |
| Profiles.Scan | rsnap.py:90-97 | the walk of `get_previous_storage`; `Profiles.ScanSpec` states its result |
| Command.Argv | rsnap.py:334-338 | the command list of `run`; `Command.ArgvLayout` states its layout and its ValueError |
| Command.Assemble | pyrsnap/rsnap.py:276-291 | the command list of pyrsnap's `build`; `Command.AssembleLayout` states its layout |
| Command.BuildPyAsWritten | pyrsnap/rsnap.py:259-291 | pyrsnap's `build` as written; `Command.ExcludeWithoutOptions` shows its AttributeError |
| Command.BuildPy | pyrsnap/rsnap.py:259-291 | pyrsnap's `build` as intended; `Command.ExcludeAgrees` and `Command.ExcludeWithoutOptions` relate it to the code |
| IsoWeeks.IsoCalendar | rsnap.py:153 | `isocalendar`; `IsoWeeks.IsoCalendarMeaning` and `IsoWeeks.IsoYearUnique` state its meaning |
| Paths.Dirname | rsnap.py:307 | posixpath `dirname`; `Paths.SplitJoin` states its value on `dir/name` |
| Profiles.Walk | rsnap.py:32-38 | `get_subclasses` under one class: each direct subclass's own walk, then the subclass; `Profiles.LeafWalk`, `Profiles.CyclicWalk`, `Profiles.RsnapRegistry` and `Profiles.PyRsnapRegistry` state its result |
| Profiles.WalkEach | pyrsnap/rsnap.py:22-28 | the loop of `get_subclasses` over a list of direct subclasses; `Profiles.WalkEachBelow`, `Profiles.LeavesWalk` and `Profiles.CyclicFirstChild` state its result |
| Profiles.SlotIds | rsnap.py:79-100 | the `backcounter` that `CyclicProfile.__init__` starts: each cyclic class's names, `rsnap.py`'s or pyrsnap's Monthday direction, and StopIteration for the base class; `Profiles.SlotIdsNames` and `Profiles.InstantiateWellFormed` state that every name is one path component |
| Profiles.OwnName | rsnap.py:43 | the `NAME` a class declares itself, which is what `getattr(cls, 'NAME', None)` finds in `rsnap.py`; `Profiles.NotDefault` states that only pyrsnap's root declares 'default' |
| Profiles.NameOf | pyrsnap/rsnap.py:19-20 | `cls.NAME` with inheritance, under which CyclicProfile carries the root's 'default'; `Profiles.NotDefault` and `Profiles.DefaultLookup` state it |
| Profiles.Label | pyrsnap/rsnap.py:31-36 | the name a lookup compares, declared (intended) or inherited (pyrsnap as written); `Profiles.DefaultLookup` and `Profiles.LookupsAgree` state where the two differ |

## Left out

- Time zones, daylight saving time, microseconds and the `mktime` /
  `fromtimestamp` round trip: the clock is a date plus a whole second of
  the day, and local time is taken to be UTC.
- Python's year bounds (1..9999): dates are unbounded proleptic
  Gregorian dates, so `replace` never fails on the year.
- `os.path.realpath`: only trailing slashes are normalised. Symbolic
  links and relative paths are not resolved.
- `subprocess.check_output`, `os.makedirs`, `os.unlink`, `os.symlink`,
  `open`, `os.listdir` and `os.path.exists`: the file system is a
  parameter, rsync's outcome is an exit code and output, and `run`
  returns the link to make instead of making it. A failing `symlink` is
  only printed in the source, so nothing is lost.
- The `strftime('%Y.%m.%d-%H.%M.%S.%f')` snapshot name: an opaque
  `stamp` string.
- `argparse`, `ConfigParser` reading (including its lower-casing of
  keys and the DEFAULT section), the `main` loops and all printing.
  `Options.ConfigOpts` models only the prefix stripping and value
  coercion of one section's items. The source builds a set of pairs
  there, which `dict.update` later reads as a map.
- Passing a profile as a class or instance rather than by name: the
  model only opens profiles by name.
- The `interval` keyword of the profile constructors beyond the two
  fixed intervals: `SlotIds` uses 300 s for subdaily and 3600 s for
  hourly. The reference time `now` is always passed in; its
  `datetime.now()` default is the clock, left out as above.
- Dict iteration order: an option map is a sequence of unique-key
  pairs. `Options.RenderPermutation` shows the rendered tokens do not
  depend on the order, as a multiset; no particular order is claimed.
- `ExecutionError.repr` and `MissingPathError` (its only use is the
  missing-exclude path of `build`, modelled as a condition).
- `rsnap.py`'s `_get_base_command_line` (`rsnap.py:287-292`): it is
  never called in that copy. pyrsnap's identical method is modelled as
  `Command.BaseCommandLine`.
- The mutation of the caller's option map by pyrsnap's exclude step:
  the model returns the updated map instead of changing the caller's.
- Command.LinkDestToken: with no previous slot it states that the link
  option renders to no token, not that the rendered command lacks every
  `--link-dest=` token, because a caller could pass its own
  `link-dest` string in another option.
- Profiles.PreviousStorage: its contract speaks about snapshot
  profiles; the cyclic case is stated by `Profiles.ScanSpec` over
  `Profiles.Scan`.

## Findings

| source | as written | input that shows it | evidently intended | confidence | as-written member | corrected member |
|---|---|---|---|---|---|---|
| rsnap.py:268-269 | `self.rsync_opts = self.RSYNC_OPTS` then `update` merges each instance's options into the class-level defaults | `RSnap(..., rsync_opts={'verbose': True})` then `RSnap(...)`: the second instance is verbose | each instance overrides a copy of the defaults | high, not executed | Command.OptionsLeak | Command.InitOpts |
| pyrsnap/rsnap.py:20 | `CyclicProfile` inherits `NAME = 'default'` and is the only class in the walk carrying that name (it comes last), so `get_subclass('default')` returns it and its constructor raises StopIteration | `build('default', storage, source)` | 'default' selects the root snapshot profile, the only class declaring that name | high, not executed | Profiles.DefaultProfile | Profiles.Open |
| pyrsnap/rsnap.py:265-269 | `rsync_opts.update(...)` on the default `rsync_opts=None` | `build('monthly', storage, source)` with `storage/exclude.lst` present: AttributeError | a missing option map counts as an empty one | high, not executed | Command.ExcludeWithoutOptions | Command.Exclude |
| pyrsnap/rsnap.py:15-16 | `ExecutionError(Exception)` has no constructor taking `returncode` and `output`, yet `run` raises it with those keywords | rsync exits with code 1: TypeError, and the code and output are lost | raise an ExecutionError carrying code and output, as `rsnap.py:15-24` does | high, not executed | Command.ExitStatusLoss | Command.ExitStatus |

=== FILE: calendar.dfy ===
/** The proleptic Gregorian calendar of Python's `datetime` module, over
    integer day numbers ("ordinals": 0001-01-01 is day 1, a Monday).

    Day numbers replace `datetime` arithmetic: subtracting `timedelta(days=k)`
    is subtracting `k` from the ordinal, and reading `.day`, `.month`,
    `.isoweekday()` or `.isocalendar()` goes through the conversions below. */
module Calendar {
  import opened DivMod

  /** A civil date, as Python's `date(year, month, day)`. */
  datatype Date = Date(year: int, month: int, day: int)

  predicate IsLeap(y: int) {
    y % 4 == 0 && (y % 100 != 0 || y % 400 == 0)
  }

  function DaysInYear(y: int): int {
    if IsLeap(y) then 366 else 365
  }

  function DaysInMonth(y: int, m: int): (n: int)
    requires 1 <= m <= 12
    ensures 28 <= n <= 31
  {
    if m == 2 then (if IsLeap(y) then 29 else 28)
    else if m == 4 || m == 6 || m == 9 || m == 11 then 30
    else 31
  }

  /** A date Python's `date` constructor (and `replace`) accepts; the
      bounds of Python's year range are not modelled. */
  predicate ValidDate(d: Date) {
    1 <= d.month <= 12 && 1 <= d.day <= DaysInMonth(d.year, d.month)
  }

  /** Number of days in the years before `y` (zero for year 1). */
  function DaysBeforeYear(y: int): int {
    var p := y - 1;
    p * 365 + p / 4 - p / 100 + p / 400
  }

  /** Number of days in the months of year `y` before month `m`. */
  function DaysBeforeMonth(y: int, m: int): int
    requires 1 <= m <= 12
  {
    var common :=
      if m == 1 then 0 else if m == 2 then 31 else if m == 3 then 59
      else if m == 4 then 90 else if m == 5 then 120 else if m == 6 then 151
      else if m == 7 then 181 else if m == 8 then 212 else if m == 9 then 243
      else if m == 10 then 273 else if m == 11 then 304 else 334;
    common + (if m > 2 && IsLeap(y) then 1 else 0)
  }

  /** Python's `date.toordinal()`. */
  function ToOrdinal(d: Date): int
    requires 1 <= d.month <= 12
  {
    DaysBeforeYear(d.year) + DaysBeforeMonth(d.year, d.month) + d.day
  }

  // ---------------------------------------------------------------------
  // Year and month arithmetic

  lemma DivStep(x: int, k: int)
    requires k > 0
    ensures (x + 1) / k == x / k + (if (x + 1) % k == 0 then 1 else 0)
  {
    var q, r := x / k, x % k;
    assert x == k * q + r;
    if r == k - 1 {
      DivModUnique(x + 1, k, q + 1, 0);
    } else {
      DivModUnique(x + 1, k, q, r + 1);
    }
  }

  /** One year further on is exactly that year's length further on. */
  lemma YearStep(y: int)
    ensures DaysBeforeYear(y + 1) == DaysBeforeYear(y) + DaysInYear(y)
  {
    DivStep(y - 1, 4);
    DivStep(y - 1, 100);
    DivStep(y - 1, 400);
  }

  lemma MonthStep(y: int, m: int)
    requires 1 <= m < 12
    ensures DaysBeforeMonth(y, m + 1) == DaysBeforeMonth(y, m) + DaysInMonth(y, m)
  {
  }

  lemma YearEnd(y: int)
    ensures DaysBeforeMonth(y, 12) + DaysInMonth(y, 12) == DaysInYear(y)
  {
  }

  /** Later years start later: at least 365 and at most 366 days per year. */
  lemma {:induction false} YearsMonotone(a: int, b: int)
    requires a <= b
    ensures DaysBeforeYear(a) + 365 * (b - a) <= DaysBeforeYear(b) <= DaysBeforeYear(a) + 366 * (b - a)
    decreases b - a
  {
    if a < b {
      YearsMonotone(a, b - 1);
      YearStep(b - 1);
    }
  }

  function SearchYearUp(n: int, y: int): (r: int)
    requires DaysBeforeYear(y) < n
    ensures DaysBeforeYear(r) < n <= DaysBeforeYear(r + 1)
    decreases n - DaysBeforeYear(y)
  {
    YearStep(y);
    if n <= DaysBeforeYear(y + 1) then y else SearchYearUp(n, y + 1)
  }

  function SearchYearDown(n: int, y: int): (r: int)
    requires n <= DaysBeforeYear(y + 1)
    ensures DaysBeforeYear(r) < n <= DaysBeforeYear(r + 1)
    decreases DaysBeforeYear(y) - n
  {
    YearStep(y - 1);
    if DaysBeforeYear(y) < n then y else SearchYearDown(n, y - 1)
  }

  /** The year containing day `n`. */
  function YearOf(n: int): (y: int)
    ensures DaysBeforeYear(y) < n <= DaysBeforeYear(y + 1)
  {
    var guess := n * 400 / 146097 + 1;
    if DaysBeforeYear(guess) < n then SearchYearUp(n, guess) else SearchYearDown(n, guess - 1)
  }

  /** Years do not overlap, so the year of a day is unique. */
  lemma YearOfUnique(n: int, y: int)
    requires DaysBeforeYear(y) < n <= DaysBeforeYear(y + 1)
    ensures YearOf(n) == y
  {
    var z := YearOf(n);
    if z < y {
      YearsMonotone(z + 1, y);
    } else if y < z {
      YearsMonotone(y + 1, z);
    }
  }

  function SearchMonth(y: int, r: int, m: int): (k: int)
    requires 1 <= m <= 12 && 1 <= r <= DaysBeforeMonth(y, m) + DaysInMonth(y, m)
    ensures 1 <= k <= m
    ensures DaysBeforeMonth(y, k) < r <= DaysBeforeMonth(y, k) + DaysInMonth(y, k)
  {
    if DaysBeforeMonth(y, m) < r then m
    else
      MonthStep(y, m - 1);
      SearchMonth(y, r, m - 1)
  }

  /** The month of year `y` containing its `r`-th day. */
  function MonthOf(y: int, r: int): (m: int)
    requires 1 <= r <= DaysInYear(y)
    ensures 1 <= m <= 12
    ensures DaysBeforeMonth(y, m) < r <= DaysBeforeMonth(y, m) + DaysInMonth(y, m)
  {
    YearEnd(y);
    SearchMonth(y, r, 12)
  }

  lemma {:induction false} MonthsMonotone(y: int, a: int, b: int)
    requires 1 <= a < b <= 12
    ensures DaysBeforeMonth(y, a) + DaysInMonth(y, a) <= DaysBeforeMonth(y, b)
    decreases b - a
  {
    MonthStep(y, b - 1);
    if a < b - 1 {
      MonthsMonotone(y, a, b - 1);
    }
  }

  lemma MonthOfUnique(y: int, r: int, m: int)
    requires 1 <= m <= 12
    requires DaysBeforeMonth(y, m) < r <= DaysBeforeMonth(y, m) + DaysInMonth(y, m)
    ensures 1 <= r <= DaysInYear(y) && MonthOf(y, r) == m
  {
    YearEnd(y);
    if m < 12 {
      MonthsMonotone(y, m, 12);
    }
    var k := MonthOf(y, r);
    if k < m {
      MonthsMonotone(y, k, m);
    } else if m < k {
      MonthsMonotone(y, m, k);
    }
  }

  /** Python's `date.fromordinal(n)`: the civil date of day `n`. */
  function FromOrdinal(n: int): (d: Date)
    ensures ValidDate(d)
    ensures ToOrdinal(d) == n
  {
    var y := YearOf(n);
    YearStep(y);
    var r := DayOfYear(n, y);
    var m := MonthOf(y, r);
    Date(y, m, r - DaysBeforeMonth(y, m))
  }

  /** Day `n`'s position (from 1) within year `y`. */
  function DayOfYear(n: int, y: int): int {
    n - DaysBeforeYear(y)
  }

  /** The valid date whose ordinal is `n` is the date of day `n`. */
  lemma OrdinalDate(n: int, d: Date)
    requires ValidDate(d) && ToOrdinal(d) == n
    ensures FromOrdinal(n) == d
  {
    YearStep(d.year);
    YearOfUnique(n, d.year);
    MonthOfUnique(d.year, DayOfYear(n, d.year), d.month);
  }

  /** The converse round trip: every valid date is recovered from its
      ordinal, so `ToOrdinal` is injective on valid dates. */
  lemma FromToOrdinal(d: Date)
    requires ValidDate(d)
    ensures FromOrdinal(ToOrdinal(d)) == d
  {
    OrdinalDate(ToOrdinal(d), d);
  }

  /** The calendar month before the month of `d`, as (year, month). */
  function PrevMonth(year: int, month: int): (p: (int, int))
    requires 1 <= month <= 12
    ensures 1 <= p.1 <= 12
    ensures 12 * p.0 + p.1 == 12 * year + month - 1
  {
    if month == 1 then (year - 1, 12) else (year, month - 1)
  }

  /** The first day of a month immediately follows the last day of the
      month before. */
  lemma MonthBoundary(year: int, month: int, day: int)
    requires 1 <= month <= 12
    ensures var (py, pm) := PrevMonth(year, month);
            ToOrdinal(Date(year, month, day)) == ToOrdinal(Date(py, pm, day)) + DaysInMonth(py, pm)
  {
    if month == 1 {
      YearStep(year - 1);
      YearEnd(year - 1);
    } else {
      MonthStep(year, month - 1);
    }
  }

  /** The calendar month after (year, month). */
  function NextMonth(year: int, month: int): (p: (int, int))
    requires 1 <= month <= 12
    ensures 1 <= p.1 <= 12
    ensures PrevMonth(p.0, p.1) == (year, month)
  {
    if month == 12 then (year + 1, 1) else (year, month + 1)
  }

  lemma NextOfPrevMonth(year: int, month: int)
    requires 1 <= month <= 12
    ensures NextMonth(PrevMonth(year, month).0, PrevMonth(year, month).1) == (year, month)
  {
  }

  /** `d - timedelta(days=1)`: the day before, the last day of the
      previous month on the first of a month. */
  function DayBefore(d: Date): (r: Date)
    requires ValidDate(d)
    ensures ValidDate(r)
  {
    if d.day > 1 then Date(d.year, d.month, d.day - 1)
    else
      var (py, pm) := PrevMonth(d.year, d.month);
      Date(py, pm, DaysInMonth(py, pm))
  }

  /** `d + timedelta(days=1)`: the day after, the first of the next month
      after a month's last day. */
  function DayAfter(d: Date): (r: Date)
    requires ValidDate(d)
    ensures ValidDate(r)
  {
    if d.day < DaysInMonth(d.year, d.month) then Date(d.year, d.month, d.day + 1)
    else
      var (ny, nm) := NextMonth(d.year, d.month);
      Date(ny, nm, 1)
  }

  /** Stepping a day back or forth moves the ordinal by exactly one, so
      `DayBefore` and `DayAfter` agree with ordinal arithmetic. */
  lemma DayBeforeOrdinal(d: Date)
    requires ValidDate(d)
    ensures ToOrdinal(DayBefore(d)) == ToOrdinal(d) - 1
  {
    if d.day == 1 {
      MonthBoundary(d.year, d.month, 1);
    }
  }

  lemma DayAfterOrdinal(d: Date)
    requires ValidDate(d)
    ensures ToOrdinal(DayAfter(d)) == ToOrdinal(d) + 1
  {
    if d.day == DaysInMonth(d.year, d.month) {
      var (ny, nm) := NextMonth(d.year, d.month);
      MonthBoundary(ny, nm, 1);
    }
  }

  /** The two steps undo each other. */
  lemma DayAfterBefore(d: Date)
    requires ValidDate(d)
    ensures DayAfter(DayBefore(d)) == d
    ensures DayBefore(DayAfter(d)) == d
  {
    var b, a := DayBefore(d), DayAfter(d);
    DayBeforeOrdinal(d);
    DayAfterOrdinal(d);
    DayAfterOrdinal(b);
    DayBeforeOrdinal(a);
    FromToOrdinal(d);
    FromToOrdinal(DayAfter(b));
    FromToOrdinal(DayBefore(a));
  }

  /** Python's comparison of dates: by year, then month, then day. */
  predicate DateLess(a: Date, b: Date) {
    a.year < b.year
    || (a.year == b.year && a.month < b.month)
    || (a.year == b.year && a.month == b.month && a.day < b.day)
  }

  /** An ordinal lies strictly inside its year and month. */
  lemma OrdinalBounds(d: Date)
    requires ValidDate(d)
    ensures DaysBeforeYear(d.year) < ToOrdinal(d) <= DaysBeforeYear(d.year + 1)
    ensures ToOrdinal(Date(d.year, d.month, 1)) <= ToOrdinal(d)
    ensures ToOrdinal(d) < ToOrdinal(Date(d.year, d.month, 1)) + DaysInMonth(d.year, d.month)
  {
    YearStep(d.year);
    YearEnd(d.year);
    if d.month < 12 {
      MonthsMonotone(d.year, d.month, 12);
    }
  }

  lemma EarlierYear(a: Date, b: Date)
    requires ValidDate(a) && ValidDate(b) && a.year < b.year
    ensures ToOrdinal(a) < ToOrdinal(b)
  {
    OrdinalBounds(a);
    OrdinalBounds(b);
    YearsMonotone(a.year + 1, b.year);
  }

  lemma EarlierMonth(a: Date, b: Date)
    requires ValidDate(a) && ValidDate(b) && a.year == b.year && a.month < b.month
    ensures ToOrdinal(a) < ToOrdinal(b)
  {
    MonthsMonotone(a.year, a.month, b.month);
  }

  /** Date order is ordinal order. */
  lemma DateLessOrdinal(a: Date, b: Date)
    requires ValidDate(a) && ValidDate(b)
    ensures DateLess(a, b) <==> ToOrdinal(a) < ToOrdinal(b)
  {
    if a.year < b.year {
      EarlierYear(a, b);
    } else if b.year < a.year {
      EarlierYear(b, a);
    } else if a.month < b.month {
      EarlierMonth(a, b);
    } else if b.month < a.month {
      EarlierMonth(b, a);
    }
  }

  // ---------------------------------------------------------------------
  // Weekdays and ISO 8601 week dates

  /** Python's `isoweekday()`: 1 is Monday, 7 is Sunday (`n % 7 or 7`). */
  function IsoWeekday(n: int): (w: int)
    ensures 1 <= w <= 7
  {
    if n % 7 == 0 then 7 else n % 7
  }

  /** The day before is the weekday before, Monday wrapping to Sunday. */
  lemma IsoWeekdayBack(n: int)
    ensures IsoWeekday(n - 1) == if IsoWeekday(n) == 1 then 7 else IsoWeekday(n) - 1
  {
    ModPred(n, 7);
  }
}

/** ISO 8601 week dates, as Python's `isocalendar()` computes them. */
module IsoWeeks {
  import opened DivMod
  import opened Calendar

  /** The Monday of ISO week 1 of year `y`: the Monday of the week that
      holds the year's first Thursday (Python's `_isoweek1monday`). */
  function Week1Monday(y: int): int {
    var firstday := DaysBeforeYear(y) + 1;
    var firstweekday := (firstday + 6) % 7;
    var monday := firstday - firstweekday;
    if firstweekday > 3 then monday + 7 else monday
  }

  lemma Week1MondayFacts(y: int)
    ensures Week1Monday(y) % 7 == 1
    ensures DaysBeforeYear(y) - 2 <= Week1Monday(y) <= DaysBeforeYear(y) + 4
  {
    var f := DaysBeforeYear(y) + 1;
    var q := (f + 6) / 7;
    assert f + 6 == 7 * q + (f + 6) % 7;
    var w := f - (f + 6) % 7;
    assert w == 7 * (q - 1) + 1;
    DivModUnique(w, 7, q - 1, 1);
    DivModUnique(w + 7, 7, q, 1);
  }

  /** Two Mondays numbered `1 mod 7`, each within [-2, +4] days of its
      year's start, are 52 or 53 weeks apart when the years are 365 or 366
      days apart. */
  lemma MondayGap(a: int, b: int, d0: int, d1: int)
    requires a % 7 == 1 && b % 7 == 1
    requires d0 - 2 <= a <= d0 + 4 && d1 - 2 <= b <= d1 + 4
    requires d1 - d0 == 365 || d1 - d0 == 366
    ensures b - a == 364 || b - a == 371
  {
    var qa, qb := a / 7, b / 7;
    assert a == 7 * qa + 1 && b == 7 * qb + 1;
    assert b - a == 7 * (qb - qa);
  }

  /** An ISO year has 52 or 53 weeks. */
  lemma IsoYearLength(y: int)
    ensures Week1Monday(y + 1) - Week1Monday(y) == 364 || Week1Monday(y + 1) - Week1Monday(y) == 371
  {
    Week1MondayFacts(y);
    Week1MondayFacts(y + 1);
    YearStep(y);
    MondayGap(Week1Monday(y), Week1Monday(y + 1), DaysBeforeYear(y), DaysBeforeYear(y + 1));
  }

  function WeeksInIsoYear(y: int): (w: int)
    ensures w == 52 || w == 53
    ensures Week1Monday(y) + 7 * w == Week1Monday(y + 1)
  {
    IsoYearLength(y);
    (Week1Monday(y + 1) - Week1Monday(y)) / 7
  }

  lemma {:induction false} IsoYearsMonotone(a: int, b: int)
    requires a < b
    ensures Week1Monday(a + 1) <= Week1Monday(b)
    decreases b - a
  {
    if a + 1 < b {
      IsoYearsMonotone(a, b - 1);
      IsoYearLength(b - 1);
    }
  }

  /** ISO year, week number and weekday, as Python's `isocalendar()`. */
  datatype IsoDate = IsoDate(year: int, week: int, weekday: int)

  /** `isocalendar()` of day `n` in calendar year `y`, given the week-1
      Mondays of the years `y - 1`, `y` and `y + 1`. */
  function IsoSelect(n: int, y: int, mondayPrev: int, monday: int, mondayNext: int): IsoDate {
    var week := (n - monday) / 7;
    var day := (n - monday) % 7;
    if week < 0 then
      IsoDate(y - 1, (n - mondayPrev) / 7 + 1, (n - mondayPrev) % 7 + 1)
    else if week >= 52 && n >= mondayNext then
      IsoDate(y + 1, 1, day + 1)
    else
      IsoDate(y, week + 1, day + 1)
  }

  /** `isocalendar()` of day `n`, knowing it falls in calendar year `y`. */
  function IsoAt(n: int, y: int): IsoDate {
    IsoSelect(n, y, Week1Monday(y - 1), Week1Monday(y), Week1Monday(y + 1))
  }

  function IsoCalendar(n: int): IsoDate {
    IsoAt(n, YearOf(n))
  }

  /** Day `n` falls in ISO year `iy`: on or after its week-1 Monday and
      before the next year's. */
  predicate InIsoYear(n: int, iy: int) {
    Week1Monday(iy) <= n < Week1Monday(iy + 1)
  }

  /** The arithmetic core of `IsoCalendarMeaning`, over the week-1 Mondays
      `m0 <= m1 <= m2 <= m3` of four consecutive years. */
  lemma IsoSelectMeaning(n: int, y: int, d: int, m0: int, m1: int, m2: int, m3: int)
    requires m1 - m0 == 364 || m1 - m0 == 371
    requires m2 - m1 == 364 || m2 - m1 == 371
    requires m3 - m2 == 364 || m3 - m2 == 371
    requires d - 2 <= m1 <= d + 4 && d < n <= d + 366 && n + 3 <= m3
    requires n < m2 + 7
    ensures var c := IsoSelect(n, y, m0, m1, m2);
            y - 1 <= c.year <= y + 1 && 1 <= c.week
    ensures var c := IsoSelect(n, y, m0, m1, m2);
            c.year == y - 1 ==> m0 <= n < m1 && c.week == (n - m0) / 7 + 1 && 7 * c.week <= m1 - m0
    ensures var c := IsoSelect(n, y, m0, m1, m2);
            c.year == y ==> m1 <= n < m2 && c.week == (n - m1) / 7 + 1 && 7 * c.week <= m2 - m1
    ensures var c := IsoSelect(n, y, m0, m1, m2);
            c.year == y + 1 ==> m2 <= n < m3 && c.week == (n - m2) / 7 + 1 && 7 * c.week <= m3 - m2
  {
    var x := n - m1;
    DivModUnique(x, 7, x / 7, x % 7);
    if x / 7 < 0 {
      var x' := n - m0;
      DivModUnique(x', 7, x' / 7, x' % 7);
    } else if x / 7 >= 52 && n >= m2 {
      DivModUnique(n - m2, 7, 0, n - m2);
    }
  }

  /** Bounds and week number of a day, read off ISO year `iy`'s Mondays. */
  lemma InIsoYearAt(n: int, iy: int, lo: int, hi: int, week: int)
    requires lo == Week1Monday(iy) && hi == Week1Monday(iy + 1)
    requires lo <= n < hi && week == (n - lo) / 7 + 1 && 1 <= week && 7 * week <= hi - lo
    ensures InIsoYear(n, iy)
    ensures week == (n - Week1Monday(iy)) / 7 + 1 && 1 <= week <= WeeksInIsoYear(iy)
  {
  }

  /** The week-1 Mondays of the ISO years around calendar year `y` satisfy
      the hypotheses of `IsoSelectMeaning` for any day `n` of year `y`. */
  lemma MondaysAround(n: int, y: int)
    requires DaysBeforeYear(y) < n <= DaysBeforeYear(y + 1)
    ensures var d, m0, m1, m2, m3 := DaysBeforeYear(y), Week1Monday(y - 1), Week1Monday(y), Week1Monday(y + 1), Week1Monday(y + 2);
            && (m1 - m0 == 364 || m1 - m0 == 371)
            && (m2 - m1 == 364 || m2 - m1 == 371)
            && (m3 - m2 == 364 || m3 - m2 == 371)
            && d - 2 <= m1 <= d + 4 && d < n <= d + 366 && n + 3 <= m3
            && n < m2 + 7
  {
    IsoYearLength(y - 1);
    IsoYearLength(y);
    IsoYearLength(y + 1);
    Week1MondayFacts(y);
    Week1MondayFacts(y + 1);
    Week1MondayFacts(y + 2);
    YearStep(y);
    YearStep(y + 1);
  }

  /** The three outcomes of `IsoAt` for a day `n` of calendar year `y`. */
  lemma IsoAtCases(n: int, y: int)
    requires DaysBeforeYear(y) < n <= DaysBeforeYear(y + 1)
    ensures var c, m0, m1, m2, m3 := IsoAt(n, y), Week1Monday(y - 1), Week1Monday(y), Week1Monday(y + 1), Week1Monday(y + 2);
            || (c.year == y - 1 && m0 <= n < m1 && c.week == (n - m0) / 7 + 1 && 1 <= c.week && 7 * c.week <= m1 - m0)
            || (c.year == y && m1 <= n < m2 && c.week == (n - m1) / 7 + 1 && 1 <= c.week && 7 * c.week <= m2 - m1)
            || (c.year == y + 1 && m2 <= n < m3 && c.week == (n - m2) / 7 + 1 && 1 <= c.week && 7 * c.week <= m3 - m2)
  {
    var m0, m1, m2, m3 := Week1Monday(y - 1), Week1Monday(y), Week1Monday(y + 1), Week1Monday(y + 2);
    MondaysAround(n, y);
    IsoSelectMeaning(n, y, DaysBeforeYear(y), m0, m1, m2, m3);
  }

  /** `IsoAt` for a day `n` of calendar year `y` places `n` in the ISO
      year it reports. */
  lemma IsoSelectInYear(n: int, y: int)
    requires DaysBeforeYear(y) < n <= DaysBeforeYear(y + 1)
    ensures var c := IsoAt(n, y);
            && InIsoYear(n, c.year)
            && c.week == (n - Week1Monday(c.year)) / 7 + 1
            && 1 <= c.week <= WeeksInIsoYear(c.year)
  {
    IsoAtCases(n, y);
    var c := IsoAt(n, y);
    var m0, m1, m2, m3 := Week1Monday(y - 1), Week1Monday(y), Week1Monday(y + 1), Week1Monday(y + 2);
    if c.year == y - 1 {
      InIsoYearAt(n, y - 1, m0, m1, c.week);
    } else if c.year == y {
      InIsoYearAt(n, y, m1, m2, c.week);
    } else {
      InIsoYearAt(n, y + 1, m2, m3, c.week);
    }
  }

  /** The ISO 8601 meaning of `isocalendar()`: day `n` lies in ISO year
      `c.year`, which runs from its week-1 Monday to the next year's, and
      `c.week` counts whole weeks from that Monday. */
  lemma IsoCalendarMeaning(n: int)
    ensures InIsoYear(n, IsoCalendar(n).year)
    ensures IsoCalendar(n).week == (n - Week1Monday(IsoCalendar(n).year)) / 7 + 1
    ensures 1 <= IsoCalendar(n).week <= WeeksInIsoYear(IsoCalendar(n).year)
  {
    IsoSelectInYear(n, YearOf(n));
  }

  /** ISO years do not overlap. */
  lemma IsoYearsDisjoint(n: int, a: int, b: int)
    requires InIsoYear(n, a) && InIsoYear(n, b)
    ensures a == b
  {
    if a < b {
      IsoYearsMonotone(a, b);
    } else if b < a {
      IsoYearsMonotone(b, a);
    }
  }

  /** The ISO year of a day is the one whose weeks contain it. */
  lemma IsoYearUnique(n: int, iy: int)
    requires InIsoYear(n, iy)
    ensures IsoCalendar(n).year == iy
  {
    IsoCalendarMeaning(n);
    IsoYearsDisjoint(n, IsoCalendar(n).year, iy);
  }

  /** Day `n` minus one week (`- timedelta(weeks=1)`). */
  function WeekEarlier(n: int): int {
    n - 7
  }

  /** One week earlier is the previous ISO week, and week 1 wraps to the
      last week (52 or 53) of the previous ISO year. */
  lemma IsoWeekBack(n: int)
    ensures IsoCalendar(n).week == 1 ==> IsoCalendar(WeekEarlier(n)).week == WeeksInIsoYear(IsoYearBefore(IsoCalendar(n).year))
    ensures IsoCalendar(n).week != 1 ==> IsoCalendar(WeekEarlier(n)).week == IsoCalendar(n).week - 1
  {
    if IsoCalendar(n).week == 1 {
      IsoWeekBackAtWeekOne(n);
    } else {
      IsoWeekBackInYear(n);
    }
  }

  /** Week `n` is determined by the ISO year holding day `n`. */
  lemma IsoWeekIn(n: int, iy: int)
    requires InIsoYear(n, iy)
    ensures IsoCalendar(n).year == iy
    ensures IsoCalendar(n).week == (n - Week1Monday(iy)) / 7 + 1
  {
    IsoYearUnique(n, iy);
    IsoCalendarMeaning(n);
  }

  /** Week arithmetic of stepping back from week 1 of a year whose
      predecessor has `w` weeks. */
  lemma WeekWrap(n: int, p: int, m: int, mp: int, w: int)
    requires p == n - 7 && mp + 7 * w == m && w >= 1 && m <= n && (n - m) / 7 == 0
    ensures mp <= p < m && (p - mp) / 7 + 1 == w
  {
    DivModUnique(n - m, 7, 0, n - m);
    DivModUnique(p - mp, 7, w - 1, n - m);
  }

  /** Week arithmetic of stepping back from a later week of the same year. */
  lemma WeekStepIn(n: int, p: int, m: int, next: int, k: int)
    requires p == n - 7 && m <= n < next && k == (n - m) / 7 + 1 && k != 1
    ensures m <= p < next && (p - m) / 7 + 1 == k - 1
  {
    var x := n - m;
    DivModUnique(x, 7, x / 7, x % 7);
    DivModUnique(x - 7, 7, x / 7 - 1, x % 7);
  }

  /** The ISO year before `iy`. */
  function IsoYearBefore(iy: int): int {
    iy - 1
  }

  /** The ISO year before `iy` ends where `iy` begins. */
  lemma PrevIsoYear(iy: int)
    ensures Week1Monday(IsoYearBefore(iy) + 1) == Week1Monday(iy)
    ensures Week1Monday(IsoYearBefore(iy)) + 7 * WeeksInIsoYear(IsoYearBefore(iy)) == Week1Monday(iy)
  {
  }

  /** A week before week 1 of ISO year `iy` is the last week of `iy - 1`. */
  lemma WeekBeforeYear(n: int, iy: int)
    requires InIsoYear(n, iy) && (n - Week1Monday(iy)) / 7 == 0
    ensures InIsoYear(WeekEarlier(n), IsoYearBefore(iy))
    ensures (WeekEarlier(n) - Week1Monday(IsoYearBefore(iy))) / 7 + 1 == WeeksInIsoYear(IsoYearBefore(iy))
  {
    PrevIsoYear(iy);
    WeekWrap(n, WeekEarlier(n), Week1Monday(iy), Week1Monday(IsoYearBefore(iy)), WeeksInIsoYear(IsoYearBefore(iy)));
  }

  lemma IsoWeekBackAtWeekOne(n: int)
    requires IsoCalendar(n).week == 1
    ensures IsoCalendar(WeekEarlier(n)).week == WeeksInIsoYear(IsoYearBefore(IsoCalendar(n).year))
  {
    IsoCalendarMeaning(n);
    var iy := IsoCalendar(n).year;
    WeekBeforeYear(n, iy);
    IsoWeekIn(WeekEarlier(n), IsoYearBefore(iy));
  }

  /** A week before a later week of ISO year `iy` is still in `iy`. */
  lemma WeekBeforeInYear(n: int, iy: int)
    requires InIsoYear(n, iy) && (n - Week1Monday(iy)) / 7 != 0
    ensures InIsoYear(WeekEarlier(n), iy)
    ensures (WeekEarlier(n) - Week1Monday(iy)) / 7 + 1 == (n - Week1Monday(iy)) / 7
  {
    WeekStepIn(n, WeekEarlier(n), Week1Monday(iy), Week1Monday(iy + 1), (n - Week1Monday(iy)) / 7 + 1);
  }

  lemma IsoWeekBackInYear(n: int)
    requires IsoCalendar(n).week != 1
    ensures IsoCalendar(WeekEarlier(n)).week == IsoCalendar(n).week - 1
  {
    IsoCalendarMeaning(n);
    var iy := IsoCalendar(n).year;
    WeekBeforeInYear(n, iy);
    IsoWeekIn(WeekEarlier(n), iy);
  }
}

=== FILE: command.dfy ===
/** Command assembly: the default rsync option sets, the two forms of
    `RSnap.build` (an invocation plus an option map in `rsnap.py`, a flat
    argument vector in pyrsnap), the exit-code decision of `run` and the
    "latest" link `run` points at the new slot. */
module Command {
  import opened Wrappers
  import opened Paths
  import opened Options
  import opened Slots
  import opened Profiles

  const RSYNC_BIN := "/usr/bin/rsync"
  const EXCLUDE_FILE := "exclude.lst"
  const EXCLUDE_FROM := "exclude-from"
  const DELETE_EXCLUDED := "delete-excluded"
  const LINK_DEST := "link-dest"
  const LINK_DEST_PREFIX := "--link-dest="
  /** rsync's exit code for a partial transfer due to error, which `run`
      accepts as success. */
  const PARTIAL_TRANSFER := 23

  /** The keys of `RSnap.RSYNC_OPTS`, in the order the source lists them. */
  const DEFAULT_KEYS: seq<string> :=
    ["acls", "archive", "delete", "fake-super", "hard-links", "inplace", "numeric-ids",
     "one-file-system", "partial", "progress", "rsh", "rsync-path", "verbose", "xattrs"]

  /** Their values. The two copies differ only in `acls`. */
  function DefaultValues(copy: Copy): (vs: seq<Value>)
    ensures |vs| == |DEFAULT_KEYS|
  {
    [Flag(copy == PyRsnap), Flag(true), Flag(true), Flag(true), Flag(true), Flag(false), Flag(true),
     Flag(true), Flag(true), Flag(true), Str("ssh -oPasswordAuthentication=no -oStrictHostKeyChecking=no"),
     Str("rsync --fake-super"), Flag(false), Flag(true)]
  }

  /** The default keys are distinct long options. */
  lemma DefaultKeys()
    ensures forall i, j :: 0 <= i < j < |DEFAULT_KEYS| ==> DEFAULT_KEYS[i] != DEFAULT_KEYS[j]
    ensures forall i :: 0 <= i < |DEFAULT_KEYS| ==> |DEFAULT_KEYS[i]| > 1
  {
  }

  /** `RSnap.RSYNC_OPTS`. */
  function DefaultOpts(copy: Copy): (o: Opts)
    ensures UniqueKeys(o)
    ensures Render(o).Success?
    ensures Lookup(o, "acls") == Some(Flag(copy == PyRsnap))
    ensures Lookup(o, "archive") == Some(Flag(true))
    ensures Lookup(o, "verbose") == Some(Flag(false))
  {
    var vs := DefaultValues(copy);
    var o := seq(|DEFAULT_KEYS|, i requires 0 <= i < |DEFAULT_KEYS| => (DEFAULT_KEYS[i], vs[i]));
    DefaultKeys();
    DistinctKeys(o);
    RenderFails(o);
    LookupAt(o, 0);
    LookupAt(o, 1);
    LookupAt(o, 12);
    o
  }

  /** The job an `rsnap.py` `RSnap` instance holds. */
  datatype Job = Job(bin: string, opts: Opts, source: string, storage: string, profile: Profile)

  /** `rsync_bin or RSYNC_BIN`: an empty or missing binary means the
      default one. */
  function BinOr(bin: Option<string>): (b: string)
    ensures bin.Some? && bin.value != "" ==> b == bin.value
    ensures bin.None? || bin.value == "" ==> b == RSYNC_BIN
  {
    if bin.Some? && bin.value != "" then bin.value else RSYNC_BIN
  }

  /** The option handling of `rsnap.py`'s `RSnap.__init__` as written:
      the caller's options are merged INTO the class-level defaults, so
      the instance options and the class options left behind for later
      instances are the same map. */
  function InitOptsAsWritten(classOpts: Opts, opts: Opts): (r: (Opts, Opts))
    requires UniqueKeys(classOpts) && UniqueKeys(opts)
    ensures r.0 == r.1 && UniqueKeys(r.1)
    ensures forall k :: Lookup(r.1, k) == if k in Keys(opts) then Lookup(opts, k) else Lookup(classOpts, k)
  {
    var shared := Merge(classOpts, opts);
    forall k ensures Lookup(shared, k) == if k in Keys(opts) then Lookup(opts, k) else Lookup(classOpts, k) {
      MergeLookup(classOpts, opts, k);
    }
    (shared, shared)
  }

  /** The intended option handling: the caller's options override a copy
      of the defaults, which stay as they are. */
  function InitOpts(opts: Opts): (r: Opts)
    requires UniqueKeys(opts)
    ensures UniqueKeys(r)
    ensures forall k :: Lookup(r, k) == if k in Keys(opts) then Lookup(opts, k) else Lookup(DefaultOpts(Rsnap), k)
  {
    var d := DefaultOpts(Rsnap);
    forall k ensures Lookup(Merge(d, opts), k) == if k in Keys(opts) then Lookup(opts, k) else Lookup(d, k) {
      MergeLookup(d, opts, k);
    }
    Merge(d, opts)
  }

  /** As written, one job's options leak into the next: after a job asks
      for `verbose`, a later job that asks for nothing is verbose too;
      with the intended handling it is not. */
  lemma OptionsLeak()
    ensures var first := InitOptsAsWritten(DefaultOpts(Rsnap), [("verbose", Flag(true))]);
            var second := InitOptsAsWritten(first.1, []);
            && Lookup(second.0, "verbose") == Some(Flag(true))
            && Lookup(InitOpts([]), "verbose") == Some(Flag(false))
  {
    var first := InitOptsAsWritten(DefaultOpts(Rsnap), [("verbose", Flag(true))]);
    assert "verbose" in Keys([("verbose", Flag(true))]);
    assert Lookup([("verbose", Flag(true))], "verbose") == Some(Flag(true));
  }

  /** `rsnap.py`'s `RSnap.__init__` with the intended option handling:
      the binary, the options, and the profile resolved by name. */
  function NewJob(source: string, storage: string, profile: string, bin: Option<string>, opts: Opts, now: DateTime): (r: Result<Job>)
    requires UniqueKeys(opts) && ValidDateTime(now)
    ensures r.Success? ==> UniqueKeys(r.value.opts) && r.value.source == source && r.value.storage == storage
    ensures r.Success? ==> Open(Rsnap, profile, storage, now) == Success(r.value.profile)
    ensures r.Failure? <==> Open(Rsnap, profile, storage, now).Failure?
    ensures r.Success? ==> r.value.bin == BinOr(bin)
    ensures r.Success? ==> forall k :: Lookup(r.value.opts, k) == Lookup(InitOpts(opts), k)
  {
    var p :- Open(Rsnap, profile, storage, now);
    Success(Job(BinOr(bin), InitOpts(opts), source, storage, p))
  }

  // ---------------------------------------------------------------------
  // rsnap.py: build and run

  /** What `rsnap.py`'s `build` returns: the binary, source and
      destination, and the option map still to be rendered. */
  datatype Invocation = Invocation(bin: string, source: string, dest: string, opts: Opts)

  /** The destination: the current slot, with a slash appended when the
      source ends in one. */
  function Destination(current: string, source: string): (d: string)
    ensures EndsWithSlash(source) ==> d == current + [SLASH]
    ensures !EndsWithSlash(source) ==> d == current
  {
    if EndsWithSlash(source) then current + [SLASH] else current
  }

  /** The option map of `build`: the job's options, the exclude options
      when the exclude file can be read, and the link base (None when
      there is no previous slot). */
  function BuildOpts(opts: Opts, exclude: string, readable: bool, prev: Option<string>): (r: Opts)
    requires UniqueKeys(opts)
    ensures UniqueKeys(r)
    ensures Lookup(r, EXCLUDE_FROM) == if readable then Some(Str(exclude)) else Lookup(opts, EXCLUDE_FROM)
    ensures Lookup(r, DELETE_EXCLUDED) == if readable then Some(Flag(true)) else Lookup(opts, DELETE_EXCLUDED)
    ensures prev.Some? ==> Lookup(r, LINK_DEST) == Some(Str(prev.value))
    ensures prev.None? ==> Lookup(r, LINK_DEST) == Some(Unset)
    ensures forall k :: k !in {EXCLUDE_FROM, DELETE_EXCLUDED, LINK_DEST} ==> Lookup(r, k) == Lookup(opts, k)
  {
    assert EXCLUDE_FROM[0] != DELETE_EXCLUDED[0] && LINK_DEST[0] != DELETE_EXCLUDED[0] && LINK_DEST[0] != EXCLUDE_FROM[0];
    var withExclude := if readable then Update(Update(opts, EXCLUDE_FROM, Str(exclude)), DELETE_EXCLUDED, Flag(true)) else opts;
    Update(withExclude, LINK_DEST, if prev.Some? then Str(prev.value) else Unset)
  }

  /** `rsnap.py`'s `RSnap.build`. */
  function Build(job: Job, fs: FileSystem, stamp: string): (inv: Invocation)
    requires UniqueKeys(job.opts)
    ensures inv.bin == job.bin && inv.source == job.source
    ensures UniqueKeys(inv.opts)
  {
    var exclude := Join(job.storage, EXCLUDE_FILE);
    var prev := PreviousStorage(job.profile, fs);
    Invocation(job.bin, job.source,
               Destination(CurrentStorage(job.profile, stamp), job.source),
               BuildOpts(job.opts, exclude, exclude in fs.readable, prev))
  }

  /** The options `build` sets: exclusion exactly when the exclude file
      under the storage root can be read, the link base exactly as the
      profile finds it, and every other option as the job had it. */
  lemma BuildOptions(job: Job, fs: FileSystem, stamp: string)
    requires UniqueKeys(job.opts)
    ensures var inv := Build(job, fs, stamp);
            var exclude := Join(job.storage, EXCLUDE_FILE);
            && (exclude in fs.readable ==>
                  Lookup(inv.opts, EXCLUDE_FROM) == Some(Str(exclude)) && Lookup(inv.opts, DELETE_EXCLUDED) == Some(Flag(true)))
            && (exclude !in fs.readable ==>
                  Lookup(inv.opts, EXCLUDE_FROM) == Lookup(job.opts, EXCLUDE_FROM)
                  && Lookup(inv.opts, DELETE_EXCLUDED) == Lookup(job.opts, DELETE_EXCLUDED))
            && (PreviousStorage(job.profile, fs).Some? <==> Lookup(inv.opts, LINK_DEST).value.Str?)
            && (forall k :: k !in {EXCLUDE_FROM, DELETE_EXCLUDED, LINK_DEST} ==> Lookup(inv.opts, k) == Lookup(job.opts, k))
  {
  }

  /** The slot name a profile writes into: the current slot of a cyclic
      profile, the fresh timestamp of a snapshot profile. */
  function SlotOf(p: Profile, stamp: string): (name: string)
    ensures CurrentStorage(p, stamp) == Join(p.basedir, name) || (p.Cyclic? && !SlotName(p.current))
  {
    if p.Cyclic? then p.current else stamp
  }

  /** A destination built on a slot mirrors the source's trailing slash,
      and names the slot once that slash is stripped. */
  lemma DestinationShape(p: Profile, stamp: string, source: string)
    requires WellFormed(p) && SlotName(stamp)
    ensures var d := Destination(CurrentStorage(p, stamp), source);
            && (EndsWithSlash(d) <==> EndsWithSlash(source))
            && RStripSlash(d) == CurrentStorage(p, stamp)
  {
    var cur := CurrentStorage(p, stamp);
    var name := SlotOf(p, stamp);
    assert cur[|cur| - 1] == name[|name| - 1];
    RStripSlashFixed(cur);
    if EndsWithSlash(source) {
      RStripSlashAppended(cur, 1);
      assert seq(1, _ => SLASH) == [SLASH];
    }
  }

  /** The destination of `build` mirrors the source's trailing slash and
      otherwise names the current slot. */
  lemma BuildDestination(job: Job, fs: FileSystem, stamp: string)
    requires UniqueKeys(job.opts) && WellFormed(job.profile) && SlotName(stamp)
    ensures var inv := Build(job, fs, stamp);
            && (EndsWithSlash(inv.dest) <==> EndsWithSlash(job.source))
            && RStripSlash(inv.dest) == CurrentStorage(job.profile, stamp)
  {
    DestinationShape(job.profile, stamp, job.source);
  }

  /** The argument vector `run` executes: the binary, the rendered
      options, the source and the destination. */
  function Argv(inv: Invocation): Result<seq<string>> {
    var tokens :- Render(inv.opts);
    Success([inv.bin] + tokens + [inv.source, inv.dest])
  }

  /** The argument vector exists exactly when the options render; it
      starts with the binary, ends with source and destination, and holds
      the tokens of every option in between. */
  lemma ArgvLayout(inv: Invocation)
    ensures Argv(inv).Success? <==> Render(inv.opts).Success?
    ensures Argv(inv).Failure? ==> Argv(inv).error == ValueError
    ensures Argv(inv).Success? ==>
              var a := Argv(inv).value;
              && |a| >= 3 && a[0] == inv.bin && a[|a| - 2] == inv.source && a[|a| - 1] == inv.dest
              && a[1..|a| - 2] == Render(inv.opts).value
              && (forall i, t ::
                    (0 <= i < |inv.opts| && Token(inv.opts[i].0, inv.opts[i].1).Success? && t in Token(inv.opts[i].0, inv.opts[i].1).value)
                    ==> t in a[1..|a| - 2])
  {
    RenderFails(inv.opts);
    if Render(inv.opts).Success? {
      RenderMembers(inv.opts);
      var a := Argv(inv).value;
      assert a[1..|a| - 2] == Render(inv.opts).value;
    }
  }

  /** The link-dest entry renders to `--link-dest=<slot>`, or to nothing
      when it is unset. */
  lemma LinkDestRendering(p: string)
    ensures Token(LINK_DEST, Str(p)) == Success([LINK_DEST_PREFIX + p])
    ensures Token(LINK_DEST, Unset) == Success([])
  {
    LongTokens(LINK_DEST);
    assert Dashes(LINK_DEST) == LINK_DEST;
    assert "--" + LINK_DEST + "=" + p == LINK_DEST_PREFIX + p;
  }

  /** An option map whose link-dest entry is a slot renders the
      `--link-dest=<slot>` token. */
  lemma LinkDestRendered(o: Opts, p: string)
    requires UniqueKeys(o) && Lookup(o, LINK_DEST) == Some(Str(p)) && Render(o).Success?
    ensures LINK_DEST_PREFIX + p in Render(o).value
  {
    var i := LookupIndex(o, LINK_DEST);
    LinkDestRendering(p);
    RenderMembers(o);
    assert LINK_DEST_PREFIX + p in Token(o[i].0, o[i].1).value;
  }

  /** With a previous slot the argument vector of `rsnap.py` carries
      `--link-dest=<slot>`; without one the link-dest entry renders to
      nothing. */
  lemma LinkDestToken(job: Job, fs: FileSystem, stamp: string)
    requires UniqueKeys(job.opts)
    ensures var inv := Build(job, fs, stamp);
            var prev := PreviousStorage(job.profile, fs);
            && (prev.Some? && Argv(inv).Success? ==> LINK_DEST_PREFIX + prev.value in Argv(inv).value)
            && (prev.None? ==> Token(LINK_DEST, Lookup(inv.opts, LINK_DEST).value) == Success([]))
  {
    var inv := Build(job, fs, stamp);
    var prev := PreviousStorage(job.profile, fs);
    LinkDestRendering(if prev.Some? then prev.value else "");
    if prev.Some? && Argv(inv).Success? {
      ArgvLayout(inv);
      LinkDestRendered(inv.opts, prev.value);
      var a := Argv(inv).value;
      assert LINK_DEST_PREFIX + prev.value in a[1..|a| - 2];
    }
  }

  /** The index of a key that is present. */
  lemma LookupIndex(o: Opts, k: string) returns (i: int)
    requires UniqueKeys(o) && Lookup(o, k).Some?
    ensures 0 <= i < |o| && o[i] == (k, Lookup(o, k).value)
  {
    var v := Lookup(o, k).value;
    i :| 0 <= i < |o| && o[i] == (k, v);
  }

  /** The exit-code decision of `run` in `rsnap.py`: success and a partial
      transfer go on to the latest link; any other code fails with that
      code and the command's output. */
  function ExitStatus(code: int, output: string): (r: Result<()>)
    ensures r.Success? <==> code == 0 || code == PARTIAL_TRANSFER
    ensures r.Failure? ==> r.error == ExecutionError(code, output)
  {
    if code == 0 || code == PARTIAL_TRANSFER then Success(()) else Failure(ExecutionError(code, output))
  }

  /** pyrsnap's exit-code decision as written: its `ExecutionError` has no
      constructor of its own, so raising it with keyword arguments fails
      with a TypeError before the code and output are recorded. */
  /** What raising pyrsnap's `ExecutionError` with keyword arguments
      raises instead. */
  const PY_EXECUTION_ERROR: Error := TypeError("ExecutionError")

  function ExitStatusPyAsWritten(code: int, output: string): (r: Result<()>)
    ensures r.Success? <==> code == 0 || code == PARTIAL_TRANSFER
    ensures r.Failure? ==> r.error == PY_EXECUTION_ERROR
  {
    if code == 0 || code == PARTIAL_TRANSFER then Success(()) else Failure(PY_EXECUTION_ERROR)
  }

  /** The two exit-code decisions agree on success, and on every failure
      the as-written one loses the code the intended one reports. */
  lemma ExitStatusLoss(code: int, output: string)
    ensures ExitStatusPyAsWritten(code, output).Success? <==> ExitStatus(code, output).Success?
    ensures ExitStatus(code, output).Failure? ==>
              ExitStatus(code, output).error.ExecutionError? && !ExitStatusPyAsWritten(code, output).error.ExecutionError?
  {
  }

  /** `_get_latest` (and its inline twin in pyrsnap's `run`): the link
      target, the destination's last component, and the link path, a
      `latest` entry beside the destination. */
  function Latest(dest: string): (r: (string, string))
    ensures NoSlash(r.0)
  {
    (Basename(RStripSlash(dest)), Join(Dirname(Realpath(dest)), LATEST))
  }

  /** For a slot destination `base/name`, with or without the trailing
      slash, the link is `base/latest` and points at `name`. */
  lemma LatestOfSlot(base: string, name: string, slash: bool)
    requires SlotName(name) && |base| > 0 && !EndsWithSlash(base) && !AllSlashes(base)
    ensures Latest(Join(base, name) + (if slash then [SLASH] else [])) == (name, Join(base, LATEST))
  {
    var p := Join(base, name);
    var d := p + (if slash then [SLASH] else []);
    RealpathOfSlot(base, name, slash);
    assert p[|p| - 1] == name[|name| - 1];
    if slash {
      RStripSlashAppended(p, 1);
      assert seq(1, _ => SLASH) == [SLASH];
    } else {
      RStripSlashFixed(p);
    }
    SplitJoin(base, name);
  }

  /** `rsnap.py`'s `run`, given the exit code and output of the command:
      the rendered argument vector and the latest link to make. */
  function Run(job: Job, fs: FileSystem, stamp: string, code: int, output: string): (r: Result<(seq<string>, (string, string))>)
    requires UniqueKeys(job.opts)
    ensures r.Success? <==> Argv(Build(job, fs, stamp)).Success? && (code == 0 || code == PARTIAL_TRANSFER)
    ensures r.Failure? && Render(Build(job, fs, stamp).opts).Success? ==> r.error == ExecutionError(code, output)
    ensures Render(Build(job, fs, stamp).opts).Failure? ==> r == Failure(ValueError)
  {
    var inv := Build(job, fs, stamp);
    var argv :- Argv(inv);
    var _ :- ExitStatus(code, output);
    Success((argv, Latest(argv[|argv| - 1])))
  }

  /** After a run, `latest` sits beside the new slot and names it. */
  lemma RunLinksLatest(job: Job, fs: FileSystem, stamp: string, code: int, output: string)
    requires UniqueKeys(job.opts) && WellFormed(job.profile) && SlotName(stamp)
    requires |job.profile.basedir| > 0 && !EndsWithSlash(job.profile.basedir) && !AllSlashes(job.profile.basedir)
    ensures var r := Run(job, fs, stamp, code, output);
            var name := if job.profile.Cyclic? then job.profile.current else stamp;
            r.Success? ==> r.value.1 == (name, Join(job.profile.basedir, LATEST))
  {
    var inv := Build(job, fs, stamp);
    var name := SlotOf(job.profile, stamp);
    var slash := EndsWithSlash(job.source);
    assert inv.dest == Join(job.profile.basedir, name) + (if slash then [SLASH] else []);
    ArgvLayout(inv);
    LatestOfSlot(job.profile.basedir, name, slash);
  }

  // ---------------------------------------------------------------------
  // pyrsnap: the flat argument vector

  /** A pyrsnap `RSnap` instance. */
  datatype PyJob = PyJob(bin: string, opts: Opts)

  /** pyrsnap's `RSnap.__init__`: a given option set replaces the
      defaults wholesale. */
  function NewPyJob(bin: Option<string>, opts: Option<Opts>): (j: PyJob)
    requires opts.Some? ==> UniqueKeys(opts.value)
    ensures UniqueKeys(j.opts)
    ensures bin.Some? ==> j.bin == bin.value
    ensures bin.None? ==> j.bin == RSYNC_BIN
    ensures opts.Some? ==> Keys(j.opts) == Keys(opts.value) && forall k :: Lookup(j.opts, k) == Lookup(opts.value, k)
    ensures opts.None? ==> forall k :: Lookup(j.opts, k) == Lookup(DefaultOpts(PyRsnap), k)
  {
    PyJob(if bin.Some? then bin.value else RSYNC_BIN,
          if opts.Some? then opts.value else DefaultOpts(PyRsnap))
  }

  /** An explicit option set drops every default it does not mention. */
  lemma ReplacesDefaults(bin: Option<string>, opts: Opts)
    requires UniqueKeys(opts) && "archive" !in Keys(opts)
    ensures Lookup(NewPyJob(bin, Some(opts)).opts, "archive").None?
    ensures Lookup(NewPyJob(bin, None).opts, "archive") == Some(Flag(true))
  {
  }

  /** The option set `_get_base_command_line` renders: a copy of the
      instance's set, merged with the overrides when there are any. */
  function BaseOpts(job: PyJob, over: Option<Opts>): (r: Opts)
    requires UniqueKeys(job.opts) && (over.Some? ==> UniqueKeys(over.value))
    ensures UniqueKeys(r)
    ensures forall k :: Lookup(r, k) == if over.Some? && k in Keys(over.value) then Lookup(over.value, k) else Lookup(job.opts, k)
  {
    if over.Some? && |over.value| > 0 then
      forall k ensures Lookup(Merge(job.opts, over.value), k) == if k in Keys(over.value) then Lookup(over.value, k) else Lookup(job.opts, k) {
        MergeLookup(job.opts, over.value, k);
      }
      Merge(job.opts, over.value)
    else job.opts
  }

  /** `_get_base_command_line`. */
  function BaseCommandLine(job: PyJob, over: Option<Opts>): (r: Result<seq<string>>)
    requires UniqueKeys(job.opts) && (over.Some? ==> UniqueKeys(over.value))
    ensures r.Success? <==> Render(BaseOpts(job, over)).Success?
    ensures r.Success? ==> |r.value| >= 1 && r.value[0] == job.bin && r.value[1..] == Render(BaseOpts(job, over)).value
  {
    var tokens :- Render(BaseOpts(job, over));
    Success([job.bin] + tokens)
  }

  /** The link-dest argument: present only for a non-empty previous slot. */
  function LinkDest(prev: Option<string>): (r: seq<string>)
    ensures |r| <= 1
    ensures |r| == 1 <==> prev.Some? && prev.value != ""
    ensures |r| == 1 ==> r[0] == LINK_DEST_PREFIX + prev.value
  {
    if prev.Some? && prev.value != "" then [LINK_DEST_PREFIX + prev.value] else []
  }

  /** The exclude options pyrsnap's `build` adds to the caller's map when
      the exclude file exists, as written: with no map (the default) the
      update is a method call on `None`. */
  function ExcludeAsWritten(storage: string, fs: FileSystem, opts: Option<Opts>): (r: Result<Option<Opts>>)
    requires opts.Some? ==> UniqueKeys(opts.value)
    ensures Join(storage, EXCLUDE_FILE) !in fs.present ==> r == Success(opts)
    ensures Join(storage, EXCLUDE_FILE) in fs.present && opts.None? ==> r == Failure(AttributeError)
    ensures r.Success? && r.value.Some? ==> UniqueKeys(r.value.value)
  {
    var exclude := Join(storage, EXCLUDE_FILE);
    if exclude !in fs.present then Success(opts)
    else if opts.None? then Failure(AttributeError)
    else Success(Some(Update(Update(opts.value, EXCLUDE_FROM, Str(exclude)), DELETE_EXCLUDED, Flag(true))))
  }

  /** The intended exclude step: a missing map counts as an empty one. */
  function Exclude(storage: string, fs: FileSystem, opts: Option<Opts>): (r: Option<Opts>)
    requires opts.Some? ==> UniqueKeys(opts.value)
    ensures r.Some? ==> UniqueKeys(r.value)
    ensures Join(storage, EXCLUDE_FILE) in fs.present ==>
              r.Some? && Lookup(r.value, EXCLUDE_FROM) == Some(Str(Join(storage, EXCLUDE_FILE)))
              && Lookup(r.value, DELETE_EXCLUDED) == Some(Flag(true))
    ensures Join(storage, EXCLUDE_FILE) !in fs.present ==> r == opts
  {
    var base := if opts.Some? then opts.value else [];
    var exclude := Join(storage, EXCLUDE_FILE);
    if exclude in fs.present then
      assert EXCLUDE_FROM[0] != DELETE_EXCLUDED[0];
      Some(Update(Update(base, EXCLUDE_FROM, Str(exclude)), DELETE_EXCLUDED, Flag(true)))
    else opts
  }

  /** The intended exclude step agrees with the code's whenever the code
      does not fail. */
  lemma ExcludeAgrees(storage: string, fs: FileSystem, opts: Option<Opts>)
    requires opts.Some? ==> UniqueKeys(opts.value)
    ensures ExcludeAsWritten(storage, fs, opts).Success? ==> ExcludeAsWritten(storage, fs, opts).value == Exclude(storage, fs, opts)
    ensures ExcludeAsWritten(storage, fs, opts).Failure? <==> Join(storage, EXCLUDE_FILE) in fs.present && opts.None?
  {
  }

  /** The command `build` assembles once the options are settled. */
  function Assemble(job: PyJob, opts: Option<Opts>, profile: Profile, source: string, fs: FileSystem, stamp: string): Result<seq<string>>
    requires UniqueKeys(job.opts) && (opts.Some? ==> UniqueKeys(opts.value))
  {
    var cmd :- BaseCommandLine(job, opts);
    var link := LinkDest(PreviousStorage(profile, fs));
    Success(cmd + link + [source, Destination(CurrentStorage(profile, stamp), source)])
  }

  /** pyrsnap's `RSnap.build` as written: the exclude step, then the
      registry lookup, then the command. */
  function BuildPyAsWritten(job: PyJob, profile: string, storage: string, source: string, opts: Option<Opts>,
                            fs: FileSystem, now: DateTime, stamp: string): Result<seq<string>>
    requires UniqueKeys(job.opts) && (opts.Some? ==> UniqueKeys(opts.value)) && ValidDateTime(now)
  {
    var settled :- ExcludeAsWritten(storage, fs, opts);
    var p :- OpenAsWritten(PyRsnap, profile, storage, now);
    Assemble(job, settled, p, source, fs, stamp)
  }

  /** pyrsnap's `RSnap.build` as intended: no failure on a missing option
      map, and 'default' selects the snapshot profile. */
  function BuildPy(job: PyJob, profile: string, storage: string, source: string, opts: Option<Opts>,
                   fs: FileSystem, now: DateTime, stamp: string): Result<seq<string>>
    requires UniqueKeys(job.opts) && (opts.Some? ==> UniqueKeys(opts.value)) && ValidDateTime(now)
  {
    var p :- Open(PyRsnap, profile, storage, now);
    Assemble(job, Exclude(storage, fs, opts), p, source, fs, stamp)
  }

  /** As written, the default call `build(profile, storage, source)` fails
      whenever the storage root holds an exclude file; as intended it
      builds a command. */
  lemma ExcludeWithoutOptions(job: PyJob, storage: string, source: string, fs: FileSystem, now: DateTime, stamp: string)
    requires UniqueKeys(job.opts) && ValidDateTime(now)
    requires Join(storage, EXCLUDE_FILE) in fs.present
    requires Render(job.opts).Success?
    ensures BuildPyAsWritten(job, "monthly", storage, source, None, fs, now, stamp) == Failure(AttributeError)
    ensures BuildPy(job, "monthly", storage, source, None, fs, now, stamp).Success?
  {
    MonthlyOpens(storage, now);
    var o := Exclude(storage, fs, None).value;
    var b := BaseOpts(job, Some(o));
    assert EXCLUDE_FROM[0] != DELETE_EXCLUDED[0];
    ExcludeRenders(job.opts, storage);
  }

  lemma MonthlyOpens(storage: string, now: DateTime)
    requires ValidDateTime(now)
    ensures Open(PyRsnap, "monthly", storage, now).Success?
  {
    ResolveAgrees(PyRsnap, "monthly");
    MonthlyFound();
    MonthlyInstantiates(storage, now);
  }

  lemma MonthlyInstantiates(storage: string, now: DateTime)
    requires ValidDateTime(now)
    ensures Instantiate(PyRsnap, Monthly, storage, now).Success?
  {
    assert |SlotIds(PyRsnap, Monthly, now).value| == 12;
  }

  /** pyrsnap's registry finds the monthly profile under its own name. */
  lemma MonthlyFound()
    ensures GetSubclass(PyRsnap, "monthly") == Success(Monthly)
  {
    MonthlyInRegistry();
    MonthlyLabel();
    var r := GetSubclass(PyRsnap, "monthly");
    if r.value != Monthly {
      MonthlyNameUnique(r.value);
    }
  }

  lemma MonthlyInRegistry()
    ensures |Walk(PyRsnap, Storage)| > 2 && Walk(PyRsnap, Storage)[2] == Monthly
  {
    PyRsnapRegistry();
  }

  lemma MonthlyLabel()
    ensures Label(PyRsnap, Monthly, false) == Some("monthly")
  {
  }

  lemma MonthlyNameUnique(k: Kind)
    requires k != Monthly
    ensures NameOf(PyRsnap, k) != Some("monthly")
  {
    var n := NameOf(PyRsnap, k);
    if n.Some? && |n.value| == 7 {
      assert n.value[1] != "monthly"[1] || n.value[0] != "monthly"[0];
    }
  }

  /** Adding the two exclude options to a set that renders keeps it
      rendering. */
  lemma ExcludeRenders(base: Opts, storage: string)
    requires UniqueKeys(base) && Render(base).Success?
    ensures var o := Update(Update([], EXCLUDE_FROM, Str(Join(storage, EXCLUDE_FILE))), DELETE_EXCLUDED, Flag(true));
            Render(BaseOpts(PyJob("", base), Some(o))).Success?
  {
    var o := Update(Update([], EXCLUDE_FROM, Str(Join(storage, EXCLUDE_FILE))), DELETE_EXCLUDED, Flag(true));
    var m := BaseOpts(PyJob("", base), Some(o));
    RenderFails(base);
    RenderFails(m);
    forall i | 0 <= i < |m| ensures !Refused(m[i].0, m[i].1) {
      LookupAt(m, i);
      if m[i].0 !in Keys(o) {
        assert Lookup(base, m[i].0) == Some(m[i].1);
        var j := LookupIndex(base, m[i].0);
      }
    }
  }

  /** The layout of pyrsnap's argument vector: the binary first, source
      and destination last, `--link-dest=<slot>` just before the source
      exactly when there is a non-empty previous slot (and otherwise the
      base command line directly), and a destination that ends in a slash
      exactly when the source does. */
  lemma AssembleLayout(job: PyJob, opts: Option<Opts>, profile: Profile, source: string, fs: FileSystem, stamp: string)
    requires UniqueKeys(job.opts) && (opts.Some? ==> UniqueKeys(opts.value))
    requires WellFormed(profile) && SlotName(stamp)
    ensures var r := Assemble(job, opts, profile, source, fs, stamp);
            var prev := PreviousStorage(profile, fs);
            && (r.Success? <==> BaseCommandLine(job, opts).Success?)
            && (r.Success? ==>
                  var a := r.value;
                  var base := BaseCommandLine(job, opts).value;
                  && |a| >= 3 && a[0] == job.bin && a[|a| - 2] == source
                  && (EndsWithSlash(a[|a| - 1]) <==> EndsWithSlash(source))
                  && RStripSlash(a[|a| - 1]) == CurrentStorage(profile, stamp)
                  && (prev.Some? && prev.value != "" ==> a[|a| - 3] == LINK_DEST_PREFIX + prev.value && a[..|a| - 3] == base)
                  && (prev.None? || prev.value == "" ==> a[..|a| - 2] == base))
  {
    var r := Assemble(job, opts, profile, source, fs, stamp);
    if r.Success? {
      DestinationShape(profile, stamp, source);
      var base := BaseCommandLine(job, opts).value;
      var dest := Destination(CurrentStorage(profile, stamp), source);
      Concatenation(base, LinkDest(PreviousStorage(profile, fs)), source, dest);
    }
  }

  /** Where the pieces of `base + link + [source, dest]` land. */
  lemma Concatenation(base: seq<string>, link: seq<string>, source: string, dest: string)
    requires |base| >= 1 && |link| <= 1
    ensures var a := base + link + [source, dest];
            && |a| >= 3 && a[0] == base[0] && a[|a| - 2] == source && a[|a| - 1] == dest
            && (|link| == 1 ==> a[|a| - 3] == link[0] && a[..|a| - 3] == base)
            && (|link| == 0 ==> a[..|a| - 2] == base)
  {
    var a := base + link + [source, dest];
    if |link| == 1 {
      assert a[..|a| - 3] == base;
    } else {
      assert a[..|a| - 2] == base;
    }
  }

  /** pyrsnap's `run` as written, given the exit code and output: the
      command and the latest link, taken from the command's last element.
      A failing exit code ends in the TypeError of `ExitStatusPyAsWritten`. */
  function RunPy(cmd: Result<seq<string>>, code: int, output: string): (r: Result<(seq<string>, (string, string))>)
    ensures r.Success? <==> cmd.Success? && (code == 0 || code == PARTIAL_TRANSFER)
    ensures r.Failure? ==> r.error == if cmd.Failure? then cmd.error else PY_EXECUTION_ERROR
    ensures r.Success? ==> r.value.0 == cmd.value
  {
    match cmd
    case Failure(e) => Failure(e)
    case Success(argv) =>
      match ExitStatusPyAsWritten(code, output)
      case Failure(e) => Failure(e)
      case Success(_) =>
        if |argv| == 0 then Success((argv, Latest(""))) else Success((argv, Latest(argv[|argv| - 1])))
  }

  /** After a successful pyrsnap `run` of an assembled command, `latest`
      sits in the profile directory and names the slot just written. */
  lemma RunPyLinksLatest(job: PyJob, opts: Option<Opts>, profile: Profile, source: string, fs: FileSystem, stamp: string,
                         code: int, output: string)
    requires UniqueKeys(job.opts) && (opts.Some? ==> UniqueKeys(opts.value))
    requires WellFormed(profile) && SlotName(stamp)
    requires |profile.basedir| > 0 && !EndsWithSlash(profile.basedir) && !AllSlashes(profile.basedir)
    ensures var r := RunPy(Assemble(job, opts, profile, source, fs, stamp), code, output);
            r.Success? ==> r.value.1 == (SlotOf(profile, stamp), Join(profile.basedir, LATEST))
  {
    var cmd := Assemble(job, opts, profile, source, fs, stamp);
    if cmd.Success? {
      var name := SlotOf(profile, stamp);
      var slash := EndsWithSlash(source);
      var dest := Destination(CurrentStorage(profile, stamp), source);
      assert dest == Join(profile.basedir, name) + (if slash then [SLASH] else []);
      var base := BaseCommandLine(job, opts).value;
      var link := LinkDest(PreviousStorage(profile, fs));
      assert cmd.value == base + link + [source, dest];
      assert cmd.value[|cmd.value| - 1] == dest;
      LatestOfSlot(profile.basedir, name, slash);
    }
  }
}

=== FILE: digits.dfy ===
/** The decimal renderings of slot identifiers: Python's `'%d'`, `'%02d'`
    and `'%02d.%02d.%02d'` on small non-negative numbers, with the parsers
    that invert them. */
module Digits {

  predicate IsDigit(c: char) {
    '0' <= c <= '9'
  }

  predicate AllDigits(s: string) {
    forall i :: 0 <= i < |s| ==> IsDigit(s[i])
  }

  function DigitChar(d: int): (c: char)
    requires 0 <= d <= 9
    ensures IsDigit(c)
  {
    (48 + d) as char
  }

  function DigitValue(c: char): int {
    c as int - 48
  }

  /** `'%d' % n` for a one-digit number. */
  function Show1(n: int): (s: string)
    requires 0 <= n <= 9
    ensures |s| == 1 && AllDigits(s) && DigitValue(s[0]) == n
  {
    [DigitChar(n)]
  }

  /** `'%02d' % n`: two digits, zero-padded. */
  function Pad2(n: int): (s: string)
    requires 0 <= n < 100
    ensures |s| == 2 && AllDigits(s)
  {
    [DigitChar(n / 10), DigitChar(n % 10)]
  }

  function ParsePad2(s: string): int
    requires |s| == 2
  {
    10 * DigitValue(s[0]) + DigitValue(s[1])
  }

  /** Parsing a zero-padded number gives the number back. */
  lemma Pad2RoundTrip(n: int)
    requires 0 <= n < 100
    ensures ParsePad2(Pad2(n)) == n
  {
  }

  lemma Pad2Injective(a: int, b: int)
    requires 0 <= a < 100 && 0 <= b < 100
    ensures Pad2(a) == Pad2(b) <==> a == b
  {
    Pad2RoundTrip(a);
    Pad2RoundTrip(b);
  }

  lemma Show1Injective(a: int, b: int)
    requires 0 <= a <= 9 && 0 <= b <= 9
    ensures Show1(a) == Show1(b) <==> a == b
  {
  }

  /** `'%02d.%02d.%02d' % (hour, minute, second)` of second `t` of a day. */
  function Hms(t: int): (s: string)
    requires 0 <= t < 86400
    ensures |s| == 8 && s[2] == '.' && s[5] == '.'
  {
    Pad2(t / 3600) + "." + Pad2(t / 60 % 60) + "." + Pad2(t % 60)
  }

  /** An `HH.MM.SS` label is made of digits and the two dots. */
  lemma HmsChars(t: int)
    requires 0 <= t < 86400
    ensures forall i :: 0 <= i < |Hms(t)| ==> Hms(t)[i] == '.' || IsDigit(Hms(t)[i])
  {
    var s := Hms(t);
    var a, b, c := Pad2(t / 3600), Pad2(t / 60 % 60), Pad2(t % 60);
    assert s == a + "." + b + "." + c;
    forall i | 0 <= i < |s| ensures s[i] == '.' || IsDigit(s[i]) {
      if i < 2 { assert s[i] == a[i]; }
      else if 2 < i < 5 { assert s[i] == b[i - 3]; }
      else if 5 < i { assert s[i] == c[i - 6]; }
    }
  }

  function ParseHms(s: string): int
    requires |s| == 8
  {
    3600 * ParsePad2(s[0..2]) + 60 * ParsePad2(s[3..5]) + ParsePad2(s[6..8])
  }

  /** Reading an `HH.MM.SS` label back gives the second of the day, so two
      different seconds of a day never share a label. */
  lemma HmsRoundTrip(t: int)
    requires 0 <= t < 86400
    ensures ParseHms(Hms(t)) == t
  {
    var s := Hms(t);
    assert s[0..2] == Pad2(t / 3600);
    assert s[3..5] == Pad2(t / 60 % 60);
    assert s[6..8] == Pad2(t % 60);
    Pad2RoundTrip(t / 3600);
    Pad2RoundTrip(t / 60 % 60);
    Pad2RoundTrip(t % 60);
    assert t / 3600 == t / 60 / 60;
  }

  lemma HmsInjective(a: int, b: int)
    requires 0 <= a < 86400 && 0 <= b < 86400
    ensures Hms(a) == Hms(b) <==> a == b
  {
    HmsRoundTrip(a);
    HmsRoundTrip(b);
  }
}

=== FILE: divmod.dfy ===
/** Facts about Euclidean division used by the calendar and the slot
    sequences. For a positive divisor Dafny's `/` and `%` agree with
    Python's floor division `//` and `%`, which is what the program uses. */
module DivMod {

  /** Quotient and remainder are determined by any decomposition
      `a == n * q + r` with `0 <= r < n`. */
  lemma DivModUnique(a: int, n: int, q: int, r: int)
    requires n > 0
    requires a == n * q + r
    requires 0 <= r < n
    ensures a / n == q
    ensures a % n == r
  {
    var q', r' := a / n, a % n;
    assert a == n * q' + r';
    if q' > q {
      assert n * q' - n * q == n * (q' - q);
      MulAtLeast(n, q' - q);
    } else if q' < q {
      assert n * q - n * q' == n * (q - q');
      MulAtLeast(n, q - q');
    }
  }

  lemma MulAtLeast(n: int, k: int)
    requires n > 0 && k >= 1
    ensures n * k >= n
  {
    assert n * k == n + n * (k - 1);
    assert n * (k - 1) >= 0;
  }

  /** Two numbers closer than `n` but not equal have different residues. */
  lemma ModDistinct(a: int, b: int, n: int)
    requires n > 0
    requires 0 < a - b < n
    ensures a % n != b % n
  {
    var qa, qb := a / n, b / n;
    assert a == n * qa + a % n;
    assert b == n * qb + b % n;
    if a % n == b % n {
      var k := qa - qb;
      assert a - b == n * k;
      if k >= 1 {
        MulAtLeast(n, k);
        assert false;
      } else {
        MulNonPositive(n, k);
        assert false;
      }
    }
  }

  lemma MulNonPositive(n: int, k: int)
    requires n > 0 && k <= 0
    ensures n * k <= 0
  {
    assert n * k == -(n * -k);
    assert n * -k >= 0;
  }

  /** Shifting by a whole multiple of `n` keeps the residue. */
  lemma ModShift(a: int, n: int, k: int)
    requires n > 0
    ensures (a + n * k) % n == a % n
  {
    DivModUnique(a + n * k, n, a / n + k, a % n);
  }

  /** Subtracting one: the residue drops by one, or wraps from 0 to n - 1. */
  lemma ModPred(a: int, n: int)
    requires n > 0
    ensures (a - 1) % n == if a % n == 0 then n - 1 else a % n - 1
  {
    if a % n == 0 {
      DivModUnique(a - 1, n, a / n - 1, n - 1);
    } else {
      DivModUnique(a - 1, n, a / n, a % n - 1);
    }
  }

  lemma MulRotate(a: int, b: int, c: int)
    ensures a * (b * c) == b * (a * c)
  {
  }
}

=== FILE: expectedvalues.dfy ===
/** The slot identifiers pyrsnap's unit tests expect at Monday
    2017-11-20 18:49:12, derived from the general lemmas about each
    profile's identifier sequence. */
module ExpectedValues {
  import opened DivMod
  import opened Calendar
  import opened IsoWeeks
  import opened Digits
  import opened Slots

  /** The test clock: 2017-11-20, 18:49:12. */
  const NOW := DateTime(Date(2017, 11, 20), 18 * 3600 + 49 * 60 + 12)

  /** Day number of the test date. */
  const TODAY := 736653

  lemma NowValid()
    ensures ValidDateTime(NOW)
    ensures ToOrdinal(NOW.date) == TODAY
  {
  }

  // ---------------------------------------------------------------------
  // Monthly

  lemma MonthlyIdsAt(k: int, m: int)
    requires 0 <= k < 12 && m == if k <= 10 then 11 - k else 12
    ensures MonthlyIds(NOW)[k] == Pad2(m)
  {
  }

  const MONTHLY_EXPECTED := ["11", "10", "09", "08", "07", "06", "05", "04", "03", "02", "01", "12"]

  lemma MonthlyIdsMatch()
    ensures forall k :: 0 <= k < 12 ==> MonthlyIds(NOW)[k] == MONTHLY_EXPECTED[k]
  {
    forall k | 0 <= k < 12
      ensures MonthlyIds(NOW)[k] == MONTHLY_EXPECTED[k]
    {
      MonthlyIdsAt(k, if k <= 10 then 11 - k else 12);
      MonthlyLiteral(k);
    }
  }

  lemma MonthlyLiteral(k: int)
    requires 0 <= k < 12
    ensures MONTHLY_EXPECTED[k] == Pad2(if k <= 10 then 11 - k else 12)
  {
  }

  /** Twelve months counting down from November, wrapping at January. */
  lemma MonthlyExpected()
    ensures MonthlyIds(NOW) == MONTHLY_EXPECTED
  {
    MonthlyIdsMatch();
  }

  // ---------------------------------------------------------------------
  // Weekday

  lemma TodayIsMonday()
    ensures IsoWeekday(TODAY) == 1
  {
  }

  lemma WeekdayIdsAt(k: int, d: int)
    requires 0 <= k < 7 && d == if k == 0 then 1 else 8 - k
    ensures WeekdayIds(NOW)[k] == Show1(d)
  {
    NowValid();
    TodayIsMonday();
  }

  const WEEKDAY_EXPECTED := ["1", "7", "6", "5", "4", "3", "2"]

  lemma WeekdayLiteral(k: int)
    requires 0 <= k < 7
    ensures WEEKDAY_EXPECTED[k] == Show1(if k == 0 then 1 else 8 - k)
  {
  }

  /** Monday first, then Sunday back to Tuesday. */
  lemma WeekdayExpected()
    ensures WeekdayIds(NOW) == WEEKDAY_EXPECTED
  {
    forall k | 0 <= k < 7
      ensures WeekdayIds(NOW)[k] == WEEKDAY_EXPECTED[k]
    {
      WeekdayIdsAt(k, if k == 0 then 1 else 8 - k);
      WeekdayLiteral(k);
    }
  }

  // ---------------------------------------------------------------------
  // Weekly

  /** Week-1 Mondays of the ISO years 2016, 2017 and 2018. */
  lemma Week1Mondays()
    ensures Week1Monday(2016) == 735967
    ensures Week1Monday(2017) == 736331
    ensures Week1Monday(2018) == 736695
  {
  }

  /** Label `k` of the weekly sequence at the test clock. */
  lemma WeeklyIdsNow(k: int)
    requires 0 <= k < 53
    ensures |WeeklyIds(NOW)| == 53
    ensures WeeklyIds(NOW)[k] == WeekLabel(WeeksAgo(TODAY, k))
  {
    NowValid();
    LoopYieldsCeil(DAYS_PER_WEEK, WEEKLY_SPAN);
  }

  /** Label `k` of the weekly sequence, for a day `k` weeks back that
      lies in ISO year `iy`, names the week counted from that year's
      week-1 Monday. */
  lemma WeeklyIdAt(k: int, iy: int, w: int)
    requires 0 <= k < 53 && InIsoYear(WeeksAgo(TODAY, k), iy)
    requires w == (WeeksAgo(TODAY, k) - Week1Monday(iy)) / 7 + 1
    ensures WeeklyIds(NOW)[k] == Pad2(w)
  {
    WeeklyIdsNow(k);
    WeekLabelOf(WeeksAgo(TODAY, k), iy, w);
  }

  lemma WeekLabelOf(n: int, iy: int, w: int)
    requires InIsoYear(n, iy) && w == (n - Week1Monday(iy)) / 7 + 1
    ensures WeekLabel(n) == Pad2(w)
  {
    IsoWeekIn(n, iy);
  }

  lemma Pad2Weeks()
    ensures Pad2(46) == "46" && Pad2(47) == "47" && Pad2(48) == "48"
  {
  }

  /** 53 labels: week 47, week 46, ..., week 48 and week 47 of the
      previous year, as ISO weeks do not align with calendar years. */
  lemma WeeklyExpected()
    ensures var ids := WeeklyIds(NOW);
            && |ids| == 53
            && ids[0] == "47" && ids[1] == "46" && ids[51] == "48" && ids[52] == "47"
  {
    WeeklyIdsNow(0);
    Week1Mondays();
    WeeklyIdAt(0, 2017, 47);
    WeeklyIdAt(1, 2017, 46);
    WeeklyIdAt(51, 2016, 48);
    WeeklyIdAt(52, 2016, 47);
    Pad2Weeks();
  }

  // ---------------------------------------------------------------------
  // Subdaily

  lemma SubdailySeconds()
    ensures SubdailySecond(NOW, DEFAULT_INTERVAL, 0) == 67500
    ensures SubdailySecond(NOW, DEFAULT_INTERVAL, 1) == 67200
    ensures SubdailySecond(NOW, DEFAULT_INTERVAL, 287) == 67800
    ensures SubdailySecond(NOW, DEFAULT_INTERVAL, 286) == 68100
  {
    NowValid();
    SubdailyFirst(NOW, DEFAULT_INTERVAL);
    SubdailyStep(NOW, DEFAULT_INTERVAL, 0);
    SubdailyLength(NOW, DEFAULT_INTERVAL);
    SubdailyWrap(NOW, DEFAULT_INTERVAL);
    SubdailyStep(NOW, DEFAULT_INTERVAL, 286);
  }

  /** `Hms` of a clock reading given by its hour and minute. */
  lemma HmsAt(t: int, h: int, m: int)
    requires 0 <= h < 24 && 0 <= m < 60 && t == 3600 * h + 60 * m
    ensures Hms(t) == Pad2(h) + "." + Pad2(m) + ".00"
  {
    DivModUnique(t, 3600, h, 60 * m);
    DivModUnique(t, 60, 60 * h + m, 0);
    DivModUnique(60 * h + m, 60, h, m);
  }

  lemma Pad2Clock()
    ensures Pad2(18) == "18" && Pad2(40) == "40" && Pad2(45) == "45" && Pad2(50) == "50" && Pad2(55) == "55"
  {
  }

  lemma HmsExpected()
    ensures Hms(67500) == "18.45.00" && Hms(67200) == "18.40.00"
    ensures Hms(67800) == "18.50.00" && Hms(68100) == "18.55.00"
  {
    HmsAt(67500, 18, 45);
    HmsAt(67200, 18, 40);
    HmsAt(67800, 18, 50);
    HmsAt(68100, 18, 55);
    Pad2Clock();
  }

  /** 288 five-minute slots: 18.45.00 and 18.40.00 first, then round the
      clock to 18.55.00 and 18.50.00. */
  lemma SubdailyExpected()
    ensures var ids := SubdailyIds(NOW, DEFAULT_INTERVAL);
            && |ids| == 288
            && ids[0] == "18.45.00" && ids[1] == "18.40.00" && ids[286] == "18.55.00" && ids[287] == "18.50.00"
  {
    NowValid();
    SubdailyLength(NOW, DEFAULT_INTERVAL);
    SubdailySeconds();
    HmsExpected();
  }
}

=== FILE: options.dfy ===
/** `ArgumentSet`: a dictionary of rsync options rendered to argv tokens,
    and the option values read from a configuration file. */
module Options {
  import opened Wrappers

  /** An option value: `True`/`False`, a string argument, or `None`. */
  datatype Value = Flag(on: bool) | Str(arg: string) | Unset

  /** A dictionary as a sequence of key/value pairs with distinct keys; its
      order stands for an arbitrary iteration order. */
  type Opts = seq<(string, Value)>

  function Keys(o: Opts): set<string> {
    if |o| == 0 then {} else {o[0].0} + Keys(o[1..])
  }

  /** No key occurs twice. */
  predicate UniqueKeys(o: Opts) {
    |o| == 0 || (o[0].0 !in Keys(o[1..]) && UniqueKeys(o[1..]))
  }

  /** Keys that differ pairwise are unique. */
  lemma {:induction false} DistinctKeys(o: Opts)
    requires forall i, j :: 0 <= i < j < |o| ==> o[i].0 != o[j].0
    ensures UniqueKeys(o)
  {
    if |o| > 0 {
      DistinctKeys(o[1..]);
      if o[0].0 in Keys(o[1..]) {
        var r := Lookup(o[1..], o[0].0);
        assert false;
      }
    }
  }

  lemma {:induction false} InKeys(o: Opts, i: int)
    requires 0 <= i < |o|
    ensures o[i].0 in Keys(o)
  {
    if i > 0 {
      InKeys(o[1..], i - 1);
    }
  }

  /** `o.get(k)`. */
  function Lookup(o: Opts, k: string): (r: Option<Value>)
    ensures r.None? <==> k !in Keys(o)
    ensures r.Some? ==> (k, r.value) in o
  {
    if |o| == 0 then None
    else if o[0].0 == k then Some(o[0].1)
    else Lookup(o[1..], k)
  }

  /** In a dictionary with distinct keys, the pair holding a key gives
      its value. */
  lemma {:induction false} LookupAt(o: Opts, i: int)
    requires UniqueKeys(o) && 0 <= i < |o|
    ensures Lookup(o, o[i].0) == Some(o[i].1)
  {
    if i > 0 {
      InKeys(o[1..], i - 1);
      LookupAt(o[1..], i - 1);
    }
  }

  /** `o[k] = v`: replaces the value in place when the key is present,
      otherwise adds the pair at the end. */
  function Update(o: Opts, k: string, v: Value): (r: Opts)
    requires UniqueKeys(o)
    ensures UniqueKeys(r)
    ensures Keys(r) == Keys(o) + {k}
    ensures Lookup(r, k) == Some(v)
    ensures forall x :: x != k ==> Lookup(r, x) == Lookup(o, x)
  {
    if |o| == 0 then [(k, v)]
    else if o[0].0 == k then [(k, v)] + o[1..]
    else [o[0]] + Update(o[1..], k, v)
  }

  /** `dict.update(other)`: every pair of `over` assigned in turn. */
  function Merge(base: Opts, over: Opts): (r: Opts)
    requires UniqueKeys(base)
    ensures UniqueKeys(r)
    ensures Keys(r) == Keys(base) + Keys(over)
    decreases |over|
  {
    if |over| == 0 then base
    else Merge(Update(base, over[0].0, over[0].1), over[1..])
  }

  /** Merging is override-wins: a key set by `over` takes its value there,
      any other key keeps its value in `base`. */
  lemma {:induction false} MergeLookup(base: Opts, over: Opts, k: string)
    requires UniqueKeys(base) && UniqueKeys(over)
    ensures Lookup(Merge(base, over), k) == if k in Keys(over) then Lookup(over, k) else Lookup(base, k)
    decreases |over|
  {
    if |over| > 0 {
      MergeLookup(Update(base, over[0].0, over[0].1), over[1..], k);
    }
  }

  // ---------------------------------------------------------------------
  // Rendering

  /** `k.replace('_', '-')`. */
  function Dashes(k: string): (r: string)
    ensures |r| == |k|
    ensures forall i :: 0 <= i < |k| ==> r[i] == if k[i] == '_' then '-' else k[i]
  {
    seq(|k|, i requires 0 <= i < |k| => if k[i] == '_' then '-' else k[i])
  }

  /** The tokens one pair renders to: none for `None` and for a false
      short option, `-k`, `--k`, `--no-k` or `--k=v`; a short option with
      a string argument is a ValueError. */
  function Token(k: string, v: Value): (r: Result<seq<string>>)
    ensures r.Success? ==> |r.value| <= 1
    ensures r.Failure? ==> r.error == ValueError
  {
    var key := Dashes(k);
    match v
    case Unset => Success([])
    case Flag(on) =>
      if |key| == 1 then Success(if on then ["-" + key] else [])
      else Success(if on then ["--" + key] else ["--no-" + key])
    case Str(arg) =>
      if |key| == 1 then Failure(ValueError)
      else Success(["--" + key + "=" + arg])
  }

  /** A pair rendering is refused exactly for a one-character key with a
      string argument. */
  predicate Refused(k: string, v: Value) {
    |k| == 1 && v.Str?
  }

  /** `as_command_line`: the tokens of every pair, in iteration order. */
  function Render(o: Opts): (r: Result<seq<string>>)
    ensures r.Success? ==> |r.value| <= |o|
    ensures r.Failure? ==> r.error == ValueError
  {
    if |o| == 0 then Success([])
    else
      var t :- Token(o[0].0, o[0].1);
      var rest :- Render(o[1..]);
      Success(t + rest)
  }

  /** Rendering fails, with ValueError, exactly when some one-character
      key has a string argument. */
  lemma {:induction false} RenderFails(o: Opts)
    ensures Render(o).Failure? <==> exists i :: 0 <= i < |o| && Refused(o[i].0, o[i].1)
    ensures Render(o).Failure? ==> Render(o).error == ValueError
  {
    if |o| > 0 {
      RenderFails(o[1..]);
      if exists i :: 0 <= i < |o[1..]| && Refused(o[1..][i].0, o[1..][i].1) {
        var i :| 0 <= i < |o[1..]| && Refused(o[1..][i].0, o[1..][i].1);
        assert Refused(o[i + 1].0, o[i + 1].1);
      }
      if exists i :: 0 <= i < |o| && Refused(o[i].0, o[i].1) {
        var i :| 0 <= i < |o| && Refused(o[i].0, o[i].1);
        if i > 0 {
          assert Refused(o[1..][i - 1].0, o[1..][i - 1].1);
        }
      }
    }
  }

  /** Assigning a pair that renders keeps a rendering map rendering. */
  lemma UpdateRenders(o: Opts, k: string, v: Value)
    requires UniqueKeys(o) && Render(o).Success? && !Refused(k, v)
    ensures Render(Update(o, k, v)).Success?
  {
    var r := Update(o, k, v);
    RenderFails(o);
    RenderFails(r);
    forall i | 0 <= i < |r| ensures !Refused(r[i].0, r[i].1) {
      LookupAt(r, i);
      if r[i].0 != k {
        assert r[i] in o;
        var j :| 0 <= j < |o| && o[j] == r[i];
      }
    }
  }

  /** Rendering concatenates the renderings of the parts. */
  lemma {:induction false} RenderAppend(a: Opts, b: Opts)
    ensures Render(a + b).Success? <==> Render(a).Success? && Render(b).Success?
    ensures Render(a + b).Success? ==> Render(a + b).value == Render(a).value + Render(b).value
  {
    if |a| == 0 {
      assert a + b == b;
    } else {
      assert (a + b)[1..] == a[1..] + b;
      RenderAppend(a[1..], b);
    }
  }

  /** A sequence with the same elements as `a` is `a[0]` placed between
      two parts holding the rest of `a`. */
  lemma PermSplit(a: Opts, b: Opts) returns (b1: Opts, b2: Opts)
    requires multiset(a) == multiset(b) && |a| > 0
    ensures b == b1 + [a[0]] + b2
    ensures multiset(a[1..]) == multiset(b1 + b2)
  {
    var x := a[0];
    assert x in multiset(b);
    var j :| 0 <= j < |b| && b[j] == x;
    b1, b2 := b[..j], b[j + 1..];
    var c := b1 + [x];
    assert b == c + b2;
    assert a == [x] + a[1..];
    calc {
      multiset{x} + multiset(a[1..]);
      multiset(a);
      multiset(b);
      multiset(c) + multiset(b2);
      multiset(b1) + multiset{x} + multiset(b2);
      multiset{x} + multiset(b1 + b2);
    }
    var ma, mb := multiset(a[1..]), multiset(b1 + b2);
    forall y
      ensures ma[y] == mb[y]
    {
      assert (multiset{x} + ma)[y] == (multiset{x} + mb)[y];
    }
  }

  /** Rendering a pair placed between two parts is rendering it first,
      up to the order of the tokens. */
  lemma RenderMiddle(b1: Opts, x: (string, Value), b2: Opts)
    ensures Render(b1 + [x] + b2).Success? <==> Render([x]).Success? && Render(b1 + b2).Success?
    ensures Render(b1 + [x] + b2).Success? ==>
              multiset(Render(b1 + [x] + b2).value) == multiset(Render([x]).value) + multiset(Render(b1 + b2).value)
  {
    RenderAppend(b1 + [x], b2);
    RenderAppend(b1, [x]);
    RenderAppend(b1, b2);
  }

  /** The tokens rendered do not depend on the iteration order: reordering
      the pairs permutes the tokens, and fails exactly when the original
      order fails. */
  lemma {:induction false} RenderPermutation(a: Opts, b: Opts)
    requires multiset(a) == multiset(b)
    ensures Render(a).Success? <==> Render(b).Success?
    ensures Render(a).Success? ==> multiset(Render(a).value) == multiset(Render(b).value)
    decreases |a|
  {
    if |a| == 0 {
      assert |b| == |multiset(b)| == 0;
    } else {
      var b1, b2 := PermSplit(a, b);
      RenderPermutation(a[1..], b1 + b2);
      RenderMiddle(b1, a[0], b2);
      assert a == [a[0]] + a[1..];
      RenderAppend([a[0]], a[1..]);
    }
  }

  /** What rendering a dictionary with distinct keys yields: a token list
      with no failure holds, for every pair, that pair's token (if any),
      and nothing else. */
  lemma {:induction false} RenderMembers(o: Opts)
    requires Render(o).Success?
    ensures forall i :: 0 <= i < |o| ==> Token(o[i].0, o[i].1).Success?
    ensures forall i, t :: 0 <= i < |o| && t in Token(o[i].0, o[i].1).value ==> t in Render(o).value
    ensures forall t :: t in Render(o).value ==> exists i :: 0 <= i < |o| && t in Token(o[i].0, o[i].1).value
  {
    if |o| > 0 {
      var rest := o[1..];
      RenderMembers(rest);
      forall i | 0 < i < |o| ensures Token(o[i].0, o[i].1).Success? {
        assert o[i] == rest[i - 1];
      }
      forall i, t | 0 <= i < |o| && t in Token(o[i].0, o[i].1).value ensures t in Render(o).value {
        if i > 0 { assert o[i] == rest[i - 1]; }
      }
      forall t | t in Render(o).value ensures exists i :: 0 <= i < |o| && t in Token(o[i].0, o[i].1).value {
        if t !in Token(o[0].0, o[0].1).value {
          var i :| 0 <= i < |rest| && t in Token(rest[i].0, rest[i].1).value;
          assert o[i + 1] == rest[i];
        }
      }
    }
  }

  /** The token of each kind of value, for a long key. */
  lemma LongTokens(k: string)
    requires |k| > 1
    ensures Token(k, Flag(true)) == Success(["--" + Dashes(k)])
    ensures Token(k, Flag(false)) == Success(["--no-" + Dashes(k)])
    ensures forall a :: Token(k, Str(a)) == Success(["--" + Dashes(k) + "=" + a])
    ensures Token(k, Unset) == Success([])
  {
  }

  /** The token of each kind of value, for a one-character key: `-k` for
      true, nothing for false and None, ValueError for an argument. */
  lemma ShortTokens(k: string)
    requires |k| == 1
    ensures Token(k, Flag(true)) == Success(["-" + Dashes(k)])
    ensures Token(k, Flag(false)) == Success([])
    ensures forall a :: Token(k, Str(a)) == Failure(ValueError)
    ensures Token(k, Unset) == Success([])
  {
  }

  // ---------------------------------------------------------------------
  // Values read from a configuration section

  const CONFIG_PREFIX := "rsync-opt-"

  /** Option strings in the configuration file: 'True', 'False', 'None'
      and the empty string are booleans and None, anything else an
      argument. */
  function ConfigValue(s: string): (v: Value)
    ensures v.Str? <==> s !in {"True", "False", "None", ""}
  {
    if s == "True" then Flag(true)
    else if s == "False" then Flag(false)
    else if s == "None" || s == "" then Unset
    else Str(s)
  }

  /** Python's `str()` of a value, as it would be written back. */
  function Show(v: Value): string {
    match v
    case Flag(on) => if on then "True" else "False"
    case Unset => "None"
    case Str(a) => a
  }

  /** Reading the written form of a value gives it back, unless it is a
      string argument spelled like one of the special words; and writing
      the value read gives back the text, except that an empty text is
      written back as "None". */
  lemma ConfigValueRoundTrip(v: Value, s: string)
    ensures (v.Str? ==> v.arg !in {"True", "False", "None", ""}) ==> ConfigValue(Show(v)) == v
    ensures Show(ConfigValue(s)) == if s == "" then "None" else s
  {
  }

  predicate HasPrefix(s: string, p: string) {
    |p| <= |s| && s[..|p|] == p
  }

  /** The options of a configuration section: the items whose key starts
      with `rsync-opt-`, with that prefix removed and the value read. */
  function ConfigOpts(items: seq<(string, string)>): (o: Opts)
    ensures |o| <= |items|
  {
    if |items| == 0 then []
    else
      var rest := ConfigOpts(items[1..]);
      var (k, v) := items[0];
      if HasPrefix(k, CONFIG_PREFIX) then [(k[|CONFIG_PREFIX|..], ConfigValue(v))] + rest else rest
  }

  /** The configuration options hold exactly the prefixed items, stripped
      and read. */
  lemma {:induction false} ConfigOptsMembers(items: seq<(string, string)>)
    ensures forall i :: 0 <= i < |items| && HasPrefix(items[i].0, CONFIG_PREFIX) ==>
              (items[i].0[|CONFIG_PREFIX|..], ConfigValue(items[i].1)) in ConfigOpts(items)
    ensures forall p :: p in ConfigOpts(items) ==>
              exists i :: 0 <= i < |items| && HasPrefix(items[i].0, CONFIG_PREFIX)
                          && p == (items[i].0[|CONFIG_PREFIX|..], ConfigValue(items[i].1))
  {
    if |items| > 0 {
      var rest := items[1..];
      ConfigOptsMembers(rest);
      forall i | 0 < i < |items| && HasPrefix(items[i].0, CONFIG_PREFIX)
        ensures (items[i].0[|CONFIG_PREFIX|..], ConfigValue(items[i].1)) in ConfigOpts(items)
      {
        assert items[i] == rest[i - 1];
      }
      forall p | p in ConfigOpts(items)
        ensures exists i :: 0 <= i < |items| && HasPrefix(items[i].0, CONFIG_PREFIX)
                            && p == (items[i].0[|CONFIG_PREFIX|..], ConfigValue(items[i].1))
      {
        if p in ConfigOpts(rest) {
          var i :| 0 <= i < |rest| && HasPrefix(rest[i].0, CONFIG_PREFIX)
                   && p == (rest[i].0[|CONFIG_PREFIX|..], ConfigValue(rest[i].1));
          assert items[i + 1] == rest[i];
        }
      }
    }
  }

  /** Every key of the configuration options is a prefixed item key with
      the prefix removed. */
  lemma {:induction false} ConfigKeys(items: seq<(string, string)>, x: string)
    requires x in Keys(ConfigOpts(items))
    ensures exists i :: 0 <= i < |items| && HasPrefix(items[i].0, CONFIG_PREFIX)
                        && x == items[i].0[|CONFIG_PREFIX|..]
  {
    var rest := items[1..];
    if x in Keys(ConfigOpts(rest)) {
      ConfigKeys(rest, x);
      var i :| 0 <= i < |rest| && HasPrefix(rest[i].0, CONFIG_PREFIX) && x == rest[i].0[|CONFIG_PREFIX|..];
      assert items[i + 1] == rest[i];
    }
  }

  lemma StripPrefixInjective(a: string, b: string)
    requires HasPrefix(a, CONFIG_PREFIX) && HasPrefix(b, CONFIG_PREFIX)
    requires a[|CONFIG_PREFIX|..] == b[|CONFIG_PREFIX|..]
    ensures a == b
  {
    assert a == CONFIG_PREFIX + a[|CONFIG_PREFIX|..];
    assert b == CONFIG_PREFIX + b[|CONFIG_PREFIX|..];
  }

  /** Distinct configuration keys stay distinct once the prefix is removed. */
  lemma {:induction false} ConfigOptsUnique(items: seq<(string, string)>)
    requires forall i, j :: 0 <= i < j < |items| ==> items[i].0 != items[j].0
    ensures UniqueKeys(ConfigOpts(items))
  {
    if |items| > 0 {
      var rest := items[1..];
      ConfigOptsUnique(rest);
      var k := items[0].0;
      if HasPrefix(k, CONFIG_PREFIX) && k[|CONFIG_PREFIX|..] in Keys(ConfigOpts(rest)) {
        ConfigKeys(rest, k[|CONFIG_PREFIX|..]);
        var i :| 0 <= i < |rest| && HasPrefix(rest[i].0, CONFIG_PREFIX)
                 && k[|CONFIG_PREFIX|..] == rest[i].0[|CONFIG_PREFIX|..];
        assert items[i + 1] == rest[i];
        StripPrefixInjective(k, rest[i].0);
        assert false;
      }
    }
  }
}

=== FILE: paths.dfy ===
/** The string-level path operations the tool relies on: joining with '/',
    `str.rstrip('/')`, and POSIX `os.path.basename` / `os.path.dirname` /
    `os.path.realpath`. */
module Paths {

  const SLASH := '/'
  const LATEST := "latest"

  predicate NoSlash(s: string) {
    forall i :: 0 <= i < |s| ==> s[i] != SLASH
  }

  predicate EndsWithSlash(s: string) {
    |s| > 0 && s[|s| - 1] == SLASH
  }

  /** `a + '/' + b`, the only way the tool forms paths. */
  function Join(a: string, b: string): (p: string)
    ensures |p| == |a| + 1 + |b| && p[..|a|] == a && p[|a|] == SLASH && p[|a| + 1..] == b
  {
    a + [SLASH] + b
  }

  /** Joining onto the same directory is injective in the name. */
  lemma JoinInjective(a: string, b: string, c: string)
    ensures Join(a, b) == Join(a, c) <==> b == c
  {
    if Join(a, b) == Join(a, c) {
      assert b == Join(a, b)[|a| + 1..];
    }
  }

  /** `s.rstrip('/')`: `s` without its trailing slashes. */
  function RStripSlash(s: string): (r: string)
    ensures |r| <= |s| && r == s[..|r|]
    ensures !EndsWithSlash(r)
    ensures forall i :: |r| <= i < |s| ==> s[i] == SLASH
  {
    if EndsWithSlash(s) then RStripSlash(s[..|s| - 1]) else s
  }

  /** A string that does not end in a slash is left alone, and stripping
      is idempotent. */
  lemma RStripSlashFixed(s: string)
    ensures !EndsWithSlash(s) ==> RStripSlash(s) == s
    ensures RStripSlash(RStripSlash(s)) == RStripSlash(s)
  {
  }

  /** Stripping removes every trailing slash added to a string and nothing
      more. */
  lemma {:induction false} RStripSlashAppended(s: string, n: nat)
    requires !EndsWithSlash(s)
    ensures RStripSlash(s + seq(n, _ => SLASH)) == s
  {
    if n > 0 {
      var t := s + seq(n, _ => SLASH);
      assert t[..|t| - 1] == s + seq(n - 1, _ => SLASH);
      RStripSlashAppended(s, n - 1);
    }
  }

  /** `p.rfind('/')`: index of the last slash, -1 when there is none. */
  function LastSlash(p: string): (i: int)
    ensures -1 <= i < |p|
    ensures i >= 0 ==> p[i] == SLASH
    ensures forall j :: i < j < |p| ==> p[j] != SLASH
  {
    if |p| == 0 then -1
    else if p[|p| - 1] == SLASH then |p| - 1
    else LastSlash(p[..|p| - 1])
  }

  /** `posixpath.basename`: everything after the last slash. */
  function Basename(p: string): (b: string)
    ensures NoSlash(b)
  {
    p[LastSlash(p) + 1..]
  }

  predicate AllSlashes(s: string) {
    forall i :: 0 <= i < |s| ==> s[i] == SLASH
  }

  /** `posixpath.dirname`: everything up to the last slash, with trailing
      slashes removed unless the head consists only of slashes. */
  function Dirname(p: string): string {
    var head := p[..LastSlash(p) + 1];
    if |head| > 0 && !AllSlashes(head) then RStripSlash(head) else head
  }

  /** `os.path.realpath` of an absolute, normalised path free of symbolic
      links: the path without its trailing slashes ("/" stays "/"). */
  function Realpath(p: string): (r: string)
    ensures |p| > 0 && AllSlashes(p) ==> r == [SLASH]
    ensures !EndsWithSlash(p) ==> r == p
  {
    if |p| > 0 && AllSlashes(p) then [SLASH] else RStripSlash(p)
  }

  /** A path `dir/name` splits back into `dir` and `name`. */
  lemma SplitJoin(dir: string, name: string)
    requires NoSlash(name) && |dir| > 0 && !EndsWithSlash(dir) && !AllSlashes(dir)
    ensures Basename(Join(dir, name)) == name
    ensures Dirname(Join(dir, name)) == dir
  {
    var p := Join(dir, name);
    assert LastSlash(p) == |dir|;
    assert p[..|dir| + 1] == dir + [SLASH];
    assert !AllSlashes(dir + [SLASH]);
    assert (dir + [SLASH])[..|dir|] == dir;
  }

  /** A slot path `base/name` is its own real path, with or without a
      trailing slash. */
  lemma RealpathOfSlot(base: string, name: string, slash: bool)
    requires NoSlash(name) && |name| > 0
    ensures Realpath(Join(base, name) + (if slash then [SLASH] else [])) == Join(base, name)
  {
    var p := Join(base, name);
    assert p[|p| - 1] == name[|name| - 1];
    assert !AllSlashes(p);
    if slash {
      RStripSlashAppended(p, 1);
      assert seq(1, _ => SLASH) == [SLASH];
    }
  }
}

=== FILE: profiles.dfy ===
/** Storage profiles: the registry that maps a profile name to a profile
    class, the profile built for a storage root and a reference time, and
    its two queries, the current slot and the previous slot to link
    against. */
module Profiles {
  import opened Wrappers
  import opened Slots
  import opened Paths
  import opened Digits

  /** The two copies of the tool: `rsnap.py` and `pyrsnap/rsnap.py`. */
  datatype Copy = Rsnap | PyRsnap

  /** The profile classes. `Storage` is the root `StorageProfile`;
      `CyclicBase` is `CyclicProfile`, which has no `backcounter` of its
      own. `Snapshot` exists in `rsnap.py` only. */
  datatype Kind = Storage | Snapshot | CyclicBase | Subdaily | Hourly | Monthly | Weekly | Monthday | Weekday

  /** The `NAME` a class declares itself. */
  function OwnName(copy: Copy, k: Kind): Option<string> {
    match k
    case Storage => if copy == PyRsnap then Some("default") else None
    case Snapshot => if copy == Rsnap then Some("snapshot") else None
    case CyclicBase => None
    case Subdaily => Some("subdaily")
    case Hourly => Some("hourly")
    case Monthly => Some("monthly")
    case Weekly => Some("weekly")
    case Monthday => Some("monthday")
    case Weekday => Some("weekday")
  }

  /** The `NAME` attribute as Python looks it up: declared, or inherited
      from the parent class. Only `CyclicProfile` inherits one. */
  function NameOf(copy: Copy, k: Kind): Option<string> {
    if k == CyclicBase then OwnName(copy, Storage) else OwnName(copy, k)
  }

  /** The name a lookup compares: the declared one, or the one Python
      finds by inheritance. */
  function Label(copy: Copy, k: Kind, declared: bool): Option<string> {
    if declared then OwnName(copy, k) else NameOf(copy, k)
  }

  /** Depth of a class's subtree. */
  function Height(k: Kind): nat {
    match k
    case Storage => 3
    case CyclicBase => 2
    case Subdaily => 1
    case _ => 0
  }

  /** `__subclasses__()`: the direct subclasses, in definition order. */
  function Children(copy: Copy, k: Kind): (cs: seq<Kind>)
    ensures forall c :: c in cs ==> Height(c) < Height(k)
  {
    match k
    case Storage => if copy == Rsnap then [Snapshot, CyclicBase] else [CyclicBase]
    case CyclicBase => [Subdaily, Monthly, Weekly, Monthday, Weekday]
    case Subdaily => [Hourly]
    case _ => []
  }

  /** `get_subclasses`: for each direct subclass in turn, its own walk and
      then the subclass itself (depth first, children first). */
  function Walk(copy: Copy, k: Kind): seq<Kind>
    decreases Height(k), 1, 0
  {
    WalkEach(copy, Children(copy, k), Height(k))
  }

  function WalkEach(copy: Copy, cs: seq<Kind>, h: nat): seq<Kind>
    requires forall c :: c in cs ==> Height(c) < h
    decreases h, 0, |cs|
  {
    if |cs| == 0 then []
    else Walk(copy, cs[0]) + [cs[0]] + WalkEach(copy, cs[1..], h)
  }

  /** Every class a walk visits sits strictly below its start, so the root
      class is never among them. */
  lemma {:induction false} WalkBelow(copy: Copy, k: Kind)
    ensures forall c :: c in Walk(copy, k) ==> Height(c) < Height(k)
    decreases Height(k), 1, 0
  {
    WalkEachBelow(copy, Children(copy, k), Height(k));
  }

  lemma {:induction false} WalkEachBelow(copy: Copy, cs: seq<Kind>, h: nat)
    requires forall c :: c in cs ==> Height(c) < h
    ensures forall c :: c in WalkEach(copy, cs, h) ==> Height(c) < h
    decreases h, 0, |cs|
  {
    if |cs| > 0 {
      WalkBelow(copy, cs[0]);
      WalkEachBelow(copy, cs[1..], h);
    }
  }

  lemma LeafWalk(copy: Copy, k: Kind)
    requires Height(k) == 0
    ensures Walk(copy, k) == []
  {
    assert Children(copy, k) == [];
  }

  /** Walking a list of leaf classes yields the list itself. */
  lemma {:induction false} LeavesWalk(copy: Copy, cs: seq<Kind>, h: nat)
    requires 0 < h && forall i :: 0 <= i < |cs| ==> Height(cs[i]) == 0
    ensures WalkEach(copy, cs, h) == cs
    decreases |cs|
  {
    if |cs| > 0 {
      LeafWalk(copy, cs[0]);
      LeavesWalk(copy, cs[1..], h);
      assert cs == [cs[0]] + cs[1..];
    }
  }

  lemma SubdailyWalk(copy: Copy)
    ensures Walk(copy, Subdaily) == [Hourly]
  {
    assert Children(copy, Subdaily) == [Hourly];
    LeavesWalk(copy, [Hourly], 1);
  }

  lemma CyclicWalk(copy: Copy)
    ensures Walk(copy, CyclicBase) == [Hourly, Subdaily, Monthly, Weekly, Monthday, Weekday]
  {
    var rest := [Monthly, Weekly, Monthday, Weekday];
    CyclicFirstChild(copy);
    LeavesWalk(copy, rest, 2);
    SubdailyWalk(copy);
  }

  /** The walk below `CyclicProfile` opens with its first subclass. */
  lemma CyclicFirstChild(copy: Copy)
    ensures Walk(copy, CyclicBase) == Walk(copy, Subdaily) + [Subdaily] + WalkEach(copy, [Monthly, Weekly, Monthday, Weekday], 2)
  {
    var cs := [Subdaily, Monthly, Weekly, Monthday, Weekday];
    assert Children(copy, CyclicBase) == cs && cs[0] == Subdaily && cs[1..] == [Monthly, Weekly, Monthday, Weekday];
  }

  /** The registry walk of `rsnap.py`: the root class is not among them,
      and `CyclicProfile` comes last, after its subclasses. */
  lemma RsnapRegistry()
    ensures Walk(Rsnap, Storage) == [Snapshot, Hourly, Subdaily, Monthly, Weekly, Monthday, Weekday, CyclicBase]
  {
    var cs := [Snapshot, CyclicBase];
    assert Children(Rsnap, Storage) == cs && cs[1..] == [CyclicBase];
    assert WalkEach(Rsnap, cs, 3) == Walk(Rsnap, Snapshot) + [Snapshot] + WalkEach(Rsnap, [CyclicBase], 3);
    assert WalkEach(Rsnap, [CyclicBase], 3) == Walk(Rsnap, CyclicBase) + [CyclicBase] + WalkEach(Rsnap, [], 3);
    LeafWalk(Rsnap, Snapshot);
    CyclicWalk(Rsnap);
  }

  /** The registry walk of pyrsnap. */
  lemma PyRsnapRegistry()
    ensures Walk(PyRsnap, Storage) == [Hourly, Subdaily, Monthly, Weekly, Monthday, Weekday, CyclicBase]
  {
    assert Children(PyRsnap, Storage) == [CyclicBase];
    assert WalkEach(PyRsnap, [CyclicBase], 3) == Walk(PyRsnap, CyclicBase) + [CyclicBase] + WalkEach(PyRsnap, [], 3);
    CyclicWalk(PyRsnap);
  }

  /** Position of the first class of `ks` whose label is `name`; `|ks|`
      when there is none. */
  function FirstIndex(copy: Copy, ks: seq<Kind>, name: string, declared: bool): (i: nat)
    ensures i <= |ks|
    ensures i < |ks| ==> Label(copy, ks[i], declared) == Some(name)
    ensures forall j :: 0 <= j < i ==> Label(copy, ks[j], declared) != Some(name)
  {
    if |ks| == 0 then 0
    else if Label(copy, ks[0], declared) == Some(name) then 0
    else 1 + FirstIndex(copy, ks[1..], name, declared)
  }

  /** The first class of `ks` whose label is `name`; TypeError when there
      is none. */
  function FirstNamed(copy: Copy, ks: seq<Kind>, name: string, declared: bool): (r: Result<Kind>)
    ensures r.Success? ==> Label(copy, r.value, declared) == Some(name) && r.value in ks
    ensures r.Failure? <==> forall k :: k in ks ==> Label(copy, k, declared) != Some(name)
    ensures r.Failure? ==> r.error == TypeError(name)
  {
    var i := FirstIndex(copy, ks, name, declared);
    if i < |ks| then Success(ks[i]) else Failure(TypeError(name))
  }

  /** `StorageProfile.get_subclass`, as written: the first class of the
      walk whose `NAME`, declared or inherited, is `name`. */
  function GetSubclass(copy: Copy, name: string): Result<Kind> {
    FirstNamed(copy, Walk(copy, Storage), name, false)
  }

  /** `get_subclass` never returns the root class, and the class it
      returns carries the name asked for. */
  lemma GetSubclassFound(copy: Copy, name: string)
    ensures GetSubclass(copy, name).Success? ==>
              GetSubclass(copy, name).value != Storage && NameOf(copy, GetSubclass(copy, name).value) == Some(name)
    ensures GetSubclass(copy, name).Failure? ==> GetSubclass(copy, name).error == TypeError(name)
  {
    WalkBelow(copy, Storage);
  }

  /** The profile class a name is meant to select: the class that declares
      that `NAME` itself, the root included, so that pyrsnap's 'default'
      selects the root snapshot profile rather than `CyclicProfile`, which
      only inherits the name. */
  function Resolve(copy: Copy, name: string): Result<Kind> {
    FirstNamed(copy, Walk(copy, Storage) + [Storage], name, true)
  }

  /** Appending a class that does not declare `name` to a list on which the
      two labels agree changes nothing. */
  lemma FirstNamedAgree(copy: Copy, ws: seq<Kind>, extra: Kind, name: string)
    requires forall k :: k in ws ==> (OwnName(copy, k) == Some(name) <==> NameOf(copy, k) == Some(name))
    requires OwnName(copy, extra) != Some(name)
    ensures FirstNamed(copy, ws + [extra], name, true) == FirstNamed(copy, ws, name, false)
  {
    FirstIndexAgree(copy, ws, extra, name);
    var i := FirstIndex(copy, ws, name, false);
    if i < |ws| {
      assert (ws + [extra])[i] == ws[i];
    }
  }

  /** The position behind `FirstNamedAgree`: the first match is the same,
      and a miss runs past the appended class too. */
  lemma {:induction false} FirstIndexAgree(copy: Copy, ws: seq<Kind>, extra: Kind, name: string)
    requires forall k :: k in ws ==> (OwnName(copy, k) == Some(name) <==> NameOf(copy, k) == Some(name))
    requires OwnName(copy, extra) != Some(name)
    ensures var i := FirstIndex(copy, ws, name, false);
            FirstIndex(copy, ws + [extra], name, true) == if i < |ws| then i else |ws| + 1
  {
    if |ws| == 0 {
      assert ws + [extra] == [extra];
    } else {
      assert (ws + [extra])[0] == ws[0];
      assert (ws + [extra])[1..] == ws[1..] + [extra];
      FirstIndexAgree(copy, ws[1..], extra, name);
    }
  }

  /** The intended lookup agrees with the code's on every name except
      pyrsnap's 'default'. */
  lemma ResolveAgrees(copy: Copy, name: string)
    requires copy == PyRsnap ==> name != "default"
    ensures Resolve(copy, name) == GetSubclass(copy, name)
  {
    FirstNamedAgree(copy, Walk(copy, Storage), Storage, name);
  }

  // ---------------------------------------------------------------------
  // Profiles

  /** A profile bound to a storage root: a timestamped snapshot profile,
      or a cyclic profile holding its slot sequence, split into the
      current slot and the slots still to be produced. */
  datatype Profile =
    | Timestamped(basedir: string)
    | Cyclic(basedir: string, current: string, later: seq<string>)

  /** The slot names a cyclic profile generates at `now`. */
  function SlotIds(copy: Copy, k: Kind, now: DateTime): Result<seq<string>>
    requires ValidDateTime(now)
  {
    match k
    case Subdaily => Success(SubdailyIds(now, DEFAULT_INTERVAL))
    case Hourly => Success(SubdailyIds(now, HOURLY_INTERVAL))
    case Monthly => Success(MonthlyIds(now))
    case Weekly => Success(WeeklyIds(now))
    case Weekday => Success(WeekdayIds(now))
    case Monthday => if copy == Rsnap then MonthdayBackIds(now) else MonthdayForwardIds(now)
    case _ => Failure(StopIteration)
  }

  predicate IsCyclic(k: Kind) {
    k in {Subdaily, Hourly, Monthly, Weekly, Weekday, Monthday, CyclicBase}
  }

  /** The profile constructor, `profile_cls(basedir=storage)`: a cyclic
      profile draws its current slot from its generator (StopIteration
      when the generator is empty, as for `CyclicProfile` itself; the
      generator's own error otherwise); a snapshot profile keeps only its
      directory. A class without a `NAME` has no directory. */
  function Instantiate(copy: Copy, k: Kind, root: string, now: DateTime): (r: Result<Profile>)
    requires ValidDateTime(now)
    ensures r.Success? && IsCyclic(k) ==> r.value.Cyclic?
    ensures r.Success? ==> NameOf(copy, k).Some? && r.value.basedir == Join(root, NameOf(copy, k).value)
  {
    if IsCyclic(k) then
      var ids :- SlotIds(copy, k, now);
      if |ids| == 0 then Failure(StopIteration)
      else if NameOf(copy, k).None? then Failure(AttributeError)
      else Success(Cyclic(Join(root, NameOf(copy, k).value), ids[0], ids[1..]))
    else if NameOf(copy, k).None? then Failure(AttributeError)
    else Success(Timestamped(Join(root, NameOf(copy, k).value)))
  }

  /** A usable slot name: a non-empty single path component. */
  predicate SlotName(s: string) {
    |s| > 0 && NoSlash(s)
  }

  /** Every slot of a cyclic profile is a single path component. */
  predicate WellFormed(p: Profile) {
    p.Cyclic? ==> SlotName(p.current) && forall x :: x in p.later ==> SlotName(x)
  }

  lemma DigitsName(s: string)
    requires |s| > 0 && AllDigits(s)
    ensures SlotName(s)
  {
  }

  /** Every slot name a generator yields is a single non-empty path
      component: digits, and the dots of `HH.MM.SS`. */
  lemma SlotIdsNames(copy: Copy, k: Kind, now: DateTime)
    requires ValidDateTime(now)
    ensures SlotIds(copy, k, now).Success? ==>
              forall i :: 0 <= i < |SlotIds(copy, k, now).value| ==> SlotName(SlotIds(copy, k, now).value[i])
  {
    var r := SlotIds(copy, k, now);
    if r.Success? {
      var ids := r.value;
      forall i | 0 <= i < |ids| ensures SlotName(ids[i]) {
        match k
        case Subdaily =>
          HmsChars(SubdailySecond(now, DEFAULT_INTERVAL, i));
        case Hourly =>
          HmsChars(SubdailySecond(now, HOURLY_INTERVAL, i));
        case Monthly =>
          DigitsName(ids[i]);
        case Weekly =>
          DigitsName(ids[i]);
        case Weekday =>
          DigitsName(ids[i]);
        case Monthday =>
          DigitsName(ids[i]);
      }
    }
  }

  /** Every profile the constructor builds is well formed. */
  lemma InstantiateWellFormed(copy: Copy, k: Kind, root: string, now: DateTime)
    requires ValidDateTime(now)
    ensures Instantiate(copy, k, root, now).Success? ==> WellFormed(Instantiate(copy, k, root, now).value)
  {
    SlotIdsNames(copy, k, now);
    var r := Instantiate(copy, k, root, now);
    if r.Success? && IsCyclic(k) {
      var ids := SlotIds(copy, k, now).value;
      assert r.value.current == ids[0] && r.value.later == ids[1..];
      forall x | x in r.value.later ensures SlotName(x) {
        var j :| 0 <= j < |ids[1..]| && ids[1..][j] == x;
        assert x == ids[j + 1];
      }
    }
  }

  /** Constructing a profile by name as the code does. */
  function OpenAsWritten(copy: Copy, name: string, root: string, now: DateTime): Result<Profile>
    requires ValidDateTime(now)
  {
    var k :- GetSubclass(copy, name);
    Instantiate(copy, k, root, now)
  }

  /** Constructing a profile by name with the intended registry. */
  function Open(copy: Copy, name: string, root: string, now: DateTime): Result<Profile>
    requires ValidDateTime(now)
  {
    var k :- Resolve(copy, name);
    Instantiate(copy, k, root, now)
  }

  /** Only the root class declares the name 'default'. */
  lemma NotDefault(copy: Copy, k: Kind)
    requires k != Storage
    ensures OwnName(copy, k) != Some("default")
    ensures k != CyclicBase ==> NameOf(copy, k) != Some("default")
  {
    var n := OwnName(copy, k);
    if n.Some? {
      assert n.value[0] != "default"[0];
    }
  }

  /** pyrsnap's 'default': the code's lookup finds `CyclicProfile`, which
      only inherits that name; the intended lookup finds the root profile,
      which declares it. */
  lemma DefaultLookup()
    ensures GetSubclass(PyRsnap, "default") == Success(CyclicBase)
    ensures Resolve(PyRsnap, "default") == Success(Storage)
  {
    var w := Walk(PyRsnap, Storage);
    PyRsnapRegistry();
    WalkBelow(PyRsnap, Storage);
    assert CyclicBase in w && Label(PyRsnap, CyclicBase, false) == Some("default");
    var r := GetSubclass(PyRsnap, "default");
    if r.value != CyclicBase {
      NotDefault(PyRsnap, r.value);
    }
    assert Storage in w + [Storage] && Label(PyRsnap, Storage, true) == Some("default");
    var q := Resolve(PyRsnap, "default");
    if q.value != Storage {
      NotDefault(PyRsnap, q.value);
    }
  }

  /** As written, the default snapshot profile of pyrsnap can never be
      opened: 'default' finds `CyclicProfile`, whose construction raises
      StopIteration. The intended lookup opens the snapshot profile. */
  lemma DefaultProfile(root: string, now: DateTime)
    requires ValidDateTime(now)
    ensures OpenAsWritten(PyRsnap, "default", root, now) == Failure(StopIteration)
    ensures Open(PyRsnap, "default", root, now) == Success(Timestamped(Join(root, "default")))
  {
    DefaultLookup();
  }

  /** Everywhere else the two lookups agree. */
  lemma LookupsAgree()
    ensures forall name :: name != "default" ==> Resolve(PyRsnap, name) == GetSubclass(PyRsnap, name)
    ensures forall name :: Resolve(Rsnap, name) == GetSubclass(Rsnap, name)
  {
    forall name | name != "default"
      ensures Resolve(PyRsnap, name) == GetSubclass(PyRsnap, name)
    {
      ResolveAgrees(PyRsnap, name);
    }
    forall name
      ensures Resolve(Rsnap, name) == GetSubclass(Rsnap, name)
    {
      ResolveAgrees(Rsnap, name);
    }
  }

  // ---------------------------------------------------------------------
  // The two queries

  /** What the profiles see of the disk: the paths that exist, the files
      that can be opened for reading, and the listing of each directory
      that can be listed. */
  datatype FileSystem = FileSystem(present: set<string>, readable: set<string>, listing: map<string, seq<string>>)

  /** `get_current_storage`: a cyclic profile's current slot, or a fresh
      timestamp-named directory (`stamp` stands for the formatted clock). */
  function CurrentStorage(p: Profile, stamp: string): (r: string)
    ensures p.Timestamped? ==> r == Join(p.basedir, stamp)
    ensures p.Cyclic? && NoSlash(p.current) && |p.current| > 0 ==> r == Join(p.basedir, p.current)
  {
    if p.Cyclic? then
      if NoSlash(p.current) && |p.current| > 0 then
        RealpathOfSlot(p.basedir, p.current, false);
        Realpath(Join(p.basedir, p.current))
      else Realpath(Join(p.basedir, p.current))
    else Join(p.basedir, stamp)
  }

  /** The scan of `CyclicProfile.get_previous_storage` over the slots
      after the current one. */
  function Scan(basedir: string, current: string, later: seq<string>, present: set<string>): Option<string> {
    if |later| == 0 then None
    else if later[0] == current then None
    else if Join(basedir, later[0]) in present then Some(Realpath(Join(basedir, later[0])))
    else Scan(basedir, current, later[1..], present)
  }

  /** Slot `i` of the scan is a link base: it exists, and no slot before
      it (nor itself) repeats the current one or exists. */
  predicate FirstExisting(basedir: string, current: string, later: seq<string>, present: set<string>, i: int) {
    && 0 <= i < |later|
    && later[i] != current
    && Join(basedir, later[i]) in present
    && forall j :: 0 <= j < i ==> later[j] != current && Join(basedir, later[j]) !in present
  }

  /** The previous slot is the first later slot that exists, found before
      the sequence comes back to the current slot; None when there is no
      such slot. */
  lemma {:induction false} ScanSpec(basedir: string, current: string, later: seq<string>, present: set<string>)
    ensures var r := Scan(basedir, current, later, present);
            && (r.Some? ==> exists i :: FirstExisting(basedir, current, later, present, i)
                                        && r.value == Realpath(Join(basedir, later[i])))
            && (r.None? ==> forall i :: !FirstExisting(basedir, current, later, present, i))
  {
    if |later| > 0 && later[0] != current && Join(basedir, later[0]) !in present {
      var rest := later[1..];
      ScanSpec(basedir, current, rest, present);
      var r := Scan(basedir, current, later, present);
      if r.Some? {
        var i :| FirstExisting(basedir, current, rest, present, i) && r.value == Realpath(Join(basedir, rest[i]));
        assert FirstExisting(basedir, current, later, present, i + 1);
      } else {
        forall i | 0 <= i < |later| ensures !FirstExisting(basedir, current, later, present, i) {
          if i > 0 && FirstExisting(basedir, current, later, present, i) {
            assert FirstExisting(basedir, current, rest, present, i - 1);
          }
        }
      }
    } else if |later| > 0 && later[0] != current {
      assert FirstExisting(basedir, current, later, present, 0);
    }
  }

  /** `sorted(names)[-1]`: the greatest name in Python's string order. */
  function Greatest(names: seq<string>): (g: string)
    requires |names| > 0
    ensures g in names
    ensures forall n :: n in names ==> LexLe(n, g)
  {
    if |names| == 1 then
      LexLeRefl(names[0]);
      names[0]
    else
      var g := Greatest(names[1..]);
      assert forall n :: n in names ==> n == names[0] || n in names[1..];
      if LexLe(names[0], g) then g
      else
        LexLeTotal(names[0], g);
        forall n | n in names[1..] ensures LexLe(n, names[0]) {
          LexLeTrans(n, g, names[0]);
        }
        LexLeRefl(names[0]);
        names[0]
  }

  /** Python's `<=` on strings: lexicographic by character, a prefix
      before any longer string. */
  predicate LexLe(a: string, b: string) {
    |a| == 0 || (|b| > 0 && (a[0] < b[0] || (a[0] == b[0] && LexLe(a[1..], b[1..]))))
  }

  lemma {:induction false} LexLeRefl(a: string)
    ensures LexLe(a, a)
  {
    if |a| > 0 { LexLeRefl(a[1..]); }
  }

  lemma {:induction false} LexLeTotal(a: string, b: string)
    ensures LexLe(a, b) || LexLe(b, a)
  {
    if |a| > 0 && |b| > 0 && a[0] == b[0] { LexLeTotal(a[1..], b[1..]); }
  }

  lemma {:induction false} LexLeTrans(a: string, b: string, c: string)
    requires LexLe(a, b) && LexLe(b, c)
    ensures LexLe(a, c)
  {
    if |a| > 0 && |b| > 0 && |c| > 0 && a[0] == b[0] == c[0] {
      LexLeTrans(a[1..], b[1..], c[1..]);
    }
  }

  lemma {:induction false} LexLeAntisym(a: string, b: string)
    requires LexLe(a, b) && LexLe(b, a)
    ensures a == b
  {
    if |a| > 0 && |b| > 0 {
      LexLeAntisym(a[1..], b[1..]);
      assert a == [a[0]] + a[1..] && b == [b[0]] + b[1..];
    }
  }

  /** The greatest name does not depend on the order of the listing. */
  lemma GreatestOrderFree(a: seq<string>, b: seq<string>)
    requires |a| > 0 && |b| > 0 && forall x :: x in a <==> x in b
    ensures Greatest(a) == Greatest(b)
  {
    assert a[0] in b;
    var ga, gb := Greatest(a), Greatest(b);
    assert ga in b && gb in a;
    LexLeAntisym(ga, gb);
  }

  /** `get_previous_storage`. */
  function PreviousStorage(p: Profile, fs: FileSystem): (r: Option<string>)
    ensures p.Timestamped? ==>
              (r.None? <==> p.basedir !in fs.listing || |fs.listing[p.basedir]| == 0)
    ensures p.Timestamped? && r.Some? ==>
              exists n :: n in fs.listing[p.basedir] && r.value == Join(p.basedir, n)
                          && forall m :: m in fs.listing[p.basedir] ==> LexLe(m, n)
  {
    match p
    case Timestamped(basedir) =>
      if basedir in fs.listing && |fs.listing[basedir]| > 0
      then Some(Join(basedir, Greatest(fs.listing[basedir])))
      else None
    case Cyclic(basedir, current, later) => Scan(basedir, current, later, fs.present)
  }

  /** A cyclic profile never links against its own current slot. */
  lemma PreviousNotCurrent(p: Profile, fs: FileSystem, stamp: string)
    requires p.Cyclic? && WellFormed(p)
    ensures PreviousStorage(p, fs) != Some(CurrentStorage(p, stamp))
  {
    ScanSpec(p.basedir, p.current, p.later, fs.present);
    var r := PreviousStorage(p, fs);
    if r.Some? {
      var i :| FirstExisting(p.basedir, p.current, p.later, fs.present, i)
               && r.value == Realpath(Join(p.basedir, p.later[i]));
      assert p.later[i] in p.later;
      RealpathOfSlot(p.basedir, p.later[i], false);
      JoinInjective(p.basedir, p.later[i], p.current);
    }
  }
}

=== FILE: slots.dfy ===
/** Slot identifier sequences: the `backcounter` generators of the cyclic
    profiles. Every sequence is most-recent-first (pyrsnap's monthday
    sequence excepted, see `MonthdayForwardIds`); its first element names
    the current slot and the rest are the candidates for the link base. */
module Slots {
  import opened Wrappers
  import opened DivMod
  import opened Calendar
  import opened IsoWeeks
  import opened Digits

  const SECONDS_PER_DAY := 86400
  /** `date(1970, 1, 1).toordinal()`: day zero of the Unix clock. */
  const EPOCH_ORDINAL := 719163
  /** Subdaily profile's default interval: five minutes. */
  const DEFAULT_INTERVAL := 300
  /** Hourly profile's interval. */
  const HOURLY_INTERVAL := 3600
  /** Span in days the weekly generator covers before stopping. */
  const WEEKLY_SPAN := 367
  const DAYS_PER_WEEK := 7

  /** Python's `datetime` to the second: a civil date and a second of that day. */
  datatype DateTime = DateTime(date: Date, second: int)

  predicate ValidDateTime(t: DateTime) {
    ValidDate(t.date) && 0 <= t.second < SECONDS_PER_DAY
  }

  // ---------------------------------------------------------------------
  // The "yield, add a step, stop once the span is reached" loop

  /** How many values the loop `yield at diff; diff += step; break if
      diff >= span` produces when started at `diff`. The subdaily loop
      steps by the interval over one day; the weekly loop steps by seven
      days over 367 days. */
  function LoopYields(step: int, span: int, diff: int): (n: int)
    requires step > 0 && 0 <= diff < span
    ensures n >= 1
    ensures diff + (n - 1) * step < span <= diff + n * step
    decreases span - diff
  {
    if diff + step >= span then 1
    else
      var n' := LoopYields(step, span, diff + step);
      assert diff + step + (n' - 1) * step == diff + n' * step;
      assert diff + step + n' * step == diff + (n' + 1) * step;
      1 + n'
  }

  /** A loop started at zero yields ceil(span / step) values. */
  lemma LoopYieldsCeil(step: int, span: int)
    requires step > 0 && span > 0
    ensures LoopYields(step, span, 0) == (span + step - 1) / step
  {
    var n := LoopYields(step, span, 0);
    assert span + step - 1 == step * n + (span - 1 - (n - 1) * step);
    DivModUnique(span + step - 1, step, n, span - 1 - (n - 1) * step);
  }

  // ---------------------------------------------------------------------
  // Subdaily and Hourly: `HH.MM.SS` labels stepping back by the interval

  /** Seconds since the epoch of a local time (`time.mktime`), with the
      local zone taken as UTC and no daylight saving. */
  function Timestamp(now: DateTime): int
    requires 1 <= now.date.month <= 12
  {
    (ToOrdinal(now.date) - EPOCH_ORDINAL) * SECONDS_PER_DAY + now.second
  }

  /** `interval * (ts // interval)`: the timestamp floored to a multiple of
      the interval. */
  function Floored(now: DateTime, interval: int): int
    requires 1 <= now.date.month <= 12 && interval > 0
  {
    interval * (Timestamp(now) / interval)
  }

  /** The clock reading (second of the day) of `f - k * interval`, as
      `datetime.fromtimestamp` shows it. */
  function ClockBack(f: int, interval: int, k: int): (t: int)
    ensures 0 <= t < SECONDS_PER_DAY
  {
    (f - k * interval) % SECONDS_PER_DAY
  }

  /** Second of the day named by the `k`-th subdaily slot. */
  function SubdailySecond(now: DateTime, interval: int, k: int): (t: int)
    requires 1 <= now.date.month <= 12 && interval > 0
    ensures 0 <= t < SECONDS_PER_DAY
  {
    ClockBack(Floored(now, interval), interval, k)
  }

  function SubdailyLabel(now: DateTime, interval: int, k: int): string
    requires 1 <= now.date.month <= 12 && interval > 0
  {
    Hms(SubdailySecond(now, interval, k))
  }

  function SubdailyCount(interval: int): int
    requires interval > 0
  {
    LoopYields(interval, SECONDS_PER_DAY, 0)
  }

  /** `SubdailyProfile.backcounter` (and `HourlyProfile`'s, with 3600). */
  function SubdailyIds(now: DateTime, interval: int): seq<string>
    requires 1 <= now.date.month <= 12 && interval > 0
  {
    seq(SubdailyCount(interval), k => SubdailyLabel(now, interval, k))
  }

  /** The subdaily sequence has ceil(86400 / interval) labels: 288 for the
      default five minutes and 24 for the hourly profile. */
  lemma SubdailyLength(now: DateTime, interval: int)
    requires ValidDateTime(now) && interval > 0
    ensures |SubdailyIds(now, interval)| == (SECONDS_PER_DAY + interval - 1) / interval
    ensures interval == DEFAULT_INTERVAL ==> |SubdailyIds(now, interval)| == 288
    ensures interval == HOURLY_INTERVAL ==> |SubdailyIds(now, interval)| == 24
  {
    LoopYieldsCeil(interval, SECONDS_PER_DAY);
  }

  /** When the interval divides a day, flooring a timestamp to the
      interval floors its time of day the same way. */
  lemma FloorInDay(days: int, s: int, interval: int, c: int)
    requires interval > 0 && interval * c == SECONDS_PER_DAY && 0 <= s < SECONDS_PER_DAY
    ensures (interval * ((days * SECONDS_PER_DAY + s) / interval)) % SECONDS_PER_DAY == interval * (s / interval)
  {
    var q, r := s / interval, s % interval;
    var t := days * SECONDS_PER_DAY + s;
    MulRotate(days, interval, c);
    assert days * SECONDS_PER_DAY == interval * (days * c);
    assert t == interval * (days * c + q) + r;
    DivModUnique(t, interval, days * c + q, r);
    assert interval * (days * c + q) == SECONDS_PER_DAY * days + interval * q;
    if q > 0 {
      MulAtLeast(interval, q);
    }
    DivModUnique(interval * (days * c + q), SECONDS_PER_DAY, days, interval * q);
  }

  /** When the interval divides a day, the first label is the time of day
      floored to a multiple of the interval, so every run within one
      interval addresses the same slot. */
  lemma SubdailyFirst(now: DateTime, interval: int)
    requires ValidDateTime(now) && interval > 0 && SECONDS_PER_DAY % interval == 0
    ensures SubdailySecond(now, interval, 0) == interval * (now.second / interval)
    ensures SubdailyIds(now, interval)[0] == Hms(interval * (now.second / interval))
  {
    var c := SECONDS_PER_DAY / interval;
    assert SECONDS_PER_DAY == interval * c;
    FloorInDay(ToOrdinal(now.date) - EPOCH_ORDINAL, now.second, interval, c);
  }

  /** Each clock reading is the previous one minus the interval, modulo a day. */
  lemma ClockStep(f: int, interval: int, k: int)
    ensures ClockBack(f, interval, k + 1) == (ClockBack(f, interval, k) - interval) % SECONDS_PER_DAY
  {
    var a := f - k * interval;
    assert f - (k + 1) * interval == a - interval;
    assert a == SECONDS_PER_DAY * (a / SECONDS_PER_DAY) + a % SECONDS_PER_DAY;
    ModShift(a % SECONDS_PER_DAY - interval, SECONDS_PER_DAY, a / SECONDS_PER_DAY);
  }

  lemma SubdailyStep(now: DateTime, interval: int, k: int)
    requires ValidDateTime(now) && interval > 0
    ensures SubdailySecond(now, interval, k + 1)
            == (SubdailySecond(now, interval, k) - interval) % SECONDS_PER_DAY
  {
    ClockStep(Floored(now, interval), interval, k);
  }

  /** Going `n` intervals back, with `n * interval` one day, is back at the
      same clock reading. */
  lemma ClockWrap(f: int, interval: int, n: int)
    requires n * interval == SECONDS_PER_DAY
    ensures (ClockBack(f, interval, n - 1) - interval) % SECONDS_PER_DAY == ClockBack(f, interval, 0)
  {
    ClockStep(f, interval, n - 1);
    assert f - n * interval == f + SECONDS_PER_DAY * -1;
    ModShift(f, SECONDS_PER_DAY, -1);
  }

  /** When the interval divides a day, stepping back once more from the
      last label returns to the first: the sequence is one full turn of the
      clock. */
  lemma SubdailyWrap(now: DateTime, interval: int)
    requires ValidDateTime(now) && interval > 0 && SECONDS_PER_DAY % interval == 0
    ensures var n := SubdailyCount(interval);
            (SubdailySecond(now, interval, n - 1) - interval) % SECONDS_PER_DAY == SubdailySecond(now, interval, 0)
  {
    var n := SubdailyCount(interval);
    var c := SECONDS_PER_DAY / interval;
    assert SECONDS_PER_DAY == interval * c + 0;
    LoopYieldsCeil(interval, SECONDS_PER_DAY);
    DivModUnique(SECONDS_PER_DAY + interval - 1, interval, c, interval - 1);
    assert n == c;
    ClockWrap(Floored(now, interval), interval, n);
  }

  lemma MulMonotone(a: int, b: int, c: int)
    requires 0 <= a <= b && c >= 0
    ensures a * c <= b * c
  {
    assert b * c - a * c == (b - a) * c;
  }

  /** Clock readings fewer than a day's worth of intervals apart differ. */
  lemma ClockDistinct(f: int, interval: int, i: int, j: int, n: int)
    requires interval > 0 && 0 <= i < j < n && (n - 1) * interval < SECONDS_PER_DAY
    ensures ClockBack(f, interval, i) != ClockBack(f, interval, j)
  {
    MulMonotone(j - i, n - 1, interval);
    MulMonotone(1, j - i, interval);
    assert (f - i * interval) - (f - j * interval) == (j - i) * interval;
    ModDistinct(f - i * interval, f - j * interval, SECONDS_PER_DAY);
  }

  /** The subdaily labels are pairwise distinct: the sequence stops before
      it would come back to a time of day already named. */
  lemma SubdailyDistinct(now: DateTime, interval: int, i: int, j: int)
    requires ValidDateTime(now) && interval > 0
    requires 0 <= i < j < |SubdailyIds(now, interval)|
    ensures SubdailyIds(now, interval)[i] != SubdailyIds(now, interval)[j]
  {
    var n := SubdailyCount(interval);
    ClockDistinct(Floored(now, interval), interval, i, j, n);
    HmsInjective(SubdailySecond(now, interval, i), SubdailySecond(now, interval, j));
  }

  // ---------------------------------------------------------------------
  // Monthly and Weekday: a cycle of n values counting down from a start

  /** `m % n or n` for `m` running from `start + n` down: the value `k`
      steps back from `start` on a dial numbered 1..n. */
  function CycleAt(start: int, n: int, k: int): (v: int)
    requires n > 0
    ensures 1 <= v <= n
  {
    var x := (start + n - k) % n;
    if x == 0 then n else x
  }

  lemma CycleFirst(start: int, n: int)
    requires 1 <= start <= n
    ensures CycleAt(start, n, 0) == start
  {
    if start == n {
      DivModUnique(start + n, n, 2, 0);
    } else {
      DivModUnique(start + n, n, 1, start);
    }
  }

  lemma CycleStep(start: int, n: int, k: int)
    requires n > 0
    ensures CycleAt(start, n, k + 1) == if CycleAt(start, n, k) == 1 then n else CycleAt(start, n, k) - 1
  {
    ModPred(start + n - k, n);
  }

  lemma CycleDistinct(start: int, n: int, i: int, j: int)
    requires n > 0 && 0 <= i < j < n
    ensures CycleAt(start, n, i) != CycleAt(start, n, j)
  {
    ModDistinct(start + n - i, start + n - j, n);
  }

  lemma CycleCovers(start: int, n: int, v: int)
    requires n > 0 && 1 <= v <= n
    ensures exists k :: 0 <= k < n && CycleAt(start, n, k) == v
  {
    var k := (start - v) % n;
    var q := (start - v) / n;
    assert start - v == n * q + k;
    assert start + n - k == v + n * (q + 1);
    ModShift(v, n, q + 1);
    if v == n {
      DivModUnique(v, n, 1, 0);
    } else {
      DivModUnique(v, n, 0, v);
    }
    assert CycleAt(start, n, k) == v;
  }

  /** Zero-padded labels of a dial numbered 1..n read backwards from
      `start`: `n` labels, label `k` the value `k` steps back. */
  function Dial(start: int, n: int): (ids: seq<string>)
    requires 0 < n < 100
    ensures |ids| == n
  {
    seq(n, k => Pad2(CycleAt(start, n, k)))
  }

  /** A dial read backwards starts at `start`, steps down by one wrapping
      from 1 to `n`, and names every value 1..n exactly once. */
  lemma DialShape(start: int, n: int)
    requires 1 <= start <= n < 100
    ensures var ids := Dial(start, n);
            && ids[0] == Pad2(start)
            && (forall k :: 0 <= k < n - 1 ==>
                  ParsePad2(ids[k + 1]) == if ParsePad2(ids[k]) == 1 then n else ParsePad2(ids[k]) - 1)
            && (forall i, j :: 0 <= i < j < n ==> ids[i] != ids[j])
            && (forall v :: 1 <= v <= n ==> Pad2(v) in ids)
  {
    var ids := Dial(start, n);
    CycleFirst(start, n);
    forall k | 0 <= k < n - 1
      ensures ParsePad2(ids[k + 1]) == if ParsePad2(ids[k]) == 1 then n else ParsePad2(ids[k]) - 1
    {
      CycleStep(start, n, k);
      Pad2RoundTrip(CycleAt(start, n, k));
      Pad2RoundTrip(CycleAt(start, n, k + 1));
    }
    forall i, j | 0 <= i < j < n
      ensures ids[i] != ids[j]
    {
      CycleDistinct(start, n, i, j);
      Pad2Injective(CycleAt(start, n, i), CycleAt(start, n, j));
    }
    forall v | 1 <= v <= n
      ensures Pad2(v) in ids
    {
      CycleCovers(start, n, v);
      var k :| 0 <= k < n && CycleAt(start, n, k) == v;
      assert ids[k] == Pad2(v);
    }
  }

  /** `MonthlyProfile.backcounter`: `range(month + 12, month, -1)`, each
      value taken `% 12 or 12` and zero-padded. */
  function MonthlyIds(now: DateTime): seq<string> {
    Dial(now.date.month, 12)
  }

  /** The month `k` months before (year, month). */
  function MonthsBack(year: int, month: int, k: nat): (p: (int, int))
    requires 1 <= month <= 12
    ensures 1 <= p.1 <= 12
  {
    if k == 0 then (year, month) else
      var (y, m) := MonthsBack(year, month, k - 1);
      PrevMonth(y, m)
  }

  lemma {:induction false} MonthsBackIsCycle(year: int, month: int, k: nat)
    requires 1 <= month <= 12
    ensures MonthsBack(year, month, k).1 == CycleAt(month, 12, k)
  {
    if k == 0 {
      CycleFirst(month, 12);
    } else {
      MonthsBackIsCycle(year, month, k - 1);
      CycleStep(month, 12, k - 1);
    }
  }

  /** Monthly labels: twelve, starting at the current month, each the
      month before the previous one (January wrapping to December), every
      month exactly once, and label `k` names the month `k` months ago. */
  lemma MonthlyCycle(now: DateTime)
    requires ValidDateTime(now)
    ensures var ids := MonthlyIds(now);
            && |ids| == 12
            && ids[0] == Pad2(now.date.month)
            && (forall k :: 0 <= k < 11 ==>
                  ParsePad2(ids[k + 1]) == if ParsePad2(ids[k]) == 1 then 12 else ParsePad2(ids[k]) - 1)
            && (forall i, j :: 0 <= i < j < 12 ==> ids[i] != ids[j])
            && (forall m :: 1 <= m <= 12 ==> Pad2(m) in ids)
            && (forall k: nat :: k < 12 ==> ids[k] == Pad2(MonthsBack(now.date.year, now.date.month, k).1))
  {
    DialShape(now.date.month, 12);
    forall k: nat | k < 12
      ensures MonthlyIds(now)[k] == Pad2(MonthsBack(now.date.year, now.date.month, k).1)
    {
      MonthsBackIsCycle(now.date.year, now.date.month, k);
    }
  }

  /** Day `n` minus `k` days (`- timedelta(days=k)`). */
  function DaysAgo(n: int, k: int): int {
    n - k
  }

  /** `WeekdayProfile.backcounter`: `range(isoweekday + 7, isoweekday, -1)`,
      each value taken `% 7 or 7`, one digit. */
  function WeekdayIds(now: DateTime): seq<string>
    requires 1 <= now.date.month <= 12
  {
    var wd := IsoWeekday(ToOrdinal(now.date));
    seq(7, k => Show1(CycleAt(wd, 7, k)))
  }

  /** Counting the weekday dial back `k` steps gives the weekday `k` days ago. */
  lemma {:induction false} WeekdayCycleIsCalendar(n: int, k: nat)
    ensures CycleAt(IsoWeekday(n), 7, k) == IsoWeekday(DaysAgo(n, k))
  {
    if k == 0 {
      CycleFirst(IsoWeekday(n), 7);
    } else {
      WeekdayCycleIsCalendar(n, k - 1);
      CycleStep(IsoWeekday(n), 7, k - 1);
      var m := DaysAgo(n, k - 1);
      IsoWeekdayBack(m);
      assert DaysAgo(n, k) == m - 1;
    }
  }

  /** Weekday labels: seven, starting at today's ISO weekday, label `k` the
      weekday of `k` days ago, each the weekday before the previous one
      (Monday wrapping to Sunday), every weekday exactly once. */
  lemma WeekdayCycle(now: DateTime)
    requires ValidDateTime(now)
    ensures var ids := WeekdayIds(now);
            var n := ToOrdinal(now.date);
            && |ids| == 7
            && ids[0] == Show1(IsoWeekday(n))
            && (forall k: nat :: k < 7 ==> ids[k] == Show1(IsoWeekday(DaysAgo(n, k))))
            && (forall k :: 0 <= k < 6 ==>
                  DigitValue(ids[k + 1][0]) == if DigitValue(ids[k][0]) == 1 then 7 else DigitValue(ids[k][0]) - 1)
            && (forall i, j :: 0 <= i < j < 7 ==> ids[i] != ids[j])
            && (forall d :: 1 <= d <= 7 ==> Show1(d) in ids)
  {
    var ids := WeekdayIds(now);
    var n := ToOrdinal(now.date);
    var s := IsoWeekday(n);
    CycleFirst(s, 7);
    forall k: nat | k < 7
      ensures ids[k] == Show1(IsoWeekday(DaysAgo(n, k)))
    {
      WeekdayCycleIsCalendar(n, k);
    }
    forall k | 0 <= k < 6
      ensures DigitValue(ids[k + 1][0]) == if DigitValue(ids[k][0]) == 1 then 7 else DigitValue(ids[k][0]) - 1
    {
      CycleStep(s, 7, k);
    }
    forall i, j | 0 <= i < j < 7
      ensures ids[i] != ids[j]
    {
      CycleDistinct(s, 7, i, j);
      Show1Injective(CycleAt(s, 7, i), CycleAt(s, 7, j));
    }
    forall d | 1 <= d <= 7
      ensures Show1(d) in ids
    {
      CycleCovers(s, 7, d);
      var k :| 0 <= k < 7 && CycleAt(s, 7, k) == d;
      assert ids[k] == Show1(d);
    }
  }

  // ---------------------------------------------------------------------
  // Weekly: ISO week numbers stepping back one week at a time

  /** The ISO 8601 week number of day `n` (`isocalendar()[1]`). */
  function IsoWeek(n: int): (w: int)
    ensures 1 <= w <= 53
  {
    IsoCalendarMeaning(n);
    IsoCalendar(n).week
  }

  /** Day `n` minus `k` weeks. */
  function WeeksAgo(n: int, k: int): int {
    n - DAYS_PER_WEEK * k
  }

  function WeekLabel(n: int): string {
    Pad2(IsoWeek(n))
  }

  function WeeklyCount(): int {
    LoopYields(DAYS_PER_WEEK, WEEKLY_SPAN, 0)
  }

  /** `WeeklyProfile.backcounter`: the zero-padded ISO week number of now,
      now minus one week, ... while fewer than 367 days have been stepped. */
  function WeeklyIds(now: DateTime): seq<string>
    requires 1 <= now.date.month <= 12
  {
    var n := ToOrdinal(now.date);
    seq(WeeklyCount(), k => WeekLabel(WeeksAgo(n, k)))
  }

  lemma WeeksAgoStep(n: int, k: int)
    ensures WeeksAgo(n, k + 1) == WeekEarlier(WeeksAgo(n, k))
  {
  }

  /** One more week back is the ISO week before. */
  lemma WeeklyStep(n: int, k: int)
    ensures IsoWeek(WeeksAgo(n, k + 1)) == if IsoWeek(WeeksAgo(n, k)) == 1
                                          then WeeksInIsoYear(IsoYearBefore(IsoCalendar(WeeksAgo(n, k)).year))
                                          else IsoWeek(WeeksAgo(n, k)) - 1
  {
    WeeksAgoStep(n, k);
    IsoWeekBack(WeeksAgo(n, k));
  }

  /** Weekly labels: always 53 (steps 0..52, as 7 * 52 < 367 <= 7 * 53),
      label `k` is the ISO week of now minus `k` weeks, and each label is
      the week before the previous one, week 1 wrapping to the last week
      (52 or 53) of the previous ISO year. */
  lemma WeeklyShape(now: DateTime)
    requires ValidDateTime(now)
    ensures var ids := WeeklyIds(now);
            var n := ToOrdinal(now.date);
            && |ids| == 53
            && (forall k :: 0 <= k < 53 ==> ids[k] == Pad2(IsoWeek(WeeksAgo(n, k))))
            && (forall k :: 0 <= k < 52 ==>
                  ParsePad2(ids[k + 1]) == if IsoWeek(WeeksAgo(n, k)) == 1
                                           then WeeksInIsoYear(IsoYearBefore(IsoCalendar(WeeksAgo(n, k)).year))
                                           else IsoWeek(WeeksAgo(n, k)) - 1)
  {
    LoopYieldsCeil(DAYS_PER_WEEK, WEEKLY_SPAN);
    var ids := WeeklyIds(now);
    var n := ToOrdinal(now.date);
    forall k | 0 <= k < 52
      ensures ParsePad2(ids[k + 1]) == if IsoWeek(WeeksAgo(n, k)) == 1
                                       then WeeksInIsoYear(IsoYearBefore(IsoCalendar(WeeksAgo(n, k)).year))
                                       else IsoWeek(WeeksAgo(n, k)) - 1
    {
      WeeklyStep(n, k);
      assert ids[k + 1] == WeekLabel(WeeksAgo(n, k + 1));
      Pad2RoundTrip(IsoWeek(WeeksAgo(n, k + 1)));
    }
  }

  // ---------------------------------------------------------------------
  // Monthday: days of the month back to the same day one month earlier

  /** The same day one calendar month earlier (`now.replace(month=month - 1)`,
      or December of the previous year in January); Python's `replace`
      raises ValueError when that day does not exist in that month. */
  function MonthAgo(d: Date): (r: Result<Date>)
    requires ValidDate(d)
    ensures r.Success? ==> ValidDate(r.value) && DateLess(r.value, d)
    ensures r.Success? ==> NextMonth(r.value.year, r.value.month) == (d.year, d.month) && r.value.day == d.day
  {
    NextOfPrevMonth(d.year, d.month);
    if d.day <= PrevMonthLength(d) then Success(PrevMonthDate(d, d.day)) else Failure(ValueError)
  }

  /** Number of days in the month before `d`'s. */
  function PrevMonthLength(d: Date): (len: int)
    requires 1 <= d.month <= 12
    ensures 28 <= len <= 31
  {
    DaysInMonth(PrevMonth(d.year, d.month).0, PrevMonth(d.year, d.month).1)
  }

  /** Day `day` of the month before `d`'s. */
  function PrevMonthDate(d: Date, day: int): Date
    requires 1 <= d.month <= 12
  {
    Date(PrevMonth(d.year, d.month).0, PrevMonth(d.year, d.month).1, day)
  }

  /** The days of the month produced by rsnap.py's loop `while counter >
      prev: yield counter.day; counter -= 1 day`: one per day after `prev`
      up to and including `counter`. */
  function CountDown(counter: Date, prev: Date): (days: seq<int>)
    requires ValidDate(counter) && ValidDate(prev)
    ensures forall i :: 0 <= i < |days| ==> 1 <= days[i] <= 31
    decreases ToOrdinal(counter) - ToOrdinal(prev)
  {
    if DateLess(prev, counter) then
      DateLessOrdinal(prev, counter);
      DayBeforeOrdinal(counter);
      [counter.day] + CountDown(DayBefore(counter), prev)
    else
      []
  }

  /** The days of the month produced by pyrsnap's loop `while now > prev:
      prev += 1 day; yield prev.day`: one per day after `prev` up to and
      including `now`. */
  function CountUp(prev: Date, now: Date): (days: seq<int>)
    requires ValidDate(prev) && ValidDate(now)
    ensures forall i :: 0 <= i < |days| ==> 1 <= days[i] <= 31
    decreases ToOrdinal(now) - ToOrdinal(prev)
  {
    if DateLess(prev, now) then
      DateLessOrdinal(prev, now);
      DayAfterOrdinal(prev);
      [DayAfter(prev).day] + CountUp(DayAfter(prev), now)
    else
      []
  }

  /** Both loops yield one day for each day after `prev` up to and
      including the later date, and nothing when `prev` is not earlier. */
  lemma {:induction false} CountDownSpan(counter: Date, prev: Date)
    requires ValidDate(counter) && ValidDate(prev)
    ensures |CountDown(counter, prev)| == if DateLess(prev, counter) then ToOrdinal(counter) - ToOrdinal(prev) else 0
    decreases ToOrdinal(counter) - ToOrdinal(prev)
  {
    DateLessOrdinal(prev, counter);
    if DateLess(prev, counter) {
      DayBeforeOrdinal(counter);
      DateLessOrdinal(prev, DayBefore(counter));
      CountDownSpan(DayBefore(counter), prev);
    }
  }

  lemma {:induction false} CountUpSpan(prev: Date, now: Date)
    requires ValidDate(prev) && ValidDate(now)
    ensures |CountUp(prev, now)| == if DateLess(prev, now) then ToOrdinal(now) - ToOrdinal(prev) else 0
    decreases ToOrdinal(now) - ToOrdinal(prev)
  {
    DateLessOrdinal(prev, now);
    if DateLess(prev, now) {
      DayAfterOrdinal(prev);
      DateLessOrdinal(DayAfter(prev), now);
      CountUpSpan(DayAfter(prev), now);
    }
  }

  /** Each day printed `'%02d'`. */
  function DayLabels(days: seq<int>): (ids: seq<string>)
    requires forall i :: 0 <= i < |days| ==> 0 <= days[i] < 100
    ensures |ids| == |days|
  {
    seq(|days|, i requires 0 <= i < |days| => Pad2(days[i]))
  }

  /** rsnap.py's `MonthdayProfile.backcounter`: from now backwards, the
      day of the month of each day strictly after one month ago. */
  function MonthdayBackIds(now: DateTime): Result<seq<string>>
    requires ValidDateTime(now)
  {
    var prev :- MonthAgo(now.date);
    Success(DayLabels(CountDown(now.date, prev)))
  }

  /** pyrsnap's `MonthdayProfile.backcounter`: from the day after one month
      ago forwards, up to and including now. */
  function MonthdayForwardIds(now: DateTime): Result<seq<string>>
    requires ValidDateTime(now)
  {
    var prev :- MonthAgo(now.date);
    Success(DayLabels(CountUp(prev, now.date)))
  }

  /** Day of the month `k` steps back from day `day`, in a month preceded
      by one of `len` days. */
  function BackDay(day: int, len: int, k: int): int {
    if k < day then day - k else day + len - k
  }

  /** Day of the month `k + 1` steps forward from day `day` of a month of
      `len` days. */
  function ForwardDay(day: int, len: int, k: int): int {
    if day + 1 + k <= len then day + 1 + k else day + 1 + k - len
  }

  /** Stepping back through consecutive months is the dial of the earlier
      month's length read backwards. */
  lemma BackDayIsCycle(day: int, len: int, k: int)
    requires 1 <= day <= len && 0 <= k < len
    ensures BackDay(day, len, k) == CycleAt(day, len, k)
  {
    var x := day + len - k;
    if x == 2 * len {
      DivModUnique(x, len, 2, 0);
    } else if x > len {
      DivModUnique(x, len, 1, x - len);
    } else if x == len {
      DivModUnique(x, len, 1, 0);
    } else {
      DivModUnique(x, len, 0, x);
    }
  }

  /** Stepping forward is the same dial read in the other direction. */
  lemma ForwardDayIsCycle(day: int, len: int, k: int)
    requires 1 <= day <= len && 0 <= k < len
    ensures ForwardDay(day, len, k) == CycleAt(day, len, len - 1 - k)
  {
    var x := day + 1 + k;
    if x == 2 * len {
      DivModUnique(x, len, 2, 0);
    } else if x == len {
      DivModUnique(x, len, 1, 0);
    } else if x > len {
      DivModUnique(x, len, 1, x - len);
    } else {
      DivModUnique(x, len, 0, x);
    }
  }

  /** Counting down inside one month, from day `j` to day `dd`. */
  lemma {:induction false} CountDownTail(py: int, pm: int, j: int, dd: int)
    requires 1 <= pm <= 12 && 1 <= dd <= j <= DaysInMonth(py, pm)
    ensures var r := CountDown(Date(py, pm, j), Date(py, pm, dd));
            |r| == j - dd && forall k :: 0 <= k < |r| ==> r[k] == j - k
    decreases j
  {
    var r := CountDown(Date(py, pm, j), Date(py, pm, dd));
    if j > dd {
      CountDownTail(py, pm, j - 1, dd);
      var r' := CountDown(Date(py, pm, j - 1), Date(py, pm, dd));
      assert r == [j] + r';
    }
  }

  /** Counting down from day `j` of the current month to the same day of
      the month before: `j` days of this month, then the previous month's
      days from its last down to just after `d.day`. */
  lemma {:induction false} CountDownHead(d: Date, j: int)
    requires ValidDate(d) && MonthAgo(d).Success? && 1 <= j <= d.day
    ensures var len := PrevMonthLength(d);
            var r := CountDown(Date(d.year, d.month, j), MonthAgo(d).value);
            |r| == j + len - d.day && forall k :: 0 <= k < |r| ==> r[k] == BackDay(j, len, k)
    decreases j
  {
    var (py, pm) := PrevMonth(d.year, d.month);
    var len := PrevMonthLength(d);
    var stop := MonthAgo(d).value;
    var r := CountDown(Date(d.year, d.month, j), stop);
    assert DateLess(stop, Date(d.year, d.month, j));
    if j > 1 {
      CountDownHead(d, j - 1);
      var r' := CountDown(Date(d.year, d.month, j - 1), stop);
      assert r == [j] + r';
    } else {
      CountDownTail(py, pm, len, d.day);
      var r' := CountDown(Date(py, pm, len), stop);
      assert r == [1] + r';
    }
  }

  /** Counting up inside the current month, from day `j` to today. */
  lemma {:induction false} CountUpHead(d: Date, j: int)
    requires ValidDate(d) && 1 <= j <= d.day
    ensures var r := CountUp(Date(d.year, d.month, j), d);
            |r| == d.day - j && forall k :: 0 <= k < |r| ==> r[k] == j + 1 + k
    decreases d.day - j
  {
    var r := CountUp(Date(d.year, d.month, j), d);
    if j < d.day {
      CountUpHead(d, j + 1);
      var r' := CountUp(Date(d.year, d.month, j + 1), d);
      assert r == [j + 1] + r';
    }
  }

  /** Counting up from the last day of the previous month to today:
      this month's days 1 to `d.day`. */
  lemma CountUpMonthEnd(d: Date)
    requires ValidDate(d)
    ensures var r := CountUp(PrevMonthDate(d, PrevMonthLength(d)), d);
            |r| == d.day && forall k :: 0 <= k < |r| ==> r[k] == k + 1
  {
    var last := PrevMonthDate(d, PrevMonthLength(d));
    NextOfPrevMonth(d.year, d.month);
    assert DateLess(last, d);
    assert DayAfter(last) == Date(d.year, d.month, 1);
    CountUpHead(d, 1);
  }

  /** One step of the count up inside the previous month. */
  lemma CountUpStep(d: Date, j: int)
    requires ValidDate(d) && d.day <= j < PrevMonthLength(d)
    ensures CountUp(PrevMonthDate(d, j), d) == [j + 1] + CountUp(PrevMonthDate(d, j + 1), d)
  {
    var p, q := PrevMonthDate(d, j), PrevMonthDate(d, j + 1);
    PrevMonthEarlier(d, j);
    DayAfterInMonth(p);
    assert q == Date(p.year, p.month, j + 1);
    CountUpUnfold(p, d, q);
  }

  lemma PrevMonthEarlier(d: Date, j: int)
    requires 1 <= d.month <= 12
    ensures DateLess(PrevMonthDate(d, j), d)
  {
  }

  lemma DayAfterInMonth(p: Date)
    requires ValidDate(p) && p.day < DaysInMonth(p.year, p.month)
    ensures DayAfter(p) == Date(p.year, p.month, p.day + 1)
  {
  }

  /** One iteration of pyrsnap's loop. */
  lemma CountUpUnfold(prev: Date, now: Date, next: Date)
    requires ValidDate(prev) && ValidDate(now) && DateLess(prev, now) && next == DayAfter(prev)
    ensures CountUp(prev, now) == [next.day] + CountUp(next, now)
  {
  }

  lemma ForwardPrepend(r: seq<int>, j: int, len: int)
    requires j < len
    requires forall k :: 0 <= k < |r| ==> r[k] == ForwardDay(j + 1, len, k)
    ensures forall k :: 0 <= k < |r| + 1 ==> ([j + 1] + r)[k] == ForwardDay(j, len, k)
  {
    forall k | 0 < k < |r| + 1
      ensures ([j + 1] + r)[k] == ForwardDay(j, len, k)
    {
      assert ([j + 1] + r)[k] == r[k - 1];
    }
  }

  /** Counting up from day `j` of the previous month to today: the rest of
      the previous month, then this month up to `d.day`. */
  lemma {:induction false} CountUpTail(d: Date, j: int)
    requires ValidDate(d) && d.day <= j <= PrevMonthLength(d)
    ensures var r := CountUp(PrevMonthDate(d, j), d);
            |r| == PrevMonthLength(d) - j + d.day
            && forall k :: 0 <= k < |r| ==> r[k] == ForwardDay(j, PrevMonthLength(d), k)
    decreases PrevMonthLength(d) - j
  {
    var len := PrevMonthLength(d);
    var r := CountUp(PrevMonthDate(d, j), d);
    if j < len {
      CountUpStep(d, j);
      CountUpTail(d, j + 1);
      ForwardPrepend(CountUp(PrevMonthDate(d, j + 1), d), j, len);
    } else {
      CountUpMonthEnd(d);
    }
  }

  /** Backward monthday labels: construction fails, with ValueError,
      exactly when today's day does not exist in the previous month;
      otherwise the labels are the previous month's dial (28 to 31 days)
      read backwards from today's day: one label per day of that month,
      wrapping from 1 to its last day, every day exactly once. */
  lemma MonthdayBackShape(now: DateTime)
    requires ValidDateTime(now)
    ensures var len := PrevMonthLength(now.date);
            var r := MonthdayBackIds(now);
            && (r.Failure? <==> now.date.day > len)
            && (r.Failure? ==> r.error == ValueError)
            && (r.Success? ==> 28 <= len <= 31 && r.value == Dial(now.date.day, len))
  {
    var d := now.date;
    var len := PrevMonthLength(d);
    var r := MonthdayBackIds(now);
    if r.Success? {
      assert d == Date(d.year, d.month, d.day);
      CountDownHead(d, d.day);
      var days := CountDown(d, MonthAgo(d).value);
      forall k | 0 <= k < len
        ensures r.value[k] == Dial(d.day, len)[k]
      {
        BackDayIsCycle(d.day, len, k);
      }
    }
  }

  /** The days pyrsnap's loop yields: the previous month's dial read
      forwards, ending at today's day. */
  lemma ForwardDays(d: Date)
    requires ValidDate(d) && d.day <= PrevMonthLength(d)
    ensures var len := PrevMonthLength(d);
            var r := CountUp(PrevMonthDate(d, d.day), d);
            |r| == len && forall k :: 0 <= k < len ==> r[k] == CycleAt(d.day, len, len - 1 - k)
  {
    var len := PrevMonthLength(d);
    CountUpTail(d, d.day);
    forall k | 0 <= k < len
      ensures CountUp(PrevMonthDate(d, d.day), d)[k] == CycleAt(d.day, len, len - 1 - k)
    {
      ForwardDayIsCycle(d.day, len, k);
    }
  }

  /** Forward monthday labels: construction fails exactly as the backward
      one does; otherwise one label per day of the previous month, label
      `k` the dial value `len - 1 - k` steps back from today's day. */
  lemma MonthdayForwardShape(now: DateTime)
    requires ValidDateTime(now)
    ensures var len := PrevMonthLength(now.date);
            var r := MonthdayForwardIds(now);
            && (r.Failure? <==> now.date.day > len)
            && (r.Failure? ==> r.error == ValueError)
            && (r.Success? ==>
                  && |r.value| == len
                  && (forall k :: 0 <= k < len ==> r.value[k] == Pad2(CycleAt(now.date.day, len, len - 1 - k))))
  {
    var d := now.date;
    var len := PrevMonthLength(d);
    var r := MonthdayForwardIds(now);
    if r.Success? {
      ForwardDays(d);
      var days := CountUp(PrevMonthDate(d, d.day), d);
      assert r.value == DayLabels(days);
      forall k | 0 <= k < len
        ensures r.value[k] == Pad2(CycleAt(d.day, len, len - 1 - k))
      {
        assert r.value[k] == Pad2(days[k]);
      }
    }
  }

  /** The forward sequence starts the day after today's day (1 after the
      previous month's last day) and ends at today's day. */
  lemma MonthdayForwardEnds(now: DateTime)
    requires ValidDateTime(now) && MonthdayForwardIds(now).Success?
    ensures var ids, len := MonthdayForwardIds(now).value, PrevMonthLength(now.date);
            && |ids| == len
            && ids[0] == Pad2(if now.date.day == len then 1 else now.date.day + 1)
            && ids[len - 1] == Pad2(now.date.day)
  {
    var len := PrevMonthLength(now.date);
    MonthdayForwardShape(now);
    ForwardDayIsCycle(now.date.day, len, 0);
    CycleFirst(now.date.day, len);
  }

  function Reverse<T>(s: seq<T>): (r: seq<T>)
    ensures |r| == |s|
    ensures forall i :: 0 <= i < |s| ==> r[i] == s[|s| - 1 - i]
  {
    seq(|s|, i requires 0 <= i < |s| => s[|s| - 1 - i])
  }

  /** pyrsnap's forward monthday sequence is rsnap.py's backward one read
      in reverse: the same labels, ending (not starting) at today's day;
      both fail on the same dates. */
  lemma MonthdayForwardIsReverse(now: DateTime)
    requires ValidDateTime(now)
    ensures MonthdayForwardIds(now).Success? <==> MonthdayBackIds(now).Success?
    ensures MonthdayBackIds(now).Failure? ==> MonthdayForwardIds(now) == MonthdayBackIds(now)
    ensures MonthdayBackIds(now).Success? ==>
              MonthdayForwardIds(now).value == Reverse(MonthdayBackIds(now).value)
  {
    MonthdayBackShape(now);
    MonthdayForwardShape(now);
  }
}

=== FILE: wrappers.dfy ===
/** Failure-carrying result types used throughout the model.

    rsnap signals failure with Python exceptions; each
    operation that can raise returns a `Result` whose failure side names
    the exception (see `Error`). */
module Wrappers {

  /** Python's `None` versus a present value. */
  datatype Option<+T> = None | Some(value: T) {
    function GetOr(default: T): T {
      match this
      case Some(v) => v
      case None => default
    }
  }

  /** The exceptions the modelled code can raise. */
  datatype Error =
    | TypeError(name: string)                     // unknown profile name, or a call the class rejects
    | ValueError                                  // short option with an argument, or an impossible date
    | StopIteration                               // the abstract cyclic profile's empty identifier sequence
    | AttributeError                              // a method called on Python's `None`
    | NotImplementedError                         // the abstract root profile's storage queries
    | ExecutionError(code: int, output: string)   // rsync exited with a non-whitelisted code

  datatype Result<+R> = Success(value: R) | Failure(error: Error) {
    predicate IsFailure() {
      Failure?
    }

    function PropagateFailure<U>(): Result<U>
      requires Failure?
    {
      Failure(error)
    }

    function Extract(): R
      requires Success?
    {
      value
    }
  }
}
